=== FILE: README.md ===
# BrainMapRevision browser logic in Dafny

This project models the deterministic part of the BrainMapRevision revision
platform's browser code. That code is the glue between the pages and a remote
backend; what remains once the backend, the page and the timers are taken away
is modelled here as pure functions over immutable data, and proved:

- **The theme engine** (`script.js`): theme-name slugs, hex colours, the light/dark
  custom palette and its legacy flat form, the preset table, the style variables
  and local storage written by applying and clearing a theme, the mode toggle,
  start-up and the sync with the equipped theme.
- **The shop** (`assets/js/shop.js`): inventory lookup, the state of a card, the
  category filter, the custom-creator item and the per-slot colour editor.
- **The avatar**: the border colour and filter taken from the equipped cosmetic rows,
  and how they go onto the avatar's inline style.
- **Roles, levels and validators** (`dashboard.js`, `profile.js`, `admin.js`,
  `admin-settings.js`).
- **List filtering and paging** (`past-papers.js`, `admin-questions.js`,
  `admin.js`).
- **Small list state machines**: poem annotations (`poetry-analysis.js`), the
  revision-board editor (`board-creator.js`) and assignment resources
  (`classroom-assignments.js`).
- **The HTML escaping helpers**.

Untyped JavaScript values (rows from the backend, stored JSON, `properties` bags) are
`Js.RawValue`, with `Truthy`, `JsString` and `Get` for `!!x`, `String(x)` and `x?.k`.
The style variables of the document and the local storage are explicit maps
(`Theme.Page`). `JSON.parse`, `Number`, `encodeURIComponent`, remote calls and clocks
are parameters of the functions that use them.

Modules: `Js`, `Text` and `Seqs` (shared helpers); `ThemeNames` (slugs), `Palette`,
`Theme`, `Avatar`, `Shop`; `Dashboard`, `Profile`, `Admin`, `AdminSettings`,
`AdminQuestions`, `PastPapers`; `Poetry`, `Board`, `Assignments`; `Escape`.

## Model

| member | source | states |
|---|---|---|
| ThemeNames.Slug | script.js:16-22 | every theme-name slug is canonical: only `a-z`, `0-9` and `-`, no leading, trailing or doubled `-` |
| ThemeNames.SlugIdempotent | script.js:16-22 | slugging a slug gives it back unchanged |
| ThemeNames.SlugOfCanonical | script.js:16-22 | a name that is already canonical is its own slug |
| ThemeNames.SlugOfDisplayName | script.js:16-22 | "Ocean Wave Theme" slugs to "ocean-wave": the trailing " theme" is dropped and spaces become `-` |
| ThemeNames.SlugOfPresetKey | script.js:16-22 | the preset key "ocean-wave" slugs to itself, so display name and key pick the same preset |
| ThemeNames.SlugOfMissingName | script.js:16-22 | a missing name slugs to the empty string |
| ThemeNames.CollapseRuns | script.js:20 | replacing each run of other characters by one `-` leaves only slug characters and `-`, never two `-` in a row, and keeps a leading slug character |
| ThemeNames.DropThemeSuffix | script.js:19 | dropping the " theme" suffix only ever shortens the text to a prefix of itself, and text without white space is kept whole |
| Palette.NormalizeHex | script.js:57-62 | a falsy value gives the fallback; any other result is a valid hex colour of the required case |
| Palette.NormalizeHexSpec | script.js:57-62 | the result is the trimmed text exactly when that is `#` and six hex digits (upper-cased for the shop's version), and the fallback otherwise |
| Palette.NormalizeHexFixes | assets/js/shop.js:66-70 | a colour that is already valid comes back unchanged, so normalising twice changes nothing |
| Palette.UpperKeepsHexColor | assets/js/shop.js:66-70 | upper-casing a text does not change whether it is a hex colour |
| Palette.DefaultsComplete | script.js:64-91 | every slot of both default palettes is a valid hex colour, in either case convention |
| Palette.NormalizeSlots | script.js:101-110 | each slot is the normalised source value for that key, falling back to the default slot |
| Palette.Normalize | script.js:93-114 | the result always has both modes with all ten slots valid; a falsy or non-object input gives the defaults |
| Palette.NormalizeSources | script.js:96-111 | an input without both `light` and `dark` is read as a flat light palette and keeps the default dark palette; otherwise each mode is read from its own sub-object |
| Palette.NormalizeComplete | script.js:93-114 | normalising the value of a complete palette gives that palette back |
| Palette.NormalizeIdempotent | assets/js/shop.js:84-103 | normalising a normalised palette again changes nothing |
| Palette.UpperIsKeepCase | assets/js/shop.js:84-103 | a palette complete under the shop's upper-case rule is also complete under the case-keeping rule of the theme engine |
| Palette.PaletteValue | script.js:157-158 | the stored value of a palette is an object with both modes, each holding the palette's slot values |
| Theme.Preset | script.js:7-14 | every preset found has a non-empty primary and secondary colour |
| Theme.DropFirstHash | script.js:25 | only the first `#` is removed: text without `#` is kept, text with one loses exactly one character |
| Theme.HexToRgba | script.js:24-31 | text that is not six UTF-16 code units long once its first `#` is removed gives the fixed blue fallback |
| Theme.HexToRgbaOfUnits | script.js:24-31 | six code units are read in pairs, one channel each, in order red, green, blue |
| Theme.AstralColourIsNaN | script.js:24-31 | `#` and three characters above U+FFFF are six code units, so they pass the length test, and every channel prints as NaN |
| Theme.SmileyColourIsNaN | script.js:24-31 | `#😀😀😀` gives `rgba(NaN, NaN, NaN, alpha)`, not the fallback |
| Theme.HexToRgbaOfColor | script.js:24-31 | for a hex colour the three channels are the decimal values of its three digit pairs |
| Theme.ApplyThemeColors | script.js:45-55 | applies exactly when both colours are truthy; then it writes exactly the four accent variables, the shadow from the primary colour at the mode's alpha, and the theme name only when persisting with a name; otherwise nothing changes |
| Theme.ApplyCustomPalette | script.js:128-163 | applies exactly for an object; then it writes exactly the accent and surface variables from the normalised palette of the current mode, the shadow as the primary accent at the mode's alpha, and when persisting stores the normalised palette and the creator's name |
| Theme.AppliedCompletePalette | script.js:128-163 | a complete palette is applied as it is: every variable shows its slot for the current mode, the mode is kept, and storage gains exactly the palette text and the creator's name when persisting |
| Theme.ClearCustomPalette | script.js:165-178 | removes exactly the eleven theme variables and the stored palette; everything else is kept |
| Theme.ClearThemeColors | script.js:180-185 | removes exactly the four accent variables; everything else is kept |
| Theme.StoredPalette | script.js:116-126 | a palette is read back exactly when the stored text is non-empty and parses to an object, and it is then that object normalised; a missing or empty entry, a syntax error and a non-object give none; a palette read back is complete |
| Theme.ApplyBySlug | script.js:187-199 | the creator slug applies exactly when a palette is stored, any other slug exactly when it names a preset; a failed application changes nothing |
| Theme.ApplyNamedTheme | script.js:187-199 | a failed application changes nothing, the mode is never touched, and storage is untouched unless persisting |
| Theme.NamedThemeApplies | script.js:187-199 | by name: the creator applies iff a palette is stored, any other name iff its slug is a preset |
| Theme.NamedPreset | script.js:196-198 | a preset name applies the preset's two colours and persists the name as given, not its slug |
| Theme.NamedCreator | script.js:189-193 | the creator name applies the stored palette |
| Theme.UnknownNameChangesNothing | script.js:196-197 | a name that is neither the creator nor a preset leaves variables and storage alone and reports failure |
| Theme.PresetByName | script.js:187-199 | a preset by name writes only the accent variables, its own two colours, and stores the original name |
| Theme.PresetKeepsSurfaceVars | script.js:45-55 | applying a preset leaves every text and surface variable a custom palette set before |
| Theme.AccentsKeepSurface | script.js:45-55 | applying two colours never touches a text or surface variable |
| Theme.ClearUndoesThemeColors | script.js:180-185 | on a page without accent variables, clearing undoes a non-persisting colour application completely |
| Theme.ClearUndoesCustomPalette | script.js:165-178 | on a page without theme variables, clearing undoes a non-persisting palette application's variables |
| Theme.StoredPaletteRoundTrip | script.js:116-163 | with a faithful JSON parser, the palette a persisting application stores reads back as the normalised palette |
| Theme.Toggle | script.js:323-333 | the mode flips and is stored as "dark" or "light"; with no equipped theme the variables are unchanged |
| Theme.Flipped | script.js:325-329 | the flip changes only the mode and its storage entry |
| Theme.ToggleFollowsMode | script.js:323-333 | with the creator equipped, after a toggle the text and accent variables come from the stored palette's new mode and the equipped name is kept |
| Theme.Load | script.js:311-320 | start-up is in dark mode exactly when "dark" is stored, keeps the storage, and sets no variables without an equipped theme |
| Theme.FindThemeRow | script.js:284-286 | a row found is a truthy item of category "theme" |
| Theme.Sync | script.js:270-301 | a failed query or a non-array answer changes nothing, and the mode is never touched |
| Theme.SyncFallbackInert | script.js:294-297 | the creator fallback after a failed by-name application never changes the page, since by name the creator fails only when no palette is stored |
| Avatar.NamedBorderColor | script.js:205-213 | every colour word maps to a valid hex colour |
| Avatar.ResolveBorderColor | script.js:201-215 | the result is empty or a hex colour: the trimmed lower-cased text when it is one, else the colour of a known word, else empty |
| Avatar.NamedWordResolves | script.js:201-215 | a colour word is found whatever its case and surrounding white space |
| Avatar.BorderColorOf | script.js:226 | the colour a border row gives is empty or a hex colour |
| Avatar.AppearanceFromRows | script.js:217-239 | a non-array gives no appearance; the border colour is the last border row's colour, even an empty one, and the filter is the last non-blank filter of a border or avatar row |
| Avatar.LastOrMeaning | script.js:219-237 | the last-wins fold gives the value of the last matching row, or nothing when no row matches |
| Avatar.SetOrRemove | script.js:256-268 | a non-empty value is set and an empty one removed; every other property is untouched |
| Avatar.ApplyAvatarAppearance | script.js:256-268 | with an element, the border colour and filter are set when given and removed when empty, and other properties are untouched; without one nothing happens |
| Avatar.ApplyAvatarIdempotent | script.js:256-268 | applying the same appearance twice is the same as once |
| Avatar.ApplyAvatarOverrides | script.js:256-268 | a second appearance fully replaces the first |
| Shop.InventoryRecord | assets/js/shop.js:127-129 | a record found has the item's id and is in the inventory; none is found exactly when no record has that id |
| Shop.CreatorItemByName | assets/js/shop.js:131-138 | only themes can be the creator item, and a theme named by the creator slug always is |
| Shop.IsCustomCreatorItem | assets/js/shop.js:131-138 | only a theme can be the creator item, and a theme whose `type` property is "creator" in any letter case is |
| Shop.CustomCreatorItem | assets/js/shop.js:140-142 | none exactly when no item is the creator; otherwise the first item that is |
| Shop.CreatorStatusOf | assets/js/shop.js:144-153 | owned exactly when there is a creator item and an inventory record for it; then it is that item, and equipped is the record's flag |
| Shop.RenderCard | assets/js/shop.js:171-221 | a card shows as owned exactly when a record exists; an unowned item above the buyer's level is locked; otherwise it is for sale, affordable exactly when the coins cover the price, and the buy button is disabled exactly when not affordable |
| Shop.BuyEnabledExactly | assets/js/shop.js:171-221 | buying is possible exactly when the item is not owned, the level is reached and the coins cover the price |
| Shop.EquippedCardNeedsRecord | assets/js/shop.js:171-221 | a card shows as equipped only when an inventory record for it is equipped |
| Shop.ShownItems | assets/js/shop.js:251-261 | "all" shows every item, and no filter shows more items than there are |
| Shop.ShownItemsSpec | assets/js/shop.js:251-261 | the items shown keep their order, and under any other filter are exactly the items of that category |
| Shop.ApplyThemeForItem | assets/js/shop.js:390-401 | a non-theme item changes nothing, and no item changes the mode |
| Shop.ItemThemeByName | assets/js/shop.js:390-401 | a theme that applies by name is applied by name |
| Shop.ItemColorsFallback | assets/js/shop.js:390-401 | when the name fails, the item's colours are used only if both are present; otherwise nothing changes |
| Shop.SetCustomMode | assets/js/shop.js:344-350 | the editor's mode is dark exactly for "dark", and the palette is kept |
| Shop.OpenPanel | assets/js/shop.js:352-379 | the editor opens, in the same mode, on the stored palette upper-cased when one is read back and on the defaults otherwise, always complete |
| Shop.ReopenShowsStored | assets/js/shop.js:360-362 | a stored complete upper-case palette is exactly what the panel opens on |
| Shop.EditColor | assets/js/shop.js:454-467 | a valid colour is stored upper-cased in the edited slot of the current mode; invalid text keeps the previous value; no other slot or mode changes |
| Shop.InvalidEditChangesNothing | assets/js/shop.js:454-467 | invalid text leaves the editor exactly as it was |
| Shop.EditKeepsComplete | assets/js/shop.js:454-467 | editing never makes a complete palette incomplete |
| Shop.UpperNormalizeDiffers | assets/js/shop.js:462 | the normalised text differs from the upper-cased input exactly when the upper-cased input is not a hex colour |
| Shop.InvalidFlagExact | assets/js/shop.js:462 | the field is flagged invalid exactly when its upper-cased text is not a hex colour |
| Shop.PickSwatch | assets/js/shop.js:490-502 | a swatch sets only its slot in the current mode; an empty swatch colour changes nothing |
| Shop.ResetEditor | assets/js/shop.js:553-558 | the editor holds the defaults in its mode; every variable shows the default slot of the current mode, the mode is kept, and storage gains exactly the defaults' text and the creator's name |
| Shop.ResetThenReopen | assets/js/shop.js:553-558 | reopening the panel after a reset shows exactly the reset editor |
| Shop.ReopenAfterStoring | assets/js/shop.js:360-362 | whatever complete upper-case palette is stored, reopening shows it in the editor's mode |
| Shop.ApplyEditor | assets/js/shop.js:533-551 | without the creator owned nothing changes; when it is equipped the editor's palette is applied and stored; otherwise the equip step runs first, and an apply follows only when the equip and refresh succeed, with the editor the refresh leaves |
| Shop.ApplyEditorStoresPalette | assets/js/shop.js:541-545 | with the creator equipped, a complete editor palette is shown variable by variable and stored exactly |
| Shop.EditedPaletteApplies | script.js:128-163 | applying a complete upper-case palette shows each slot of the current mode, stores exactly its text and the creator's name, and keeps the mode |
| Shop.EquipStepOutcome | assets/js/shop.js:413-420 | the apply goes on exactly when the creator was equipped or the equip and refresh both succeeded; the editor keeps its mode and completeness, and the page its mode |
| Shop.ApplyEditorDiscardsEdits | assets/js/shop.js:541-545 | when the equip step refreshes the panel, the unsaved edits are lost: any two editors in the same mode give the same result |
| Shop.ApplyEditorShowsEditor | assets/js/shop.js:541-545 | after an apply that goes through, the page shows and stores the editor's complete palette |
| Shop.ApplyThenReopen | assets/js/shop.js:545 | reopening the panel after an apply shows exactly the editor left by the apply |
| Dashboard.ParseRole | assets/js/dashboard.js:31 | a role name is recognised exactly when it is one of the three role names |
| Dashboard.ValidRoles | assets/js/dashboard.js:28-31 | the valid roles are exactly those named by some entry after trimming and lower-casing |
| Dashboard.NormalizeRoles | assets/js/dashboard.js:27-39 | the role list is never empty and has no duplicates |
| Dashboard.NormalizeRolesContents | assets/js/dashboard.js:28-38 | when some entry names a role, the list holds exactly the named roles, in order of first appearance |
| Dashboard.NormalizeRolesFallback | assets/js/dashboard.js:33-36 | when no entry names a role, the list is the single fallback role |
| Dashboard.HighestRole | assets/js/dashboard.js:41-46 | admin if present, else teacher if present, else student |
| Dashboard.PrimaryRole | assets/js/dashboard.js:41-46 | the primary role is one of the profile's roles, admin before teacher before student |
| Dashboard.Clamp100 | assets/js/dashboard.js:481 | the percentage is within 0 to 100, and a value already in range is kept |
| Dashboard.UpdateLevelProgress | assets/js/dashboard.js:469-481 | a missing or zero level counts as 1; level n starts at (n−1)²·100 XP and ends at n²·100; the XP in the level is the XP less the start; the XP a level needs is (2·level − 1)·100, positive; the percentage is within 0 to 100 |
| Dashboard.LevelsAdjoin | assets/js/dashboard.js:476-477 | each level starts where the previous one ends, and ends above where it starts |
| Dashboard.LevelProgressShare | assets/js/dashboard.js:472-481 | inside the level the percentage is the XP earned in it over the XP it needs; below it 0, at or above the next level 100 |
| Dashboard.BeforeAt | assets/js/dashboard.js:230 | the part of an email before the first `@`: a prefix with no `@`, followed by `@` when shorter |
| Dashboard.CreateUserProfile | assets/js/dashboard.js:227-240 | a new profile keeps the account's id and email, starts at 0 XP, level 1, 0 coins and 5 hints; its role is the metadata role lower-cased, student without one, and its roles are just that role; the year group is the metadata one or null; the username is the given one or the email before `@` |
| Dashboard.SingleRoleNamed | assets/js/dashboard.js:27-39 | a profile whose one role entry names a role normalises to just that role |
| Dashboard.SingleRoleUnnamed | assets/js/dashboard.js:33-36 | a profile whose role names no role normalises to student |
| Dashboard.NewProfileRoles | assets/js/dashboard.js:227-240 | a new profile's roles normalise to its role when that is valid, else to student |
| Text.CodeUnits | script.js:24-31 | the code units that `slice` works on are as many as the UTF-16 length, and are the characters themselves when none is above U+FFFF |
| Text.ParseIntOfSurrogate | script.js:27-29 | text that starts with half a surrogate pair reads as NaN |
| Text.Utf16Length | assets/js/profile.js:329-333 | the JavaScript length counts one code unit per character up to U+FFFF and two above, so it lies between the character count and twice it, and equals the character count exactly when no character is above U+FFFF |
| Text.ParseInt | assets/js/classroom-assignments.js:273 | blank text reads as NaN, and text whose first non-blank character is a decimal digit (and not a `0x` prefix) reads as a non-negative number |
| Profile.ValidateUsernameFormat | assets/js/profile.js:324-348 | a name is valid exactly when it is non-blank, 3 to 50 UTF-16 code units long and only letters, digits and `_`; each failure gives its own message in the order required, too short, too long, bad characters |
| Profile.UsernameAcceptedExactly | assets/js/profile.js:324-348 | the required rule adds nothing: 3 to 50 word characters is valid and nothing else is |
| Profile.SubmitPersonalInfo | assets/js/profile.js:353-373 | an invalid trimmed name gives its message; a valid changed name that is unavailable is refused; otherwise the trimmed name is saved, with an empty year group as none |
| Profile.UnchangedNameSkipsCheck | assets/js/profile.js:367-373 | an unchanged name is never refused and does not depend on the availability answer |
| Profile.ChangePassword | assets/js/profile.js:433-443 | a mismatch is reported before the length; a matching password shorter than 8 UTF-16 code units is refused; otherwise exactly that password is sent |
| Profile.RoleLabel | assets/js/profile.js:117-122 | "Admin" exactly for admin, "Teacher" exactly for teacher, "Student" for anything else |
| Profile.AccentColor | assets/js/profile.js:153-161 | a trimmed value starting with `#` gives the rest of it, anything else the default purple |
| Profile.AccentOfHexColor | assets/js/profile.js:153-161 | a hex accent colour gives its six hex digits |
| Admin.SafeRoles | assets/js/admin.js:33 | a non-empty role array is kept, anything else becomes student alone |
| Admin.RoleExtras | assets/js/admin.js:34 | the extras keep order and are exactly the safe roles other than the primary one |
| Admin.RoleBadge | assets/js/admin.js:27-30 | a truthy role gets the badge of that role escaped; a missing, null or empty role gets the student badge |
| Admin.Badges | assets/js/admin.js:36-37 | one inline badge per extra role, in order, with no student fallback |
| Admin.RoleSetHtml | assets/js/admin.js:32-39 | empty exactly when there are no extra roles; otherwise the first extra role's badge followed by a space and a badge for each later extra role, in order |
| Admin.RenderStats | assets/js/admin.js:41-49 | the total is the number of users, each role count is the number of users whose role is exactly that role, and the three never add up to more than the total |
| Admin.Initials | assets/js/admin.js:53 | at most two characters, with no lower-case letter; for a string, its first two characters upper-cased |
| Admin.InitialsFromUser | assets/js/admin.js:51-54 | the initials come from the username, else the email, else "U" |
| Admin.SearchTerm | assets/js/admin.js:144 | the term is empty exactly when the search text is blank |
| Admin.Search | assets/js/admin.js:143-154 | a blank search keeps every row; any search keeps rows in order |
| Admin.SearchMembership | assets/js/admin.js:145-151 | with a search term, a row is kept exactly when it matches the trimmed lower-cased term |
| Admin.RenderTable | assets/js/admin.js:143-154 | a blank search shows every user, and the users shown keep their order |
| Admin.RenderTableMembership | assets/js/admin.js:145-151 | with a search term, a user is shown exactly when the lower-cased username or email contains it |
| Admin.RewardPackValues | assets/js/admin.js:197-202 | weekly gives 250 XP, 300 coins and 5 hints, mega 500, 600 and 10, anything else the starter 100, 150 and 3 |
| Admin.RewardPacksOrdered | assets/js/admin.js:197-202 | every pack grants something of each kind, at most the mega amounts, and no pack means the starter pack |
| Admin.CheckedRoles | assets/js/admin.js:240-243 | the roles collected are exactly those of the ticked boxes |
| Admin.CheckedRolesInOrder | assets/js/admin.js:240-243 | the roles collected are the role texts of the ticked boxes, in box order |
| Admin.CollectRoles | assets/js/admin.js:239-245 | never empty: the ticked roles, or student alone when none is ticked |
| Admin.CollectRolesInOrder | assets/js/admin.js:239-245 | the ticked boxes' roles in box order, or student alone when none is ticked |
| Admin.SetUserPassword | assets/js/admin.js:318-321 | a password shorter than 8 UTF-16 code units is refused before any call; otherwise exactly that password is sent |
| AdminQuestions.FilterQuestions | assets/js/admin-questions.js:60-71 | a blank search keeps every question; any search keeps order |
| AdminQuestions.FilterQuestionsMembership | assets/js/admin-questions.js:60-71 | with a search term, a question is kept exactly when its subject, topic, question or difficulty contains it, ignoring case |
| AdminQuestions.TotalPages | assets/js/admin-questions.js:81 | at least one page, and exactly the fewest pages of the given size that hold all rows |
| AdminQuestions.Slice | assets/js/admin-questions.js:85 | a slice is the rows between the bounds cut to the length, never longer than the bounds allow |
| AdminQuestions.PageStart | assets/js/admin-questions.js:83 | page p from 1 up starts at row (p − 1)·size |
| AdminQuestions.Paginate | assets/js/admin-questions.js:73-104 | no rows show "Page 1 of 1" with both buttons off; otherwise the page is cut to the last one, previous is off exactly on page 1 or below, next exactly on the last page, and at most a page of rows is shown |
| AdminQuestions.RenderQuestions | assets/js/admin-questions.js:60-105 | the same bounds and button rules for the questions that match the search |
| AdminQuestions.PaginatedRows | assets/js/admin-questions.js:81-85 | on a page from 1 up the page is within range and shows the non-empty run of rows from (page − 1)·size |
| AdminQuestions.EveryRowHasAPage | assets/js/admin-questions.js:81-85 | every matching row k is shown on page k div size + 1, at position k mod size |
| AdminQuestions.Rerender | assets/js/admin-questions.js:82 | rendering writes back the clamped page and keeps size and search |
| AdminQuestions.OnSearch | assets/js/admin-questions.js:188-191 | a new search goes back to page 1 |
| AdminQuestions.OnPageSize | assets/js/admin-questions.js:192-196 | a new page size goes back to page 1 |
| AdminQuestions.OnPrev | assets/js/admin-questions.js:203-206 | previous goes back at least one page, but never below 1 |
| AdminQuestions.OnNext | assets/js/admin-questions.js:207-210 | next goes one page on, but never past the last page |
| AdminQuestions.HandlersKeepPageValid | assets/js/admin-questions.js:188-210 | whatever handler runs, the current page stays at 1 or more |
| AdminQuestions.AddQuestion | assets/js/admin-questions.js:121-150 | options that do not parse, or parse to something other than an array, are refused before any call; otherwise the parsed array is sent, and the question fields are cleared only on success |
| AdminSettings.NumberOr | assets/js/admin-settings.js:277 | an empty field reads as its default, anything else as the number it gives |
| AdminSettings.AddShopItem | assets/js/admin-settings.js:273-311 | the first failing check among name, price, minimum level and properties is reported and nothing is sent; a request has the trimmed name, a positive price, a level of at least 1 and `{}` for empty properties; the form is reset only after success |
| AdminSettings.ItemRequest | assets/js/admin-settings.js:293-301 | the request sent: trimmed name and description (none when empty), positive price, level of at least 1, and the parsed properties or `{}` |
| AdminSettings.EmptyMinLevelPasses | assets/js/admin-settings.js:280-281 | an empty minimum level reads as 1 and passes |
| AdminSettings.EmptyPropertiesPass | assets/js/admin-settings.js:283-291 | empty properties pass |
| AdminSettings.EmptyPriceFails | assets/js/admin-settings.js:277-278 | an empty price reads as 0 and fails |
| AdminSettings.EmptyFieldsAfterReset | assets/js/admin-settings.js:280-291 | empty minimum-level and properties fields never refuse an item: it is accepted exactly when it has a name and a positive price |
| AdminSettings.ResetFormNeedsNameAndPrice | assets/js/admin-settings.js:304-310 | in the form as the reset leaves it, with `Number("1")` being 1, an item is accepted exactly when it has a name and a positive price |
| AdminSettings.ApplyMultipleRoles | assets/js/admin-settings.js:313-321 | an email is required, then at least one role; the roles sent are exactly the ticked ones, in the order student, teacher, admin |
| AdminSettings.Ticked | assets/js/admin-settings.js:317-320 | the ticked roles, each present exactly when ticked, in box order |
| AdminSettings.DeleteSucceeded | assets/js/admin-settings.js:230-231 | success exactly for `true` or an array starting with `true` |
| AdminSettings.ToggleButton | assets/js/admin-settings.js:170-183 | an active item offers "Deactivate" and sends false; an inactive one offers "Activate" and sends true |
| AdminSettings.ActiveCell | assets/js/admin-settings.js:179 | the cell reads "yes" exactly for a truthy flag, and "no" otherwise |
| AdminSettings.ToggleOffersTheOtherState | assets/js/admin-settings.js:170-183 | the button always offers the state the row is not shown in |
| AdminSettings.AvatarItems | assets/js/admin-settings.js:202-205 | the rows kept are, in order, exactly those whose properties type is "avatar" in any case |
| AdminSettings.LoadShopItems | assets/js/admin-settings.js:142-160 | a successful call gives its rows; an error is raised unless it says the call is missing, and only then is the table read |
| AdminSettings.TableOnlyAsFallback | assets/js/admin-settings.js:145-149 | unless the call is missing, the table's answer makes no difference |
| AdminSettings.DefaultAvatarInitials | assets/js/admin-settings.js:89-92 | at most two characters: the seed's first two upper-cased, or "U" for no seed |
| AdminSettings.OwnAvatarMatchesTable | assets/js/admin-settings.js:105-106 | the settings page's own avatar shows the same initials as the user's row in the admin table |
| PastPapers.Stage | assets/js/past-papers.js:119-146 | each filter stage keeps questions in order |
| PastPapers.Pipeline | assets/js/past-papers.js:115-150 | any sequence of filter stages keeps questions in order |
| PastPapers.PipelineIsFilter | assets/js/past-papers.js:115-150 | running the stages one after another is the single filter by all active criteria together |
| PastPapers.ApplyFilters | assets/js/past-papers.js:115-150 | the questions shown keep their order |
| PastPapers.ApplyFiltersConjunctive | assets/js/past-papers.js:115-150 | the questions shown are, in order, exactly those passing every non-empty filter |
| PastPapers.ApplyFiltersMembership | assets/js/past-papers.js:115-150 | a question is shown exactly when it passes every non-empty filter |
| PastPapers.ClearFilters | assets/js/past-papers.js:152-159 | with the filters cleared every question passes |
| PastPapers.ClearShowsAll | assets/js/past-papers.js:152-168 | after clearing, every question is shown in its order |
| PastPapers.ResultsLabel | assets/js/past-papers.js:327-329 | exactly "Showing n question", with one trailing "s" exactly when n is not 1 and nothing else |
| PastPapers.InsertYear | assets/js/past-papers.js:101 | inserting a year into a strictly descending list keeps it strictly descending and adds only that year |
| PastPapers.YearOptions | assets/js/past-papers.js:100-109 | the year options are strictly descending and exactly the years of the questions |
| PastPapers.YearOptionsCanonical | assets/js/past-papers.js:100-109 | they are the only such list: any strictly descending list of the same years is the same list |
| Poetry.PoemKey | assets/js/poetry-analysis.js:59-62 | no poem gives the empty key; otherwise the key is the author, three bar characters and the title |
| Poetry.PoemKeyInjective | assets/js/poetry-analysis.js:59-62 | for authors without a bar character, two poems share a key only with the same author and title |
| Poetry.OpenLine | assets/js/poetry-analysis.js:146-186 | a missing or blank line is ignored; a non-blank line always opens the modal on that line, with no annotation being edited, the language tab selected and an empty draft |
| Poetry.OpenExisting | assets/js/poetry-analysis.js:166-186 | editing an annotation opens its type and its text |
| Poetry.CloseModal | assets/js/poetry-analysis.js:188-192 | closing forgets the line and the annotation being edited |
| Poetry.Draft | assets/js/poetry-analysis.js:326-333 | the annotation saved carries the poem's key, the line, the type and the trimmed text |
| Poetry.Save | assets/js/poetry-analysis.js:322-342 | a blank draft or no poem does nothing; editing replaces exactly that annotation, otherwise one is appended; the modal closes |
| Poetry.Delete | assets/js/poetry-analysis.js:225-233 | exactly the annotation at the index is removed, the others keep their order |
| Poetry.Relevant | assets/js/poetry-analysis.js:194-195 | the list holds, in order, exactly the annotations of the poem shown |
| Poetry.CountLabel | assets/js/poetry-analysis.js:196 | no count without annotations, else their number in brackets |
| Poetry.LineClassIsLast | assets/js/poetry-analysis.js:133-134 | a line is highlighted with the type of the last annotation on it, and not at all without one |
| Poetry.LineClass | assets/js/poetry-analysis.js:133-134 | a line has no class exactly when no annotation of the poem is on it; otherwise the class is `highlighted-` and the type of an annotation on it |
| Poetry.SavedAnnotationHighlights | assets/js/poetry-analysis.js:133-134 | a newly saved annotation becomes its line's highlight |
| Poetry.AppendChip | assets/js/poetry-analysis.js:305-309 | the chip is added at the end, after a line break only when there was text |
| Poetry.AppendPoint | assets/js/poetry-analysis.js:299-303 | a scaffold point followed by ": " is the whole text of an empty textarea, and is added after a "\n" to a non-empty one |
| Board.Toggle | assets/js/board-creator.js:92-101 | on the page the select flips open and closed; otherwise nothing changes |
| Board.Close | assets/js/board-creator.js:103-112 | on the page the select is closed; nothing else changes |
| Board.ToggleTwice | assets/js/board-creator.js:92-101 | toggling twice gives the select back |
| Board.Choose | assets/js/board-creator.js:114-132 | choosing keeps the value and text, closes, and hands the value on exactly when there is a listener |
| Board.NoteItem | assets/js/board-creator.js:690-697 | a note has just its type, empty content and the time |
| Board.FlashcardItem | assets/js/board-creator.js:699-707 | a flashcard has just its type, empty sides and the time |
| Board.LinkItem | assets/js/board-creator.js:709-717 | a link has just its type, empty url and title and the time |
| Board.AddItem | assets/js/board-creator.js:690-717 | one item of the chosen type is added at the end and the earlier items are unchanged |
| Board.DeleteItem | assets/js/board-creator.js:719-728 | a confirmed delete removes exactly that index; otherwise nothing changes |
| Board.UpdateField | assets/js/board-creator.js:648-677 | a blur edit changes only that field of that item, and nothing when the index does not exist |
| Board.NumberValue | assets/js/board-creator.js:397 | a parsed integer is a number, and no number gives NaN |
| Board.BoardData | assets/js/board-creator.js:387-400 | title and description trimmed, an empty description and an unchosen subject are null, the subject otherwise parsed, and the content reset to no items |
| Board.SubjectIdKept | assets/js/board-creator.js:389-397 | a decimal subject id is stored as that number |
| Board.Duplicate | assets/js/board-creator.js:792-799 | the copy is private, owned by the current user, and copies description, subject and content |
| Board.DuplicateTitle | assets/js/board-creator.js:794 | the copy's title is the original's followed by " (Copy)" |
| Board.ItemCount | assets/js/board-creator.js:319 | the length of the content's items, counted in UTF-16 code units when they are text, 0 when they are missing |
| Board.SubjectName | assets/js/board-creator.js:318 | the subject's name, or "No Subject" without one |
| Board.DuplicateKeepsItemCount | assets/js/board-creator.js:792-799 | a copy shows as many items as its original |
| Assignments.NameOr | assets/js/classroom-assignments.js:131 | the name of the entry with that id, or the fallback when there is none |
| Assignments.ResourceHref | assets/js/classroom-assignments.js:107-125 | a link goes to its url or `#`, past papers embed the subject id, page kinds stay under the base path, unknown kinds go to `#` |
| Assignments.ListHref | assets/js/classroom-assignments.js:193-199 | in the list, past papers add the exam board when there is one and flashcards and quizzes add the subject when set |
| Assignments.ListHrefExtendsResourceHref | assets/js/classroom-assignments.js:193-199 | the list's address is the resource address with only those query parts added; for past papers this holds when the subject is set, since an unset `ref_id` gives `?subject=null` or `?subject=0` in the resource address but `?subject=` in the list's |
| Assignments.ResourceLabel | assets/js/classroom-assignments.js:127-145 | a caption wins; otherwise each kind has its own label with its fallback, and unknown kinds show the kind |
| Assignments.ChipLabel | assets/js/classroom-assignments.js:267 | a chip shows its display label, else the resource's own label: its caption, a link's address or "Link", an unknown kind's name |
| Assignments.PastPapersLabel | assets/js/classroom-assignments.js:133 | ends with " Past papers", after the exam board when there is one |
| Assignments.PickedId | assets/js/classroom-assignments.js:322-323 | only a non-empty pick that parses to a non-zero integer counts |
| Assignments.AddResource | assets/js/classroom-assignments.js:312-349 | subject kinds and guides need a picked id, a link needs a url and defaults its caption to it, and an unknown kind is added bare |
| Assignments.RemoveChip | assets/js/classroom-assignments.js:273 | exactly the chip at the index is removed |
| Assignments.AssignmentId | assets/js/classroom-assignments.js:379 | the id is that of the first row of an array answer, else that of the answer itself, else null |
| Assignments.Stored | assets/js/classroom-assignments.js:384-387 | unset fields are stored as null, the others as they are |
| Assignments.ResourceRows | assets/js/classroom-assignments.js:381-389 | one row per resource, numbered by its position and tied to the assignment |
| Assignments.InsertedRows | assets/js/classroom-assignments.js:380-390 | rows are inserted exactly when there is an id and at least one resource |
| Assignments.RowsInPickingOrder | assets/js/classroom-assignments.js:381-389 | an earlier resource always gets a lower sort order |
| Assignments.SavedLabelMatchesChip | assets/js/classroom-assignments.js:312-349 | the label a saved resource shows is the label its chip showed |
| Escape.EscapeText | script.js:624-631 | no `<`, `>`, `"` or `'` remains, and every character is replaced by its entity |
| Escape.EscapeHtml | assets/js/admin.js:18-25 | no `<`, `>`, `"` or `'` remains, and a missing value gives the empty string |
| Escape.EscapeTextRoundTrip | assets/js/admin.js:18-25 | decoding the entities gives the original text back, so `&` is only left where it starts an entity |
| Escape.EscapeTextInjective | assets/js/admin.js:18-25 | two different texts never escape to the same text |
| Escape.EscapeAttrText | assets/js/poetry-analysis.js:51-57 | no `<`, `>` or `"` remains, and a `'` is left exactly where there was one |
| Escape.EscHtml | assets/js/poetry-analysis.js:51-57 | no `<`, `>` or `"` remains, and a falsy value gives the empty string |
| Escape.EscapeAttrTextRoundTrip | assets/js/poetry-analysis.js:51-57 | decoding the entities gives the original text back |
| Escape.UnescapeEscapeChars | script.js:624-631 | for both rule sets, decoding undoes the per-character escaping |
| Escape.ReplaceChar | script.js:626 | replacing a character that is absent changes nothing, and the character is gone if its replacement lacks it |
| Escape.HtmlRulesOrdered | script.js:626-630 | `&` is replaced first, so the later replacements act per character |

## Left out

- Supabase: authentication, queries, remote calls and uploads. Their answers are parameters (`remoteOk`, `available`, `Response`), so the remote side is opaque. `fetchAvatarAppearanceForUser` (script.js:241-254) is only a query, so it is not modelled; its result feeds `Avatar.AppearanceFromRows`.
- The page: the DOM, `innerHTML` templates, classes, focus and scrolling. The document's style variables and local storage are explicit maps.
- Root and body styles are set together, so they are modelled as one map.
- `body.style` is not modelled separately.
- Timers, debounces, polling, retries and toasts are not modelled. Neither are the notification queue, the stats counter, the poetry `fetch` calls and the date formatting.
- Time stamps (`Date.now`, ISO dates) are parameters. So is the base path, which comes from `window.location`.
- `JSON.parse` is a parameter. The palette's JSON text is concrete. `Theme.StoredPaletteRoundTrip` assumes only that the parser reads that text back.
- `Number` and `encodeURIComponent` are parameters.
- `parseInt` is modelled for radix 10, radix 16 and no radix, which are the only ones the code uses.
- Floating point: the shadow alpha is a per-mode constant text. Level progress uses `real`, and the `toFixed` text is not modelled.
- Letter case is mapped for ASCII letters only. White space is the JavaScript set.
- A Dafny string is a sequence of Unicode scalar values. The length checks, the item count of a board and the colour channels of `hexToRgba` count UTF-16 code units as JavaScript does (`Text.Utf16Length`, `Text.CodeUnits`). `Text.CodeUnits` writes both halves of a surrogate pair as U+FFFD: like a real surrogate, it is no digit, sign or white space to `parseInt`. The other `substring` calls and indexing count characters, which differ from JavaScript only for characters above U+FFFF.
- Admin.Initials: for a seed starting with a character above U+FFFF, `substring(0, 2)` takes that one character as its two code units; the model takes the first two characters.
- AdminSettings.DefaultAvatarInitials: the same difference as `Admin.Initials` for characters above U+FFFF.
- `getComputedStyle` is not modelled: `Profile.AccentColor` takes the variable's text.
- The whole-file glue files are not modelled: admin activity, analytics, hub and logs, classroom students and analytics, the custom select module, the math pages and the auth check.
- A preset applied after a custom palette leaves the custom text and surface variables in place; the code does not clear them (`Theme.PresetKeepsSurfaceVars`).
- Avatar.ResolveBorderColor: the colour words are looked up in a plain object, so `named[value]` also finds inherited properties such as "constructor". Those are not strings, so the model treats every word outside the seven colours as unknown.
- Theme.ApplyNamedTheme: its own contract is weaker than the behaviour. The full behaviour is stated by `Theme.NamedThemeApplies`, `Theme.NamedPreset`, `Theme.NamedCreator` and `Theme.UnknownNameChangesNothing`.
- Theme.Sync: its own contract covers only the early exits and the mode. The branches go through `Theme.ApplyNamedTheme` and `Theme.ApplyThemeColors`, whose contracts apply. A row that is `null` makes the search throw, and the throw is caught; the model treats that as no change.
- Theme.HexToRgba: its contract states the fallback. The channels of six code units are stated by `Theme.HexToRgbaOfUnits`; they are worked out as numbers only for hex colours (`Theme.HexToRgbaOfColor`) and for surrogate pairs (`Theme.AstralColourIsNaN`).
- Theme.Preset: states only that presets have both colours. The table itself is the definition.
- Shop.ApplyThemeForItem: its own contract covers only non-theme items and the mode. The theme cases are `Shop.ItemThemeByName` and `Shop.ItemColorsFallback`.
- Shop.RenderCard: owned cards are told apart as equipped or not, but not by what the equip button then does. Equipping is a remote call.
- PastPapers.ApplyFilters: the subject and year filters use `==`. The model approximates it by comparing the JavaScript text of both sides, and years are compared the same way.
- PastPapers.YearOptions: the years are taken as integers. A question whose `year` is missing, null or text is not modelled: `b - a` would compare it as NaN or as a number converted from text, and `sort` leaves such entries in an order that depends on the engine.
- Poetry.Save: assumes that the annotation being edited exists (`Consistent`). The page only sets it from a rendered list entry.
- Assignments.AddResource: a missing `ref_id`, `ref_extra`, `url` or caption is the empty string or `None` rather than `null`.
- Assignments.AddResource: the create form's title check and due-date conversion are not modelled.
- AdminQuestions.Paginate: the page size is a positive integer. `Number("")` is not a case the select can produce.
- AdminQuestions.PageStart: a page below 1 starts at row 0, whereas `slice` would count a negative start from the end of the list. No handler produces such a page (`AdminQuestions.HandlersKeepPageValid`), and `Paginate` states its rows only for pages from 1 up.
- Profile.ValidateUsernameFormat: the message says "less than 50 characters", but the check rejects only lengths above 50, so 50 is accepted. The model follows the check.
- Profile.SubmitPersonalInfo: a non-string current username is compared with strict inequality, as in the code. A throw from a missing input element is not modelled.
- Admin.CollectRoles: the account-update and item-grant calls that use it are remote and not modelled.
- Object identity: strict equality of objects is modelled as value equality. `indexOf` by reference is modelled the same way.

=== FILE: admin.dfy ===
/**
 * The admin users page: the extra-role badges of a row, the role counts, a
 * user's initials, the user search, the reward packs, the role checkboxes of
 * an account update and the admin password guard.
 */
module Admin {
  import opened Js
  import opened Text
  import opened Seqs
  import opened Escape

  /** `Array.isArray(roles) && roles.length ? roles : ["student"]`. */
  function SafeRoles(roles: RawValue): (r: seq<RawValue>)
    ensures r != []
    ensures roles.Arr? && roles.items != [] ==> r == roles.items
    ensures !(roles.Arr? && roles.items != []) ==> r == [Str("student")]
  {
    if roles.Arr? && roles.items != [] then roles.items else [Str("student")]
  }

  /** The roles `roleSetHtml` shows as badges: every role other than the primary one, in order. */
  function RoleExtras(roles: RawValue, primary: RawValue): (r: seq<RawValue>)
    ensures IsSubsequence(r, SafeRoles(roles))
    ensures forall x :: x in r <==> x in SafeRoles(roles) && x != primary
  {
    var keep := (role: RawValue) => role != primary;
    FilterIsSubsequence(SafeRoles(roles), keep);
    forall x ensures x in Filter(SafeRoles(roles), keep) <==> x in SafeRoles(roles) && x != primary {
      FilterMembership(SafeRoles(roles), keep, x);
    }
    Filter(SafeRoles(roles), keep)
  }

  /** The badge markup both templates write around an already escaped role. */
  function BadgeMarkup(safe: string): string
  {
    "<span class=\"admin-role-badge " + safe + "\">" + safe + "</span>"
  }

  /** The badge `roleSetHtml` writes inline for an extra role: the role escaped, with no fallback. */
  function ExtraBadge(role: RawValue): (r: string)
    ensures role.Str? ==> r == BadgeMarkup(EscapeChars(role.s, HtmlRules))
    ensures (role.Absent? || role.Null?) ==> r == BadgeMarkup("")
  {
    BadgeMarkup(EscapeHtml(role))
  }

  /** `<span class="admin-role-badge student">student</span>`. */
  const StudentBadge: string := BadgeMarkup("student")

  /** `roleBadge(role)`: the badge of the primary role, where a missing or empty role reads as
      "student". */
  function RoleBadge(role: RawValue): (r: string)
    ensures Truthy(role) ==> r == ExtraBadge(role)
    ensures !Truthy(role) ==> r == StudentBadge
    ensures role.Str? && role.s != "" ==> r == BadgeMarkup(EscapeChars(role.s, HtmlRules))
  {
    EscapeCharsPlain("student", HtmlRules);
    ExtraBadge(Or(role, Str("student")))
  }

  function Badges(roles: seq<RawValue>): (r: seq<string>)
    ensures |r| == |roles|
    ensures forall i :: 0 <= i < |roles| ==> r[i] == ExtraBadge(roles[i])
  {
    seq(|roles|, i requires 0 <= i < |roles| => ExtraBadge(roles[i]))
  }

  /** `roleSetHtml(roles, primaryRole)`: the badges of the extra roles separated by spaces, or the
      empty string when there are none. */
  function RoleSetHtml(roles: RawValue, primary: RawValue): (r: string)
    ensures r == "" <==> RoleExtras(roles, primary) == []
    ensures RoleExtras(roles, primary) != [] ==>
      r == Badges(RoleExtras(roles, primary))[0] + Prefixed(Badges(RoleExtras(roles, primary))[1..], " ")
  {
    var extras := RoleExtras(roles, primary);
    if extras == [] then ""
    else
      var badges := Badges(extras);
      JoinNonEmpty(badges, " ");
      JoinIsPrefixed(badges, " ");
      Join(badges, " ")
  }

  lemma {:induction false} JoinNonEmpty(xs: seq<string>, sep: string)
    requires xs != [] && xs[0] != []
    ensures Join(xs, sep) != []
  {
    if |xs| > 1 {
      assert Join(xs, sep) == xs[0] + sep + Join(xs[1..], sep);
      assert |Join(xs, sep)| >= |xs[0]|;
    }
  }

  /** The header counts of `renderStats`. */
  datatype Stats = Stats(total: nat, students: nat, teachers: nat, admins: nat)

  predicate HasRole(u: RawValue, role: string)
  {
    Get(u, "role") == Str(role)
  }

  /** The positions of the users whose `role` is exactly `role`. */
  function UsersWithRole(users: seq<RawValue>, role: string): set<nat>
  {
    set i: nat | i < |users| && HasRole(users[i], role)
  }

  /** `renderStats()`: how many users there are, and how many have each role exactly. */
  function RenderStats(users: seq<RawValue>): (r: Stats)
    ensures r.total == |users|
    ensures r.students == |UsersWithRole(users, "student")|
    ensures r.teachers == |UsersWithRole(users, "teacher")|
    ensures r.admins == |UsersWithRole(users, "admin")|
    ensures r.students + r.teachers + r.admins <= r.total
  {
    var isStudent := (u: RawValue) => HasRole(u, "student");
    var isTeacher := (u: RawValue) => HasRole(u, "teacher");
    var isAdmin := (u: RawValue) => HasRole(u, "admin");
    assert "student" != "teacher" && "student" != "admin" && "teacher" != "admin" by {
      assert "student"[0] == 's' && "teacher"[0] == 't' && "admin"[0] == 'a';
    }
    CountSplit(users, isStudent, isTeacher, isAdmin);
    CountIsPositions(users, isStudent);
    CountIsPositions(users, isTeacher);
    CountIsPositions(users, isAdmin);
    assert Positions(users, isStudent) == UsersWithRole(users, "student");
    assert Positions(users, isTeacher) == UsersWithRole(users, "teacher");
    assert Positions(users, isAdmin) == UsersWithRole(users, "admin");
    Stats(|users|, Count(users, isStudent), Count(users, isTeacher), Count(users, isAdmin))
  }

  /** The first two characters of a seed, upper-cased: `String(seed).substring(0, 2).toUpperCase()`. */
  function Initials(seed: RawValue): (r: string)
    ensures |r| <= 2
    ensures forall i :: 0 <= i < |r| ==> !IsLowerLetter(r[i])
    ensures seed.Str? ==> r == ToUpper(Take(seed.s, 2))
  {
    ToUpper(Take(JsString(seed), 2))
  }

  /** `initialsFromUser(user)`: the initials of the username, else of the email, else "U". */
  function InitialsFromUser(user: RawValue): (r: string)
    ensures |r| <= 2
    ensures Truthy(Get(user, "username")) ==> r == Initials(Get(user, "username"))
    ensures !Truthy(Get(user, "username")) && Truthy(Get(user, "email")) ==> r == Initials(Get(user, "email"))
    ensures !Truthy(Get(user, "username")) && !Truthy(Get(user, "email")) ==> r == "U"
  {
    assert ToUpper(Take("U", 2)) == "U";
    Initials(Or(Or(Get(user, "username"), Get(user, "email")), Str("U")))
  }

  /** `(v || "").toLowerCase()` for a user column. */
  function LowerField(u: RawValue, key: string): string
  {
    ToLower(TextOr(Get(u, key)))
  }

  predicate MatchesUser(u: RawValue, term: string)
  {
    Contains(LowerField(u, "username"), term) || Contains(LowerField(u, "email"), term)
  }

  /** `filterText.trim().toLowerCase()`. */
  function SearchTerm(filterText: string): (r: string)
    ensures r == "" <==> Trim(filterText) == ""
  {
    ToLower(Trim(filterText))
  }

  /** The search of the admin tables: every row for a blank search, else, in order, the rows the
      term matches. */
  function Search(rows: seq<RawValue>, filterText: string, matches: (RawValue, string) -> bool): (r: seq<RawValue>)
    ensures Trim(filterText) == "" ==> r == rows
    ensures IsSubsequence(r, rows)
  {
    var term := SearchTerm(filterText);
    if term == "" then
      FilterKeepsAll(rows, (u: RawValue) => true);
      FilterIsSubsequence(rows, (u: RawValue) => true);
      rows
    else
      FilterIsSubsequence(rows, (u: RawValue) => matches(u, term));
      Filter(rows, (u: RawValue) => matches(u, term))
  }

  /** With a search term, a row is listed exactly when the term matches it. */
  lemma SearchMembership(rows: seq<RawValue>, filterText: string, matches: (RawValue, string) -> bool, u: RawValue)
    requires Trim(filterText) != ""
    ensures u in Search(rows, filterText, matches) <==> u in rows && matches(u, SearchTerm(filterText))
  {
    var term := SearchTerm(filterText);
    FilterMembership(rows, (x: RawValue) => matches(x, term), u);
  }

  /** `renderTable(filterText)`: the users whose lower-cased username or email contains the search
      text. */
  function RenderTable(users: seq<RawValue>, filterText: string): (r: seq<RawValue>)
    ensures Trim(filterText) == "" ==> r == users
    ensures IsSubsequence(r, users)
  {
    Search(users, filterText, MatchesUser)
  }

  /** With a search term, a user is listed exactly when the term occurs in its username or email. */
  lemma RenderTableMembership(users: seq<RawValue>, filterText: string, u: RawValue)
    requires Trim(filterText) != ""
    ensures u in RenderTable(users, filterText) <==> u in users && MatchesUser(u, ToLower(Trim(filterText)))
  {
    SearchMembership(users, filterText, MatchesUser, u);
  }

  /** A reward pack's grant. */
  datatype Reward = Reward(xp: nat, coins: nat, hints: nat)

  /** `getRewardPackValues(pack)`: the weekly and mega packs by name, the starter pack for anything
      else. */
  function RewardPackValues(pack: RawValue): (r: Reward)
    ensures JsString(Or(pack, Str("starter"))) == "weekly" ==> r == Reward(250, 300, 5)
    ensures JsString(Or(pack, Str("starter"))) == "mega" ==> r == Reward(500, 600, 10)
    ensures JsString(Or(pack, Str("starter"))) != "weekly" && JsString(Or(pack, Str("starter"))) != "mega"
      ==> r == Reward(100, 150, 3)
  {
    var key := JsString(Or(pack, Str("starter")));
    if key == "weekly" then Reward(250, 300, 5)
    else if key == "mega" then Reward(500, 600, 10)
    else Reward(100, 150, 3)
  }

  /** Every pack grants something of each kind, and no pack grants more than the mega pack. */
  lemma RewardPacksOrdered(pack: RawValue)
    ensures var r := RewardPackValues(pack);
      r.xp > 0 && r.coins > 0 && r.hints > 0 && r.xp <= 500 && r.coins <= 600 && r.hints <= 10
    ensures !Truthy(pack) ==> RewardPackValues(pack) == Reward(100, 150, 3)
  {
    if !Truthy(pack) {
      assert JsString(Or(pack, Str("starter"))) == "starter";
      assert "starter"[0] == 's';
    }
  }

  /** A role checkbox of an account row: ticked or not, and its `data-role` attribute. */
  datatype Checkbox = Checkbox(checked: bool, role: RawValue)

  predicate IsTicked(box: Checkbox)
  {
    box.checked
  }

  /** The `data-role` texts of some boxes, in order. */
  function RoleTexts(boxes: seq<Checkbox>): (r: seq<string>)
    ensures |r| == |boxes|
    ensures forall i :: 0 <= i < |boxes| ==> r[i] == JsString(boxes[i].role)
  {
    seq(|boxes|, i requires 0 <= i < |boxes| => JsString(boxes[i].role))
  }

  /** The roles of the ticked boxes, in box order. */
  function CheckedRoles(boxes: seq<Checkbox>): (r: seq<string>)
    ensures |r| <= |boxes|
    ensures forall i :: 0 <= i < |boxes| && boxes[i].checked ==> JsString(boxes[i].role) in r
    ensures forall x :: x in r ==> exists i :: 0 <= i < |boxes| && boxes[i].checked && JsString(boxes[i].role) == x
    ensures (forall i :: 0 <= i < |boxes| ==> !boxes[i].checked) ==> r == []
  {
    if boxes == [] then []
    else
      var rest := CheckedRoles(boxes[1..]);
      assert forall i :: 1 <= i < |boxes| ==> boxes[i] == boxes[1..][i - 1];
      if boxes[0].checked then [JsString(boxes[0].role)] + rest else rest
  }

  /** The roles collected are the `data-role` texts of the ticked boxes, in box order. */
  lemma {:induction false} CheckedRolesInOrder(boxes: seq<Checkbox>)
    ensures CheckedRoles(boxes) == RoleTexts(Filter(boxes, IsTicked))
    decreases |boxes|
  {
    if boxes != [] {
      CheckedRolesInOrder(boxes[1..]);
      if boxes[0].checked {
        assert RoleTexts([boxes[0]] + Filter(boxes[1..], IsTicked))
          == [JsString(boxes[0].role)] + RoleTexts(Filter(boxes[1..], IsTicked));
      }
    }
  }

  /** `collectRoles(row)`: the roles ticked, in order, or `["student"]` when none is. */
  function CollectRoles(boxes: seq<Checkbox>): (r: seq<string>)
    ensures r != []
    ensures forall i :: 0 <= i < |boxes| && boxes[i].checked ==> JsString(boxes[i].role) in r
    ensures (exists i :: 0 <= i < |boxes| && boxes[i].checked) ==>
      forall x :: x in r ==> exists i :: 0 <= i < |boxes| && boxes[i].checked && JsString(boxes[i].role) == x
    ensures (forall i :: 0 <= i < |boxes| ==> !boxes[i].checked) ==> r == ["student"]
  {
    var roles := CheckedRoles(boxes);
    if roles == [] then ["student"] else roles
  }

  /** `collectRoles` gives the ticked boxes' roles in box order, or student alone. */
  lemma CollectRolesInOrder(boxes: seq<Checkbox>)
    ensures var ticked := Filter(boxes, IsTicked);
      CollectRoles(boxes) == if ticked == [] then ["student"] else RoleTexts(ticked)
  {
    CheckedRolesInOrder(boxes);
  }

  /** What `setUserPassword` does with the typed password. */
  datatype PasswordAction = TooShort | SendPassword(password: string)

  /** `setUserPassword`: a password under eight UTF-16 code units is refused before any request. */
  function SetUserPassword(input: RawValue): (r: PasswordAction)
    ensures Utf16Length(TextOr(input)) < 8 <==> r == TooShort
    ensures r.SendPassword? ==> r.password == TextOr(input) && Utf16Length(r.password) >= 8
  {
    var password := TextOr(input);
    if Utf16Length(password) < 8 then TooShort else SendPassword(password)
  }
}

=== FILE: admin_questions.dfy ===
/**
 * The admin question bank: the search over the recent questions, the paging of
 * the matches, the page navigation handlers and the check of a new question's
 * options.
 */
module AdminQuestions {
  import opened Js
  import opened Text
  import opened Seqs
  import Admin

  /** `String(row[key] || "").toLowerCase()`. */
  function Column(row: RawValue, key: string): string
  {
    ToLower(TextOr(Get(row, key)))
  }

  predicate MatchesQuestion(row: RawValue, term: string)
  {
    Contains(Column(row, "subject_slug"), term) || Contains(Column(row, "topic"), term)
    || Contains(Column(row, "question"), term) || Contains(Column(row, "difficulty"), term)
  }

  /** The filter of `renderQuestions`: every row for a blank search, else, in order, the rows whose
      subject, topic, question or difficulty contains the term. */
  function FilterQuestions(rows: seq<RawValue>, filterText: string): (r: seq<RawValue>)
    ensures Trim(filterText) == "" ==> r == rows
    ensures IsSubsequence(r, rows)
  {
    Admin.Search(rows, filterText, MatchesQuestion)
  }

  lemma FilterQuestionsMembership(rows: seq<RawValue>, filterText: string, row: RawValue)
    requires Trim(filterText) != ""
    ensures row in FilterQuestions(rows, filterText) <==> row in rows && MatchesQuestion(row, Admin.SearchTerm(filterText))
  {
    Admin.SearchMembership(rows, filterText, MatchesQuestion, row);
  }

  /** `Math.max(1, Math.ceil(n / size))`: the fewest pages of `size` rows that hold `n` rows, and
      at least one. */
  function TotalPages(n: nat, size: nat): (r: nat)
    requires size > 0
    ensures r >= 1
    ensures n == 0 ==> r == 1
    ensures n > 0 ==> (r - 1) * size < n <= r * size
  {
    if n == 0 then 1 else (n + size - 1) / size
  }

  /** `xs.slice(start, end)` for non-negative bounds: both are cut down to the length. */
  function Slice(xs: seq<RawValue>, start: nat, end: nat): (r: seq<RawValue>)
    ensures start <= |xs| ==> r == xs[start..if end < start then start else if end > |xs| then |xs| else end]
    ensures start > |xs| ==> r == []
    ensures |r| <= if end < start then 0 else end - start
  {
    if start >= |xs| then []
    else if end <= start then []
    else xs[start..if end > |xs| then |xs| else end]
  }

  /** What `renderQuestions` shows. `page` is the current page after clamping; an empty result
      shows "Page 1 of 1" and leaves the current page as it was. */
  datatype View = View(page: int, shownPage: int, totalPages: nat, rows: seq<RawValue>,
                       prevDisabled: bool, nextDisabled: bool)

  /** The paging half of `renderQuestions`, on the rows that matched. */
  function Paginate(filtered: seq<RawValue>, page: int, size: nat): (v: View)
    requires size > 0
    ensures filtered == [] ==> v == View(page, 1, 1, [], true, true)
    ensures filtered != [] ==> v.totalPages == TotalPages(|filtered|, size) && v.shownPage == v.page
    ensures filtered != [] ==> v.page == (if page > v.totalPages then v.totalPages else page)
    ensures v.prevDisabled <==> v.shownPage <= 1
    ensures v.nextDisabled <==> v.shownPage >= v.totalPages
    ensures |v.rows| <= size
  {
    if filtered == [] then View(page, 1, 1, [], true, true)
    else
      var total := TotalPages(|filtered|, size);
      var current := if page > total then total else page;
      var start := PageStart(current, size);
      View(current, current, total, Slice(filtered, start, start + size), current <= 1, current >= total)
  }

  /** `(currentPage - 1) * pageSize` for a page from 1 up; `slice` reads a negative start from
      the end, which only a page below 1 could give, and such a page starts at 0 here. */
  function PageStart(current: int, size: nat): (r: nat)
    ensures current >= 1 ==> r == (current - 1) * size
    ensures current < 1 ==> r == 0
  {
    if current >= 1 then
      var c: nat := current - 1;
      c * size
    else 0
  }

  /** `renderQuestions(filterText)` for the current page and page size. */
  function RenderQuestions(questions: seq<RawValue>, filterText: string, page: int, size: nat): (v: View)
    requires size > 0
    ensures FilterQuestions(questions, filterText) == [] ==> v == View(page, 1, 1, [], true, true)
    ensures v.prevDisabled <==> v.shownPage <= 1
    ensures v.nextDisabled <==> v.shownPage >= v.totalPages
    ensures |v.rows| <= size
  {
    Paginate(FilterQuestions(questions, filterText), page, size)
  }

  function Min(a: int, b: int): int
  {
    if a < b then a else b
  }

  lemma MulMonotone(a: nat, b: nat, size: nat)
    requires a <= b
    ensures a * size <= b * size
  {
  }

  /** On a page from 1 up, the rows shown are the rows from `(page - 1) * size` on, at most `size` of
      them, and the page is never empty. */
  lemma PaginatedRows(filtered: seq<RawValue>, page: int, size: nat)
    requires size > 0 && page >= 1 && filtered != []
    ensures var v := Paginate(filtered, page, size);
      && 1 <= v.page <= v.totalPages
      && v.rows != []
      && v.rows == filtered[(v.page - 1) * size..Min((v.page - 1) * size + size, |filtered|)]
  {
    var v := Paginate(filtered, page, size);
    var start := (v.page - 1) * size;
    assert start < |filtered| by {
      MulMonotone(v.page - 1, v.totalPages - 1, size);
    }
  }

  /** Every match is shown on the page `k / size + 1`, at position `k % size`. */
  lemma EveryRowHasAPage(filtered: seq<RawValue>, size: nat, k: nat)
    requires size > 0 && k < |filtered|
    ensures var v := Paginate(filtered, k / size + 1, size);
      v.page == k / size + 1 && k % size < |v.rows| && v.rows[k % size] == filtered[k]
  {
    var page := k / size + 1;
    var total := TotalPages(|filtered|, size);
    assert k == (k / size) * size + k % size;
    assert page <= total by {
      if page > total {
        MulMonotone(total, k / size, size);
      }
    }
    PaginatedRows(filtered, page, size);
  }

  /** The page state the handlers keep: the current page, the page size and the search text. */
  datatype Pager = Pager(page: int, size: nat, search: string)

  predicate ValidPager(s: Pager)
  {
    s.page >= 1 && s.size > 0
  }

  /** Rendering writes the clamped page back. */
  function Rerender(questions: seq<RawValue>, s: Pager): (r: Pager)
    requires s.size > 0
    ensures r.size == s.size && r.search == s.search
    ensures r.page == RenderQuestions(questions, s.search, s.page, s.size).page
  {
    s.(page := RenderQuestions(questions, s.search, s.page, s.size).page)
  }

  /** The search box: back to page 1, then render. */
  function OnSearch(questions: seq<RawValue>, s: Pager, text: string): (r: Pager)
    requires s.size > 0
    ensures r.page == 1 && r.search == text && r.size == s.size
  {
    Rerender(questions, s.(page := 1, search := text))
  }

  /** The page-size select: the new size, back to page 1, then render. */
  function OnPageSize(questions: seq<RawValue>, s: Pager, size: nat): (r: Pager)
    requires size > 0
    ensures r.page == 1 && r.size == size && r.search == s.search
  {
    Rerender(questions, s.(page := 1, size := size))
  }

  /** The previous-page button: one page back, but never below 1. */
  function OnPrev(questions: seq<RawValue>, s: Pager): (r: Pager)
    requires ValidPager(s)
    ensures r.page >= 1 && r.page <= s.page
    ensures s.page > 1 ==> r.page <= s.page - 1
    ensures s.page == 1 ==> r.page == 1
  {
    Rerender(questions, s.(page := if s.page - 1 > 1 then s.page - 1 else 1))
  }

  /** The next-page button: one page on, cut back to the last page by the render. */
  function OnNext(questions: seq<RawValue>, s: Pager): (r: Pager)
    requires ValidPager(s)
    ensures r.page >= 1
    ensures var filtered := FilterQuestions(questions, s.search);
      filtered != [] ==> r.page <= TotalPages(|filtered|, s.size)
    ensures var filtered := FilterQuestions(questions, s.search);
      filtered != [] && s.page < TotalPages(|filtered|, s.size) ==> r.page == s.page + 1
  {
    Rerender(questions, s.(page := s.page + 1))
  }

  /** Whatever the handlers do, the current page stays at 1 or more. */
  lemma HandlersKeepPageValid(questions: seq<RawValue>, s: Pager, text: string, size: nat)
    requires ValidPager(s) && size > 0
    ensures ValidPager(OnSearch(questions, s, text))
    ensures ValidPager(OnPageSize(questions, s, size))
    ensures ValidPager(OnPrev(questions, s))
    ensures ValidPager(OnNext(questions, s))
  {
  }

  /** The text fields of the add-question form. */
  datatype QuestionForm = QuestionForm(subject: string, topic: string, difficulty: string, correct: string,
                                       text: string, options: string, explanation: string)

  /** The arguments of the `admin_add_quiz_question` call. */
  datatype QuestionRequest = QuestionRequest(subject: string, topic: string, question: string,
                                             options: seq<RawValue>, correct: string, difficulty: string,
                                             explanation: Option<string>)

  /** `addQuestion`: refused before any call, sent and failed, or sent and added with the question
      fields cleared. */
  datatype AddOutcome =
    | Rejected(message: string)
    | AddFailed(request: QuestionRequest)
    | Added(request: QuestionRequest, form: QuestionForm)

  /** `addQuestion()`. `parse` stands for `JSON.parse` and `remoteOk` for the call's success. */
  function AddQuestion(form: QuestionForm, parse: JsonParse, remoteOk: bool): (r: AddOutcome)
    ensures parse(Trim(form.options)).SyntaxError? ==> r == Rejected("Options must be valid JSON array.")
    ensures parse(Trim(form.options)).Parsed? && !parse(Trim(form.options)).value.Arr?
      ==> r == Rejected("Options must be a JSON array.")
    ensures r.AddFailed? || r.Added? <==> parse(Trim(form.options)).Parsed? && parse(Trim(form.options)).value.Arr?
    ensures r.AddFailed? || r.Added? ==> r.request.options == parse(Trim(form.options)).value.items
    ensures r.Added? <==> !r.Rejected? && remoteOk
    ensures r.Added? ==> r.form == form.(text := "", options := "", correct := "", explanation := "")
  {
    match parse(Trim(form.options))
    case SyntaxError => Rejected("Options must be valid JSON array.")
    case Parsed(v) =>
      if !v.Arr? then Rejected("Options must be a JSON array.")
      else
        var explanation := Trim(form.explanation);
        var request := QuestionRequest(Trim(form.subject), Trim(form.topic), Trim(form.text), v.items,
                                       Trim(form.correct), form.difficulty,
                                       if explanation == "" then None else Some(explanation));
        if remoteOk then Added(request, form.(text := "", options := "", correct := "", explanation := ""))
        else AddFailed(request)
  }
}

=== FILE: admin_settings.dfy ===
/**
 * Admin settings: the add-shop-item form and its checks, the multi-role update,
 * the shop-item table's toggle and delete, the avatar-cosmetic list, the fallback
 * taken when the shop-items call is missing, and the initials of the default avatar.
 */
module AdminSettings {
  import opened Js
  import opened Text
  import opened Seqs
  import Admin

  /** `Number(text)`: a finite value, or NaN and the infinities. */
  datatype JsNumber = Finite(value: real) | NotFinite

  const NameRequired := "Item name is required."
  const PriceTooLow := "Price must be greater than 0."
  const MinLevelTooLow := "Min level must be at least 1."
  const BadProperties := "Properties must be valid JSON."

  /** The fields of the add-shop-item form. */
  datatype ShopItemForm = ShopItemForm(name: string, description: string, category: string, price: string,
                                       minLevel: string, properties: string, active: bool)

  /** The form as it is left after an item is added. */
  const ResetForm := ShopItemForm("", "", "theme", "", "1", "", true)

  /** The arguments of the `admin_add_shop_item` call. */
  datatype ShopItemRequest = ShopItemRequest(name: string, description: Option<string>, category: string,
                                             price: real, minLevel: real, properties: RawValue, active: bool)

  /** `addShopItem`: refused before any call with the first failed check's message, sent and failed,
      or sent and added with the form reset. */
  datatype AddItemOutcome =
    | Refused(message: string)
    | AddFailed(request: ShopItemRequest)
    | ItemAdded(request: ShopItemRequest, form: ShopItemForm)

  /** `Number(text || fallback)`: an empty field reads as the fallback. `number` stands for `Number`. */
  function NumberOr(text: string, fallback: real, number: string -> JsNumber): (r: JsNumber)
    ensures text == "" ==> r == Finite(fallback)
    ensures text != "" ==> r == number(text)
  {
    if text == "" then Finite(fallback) else number(text)
  }

  predicate PriceOk(form: ShopItemForm, number: string -> JsNumber)
  {
    var p := NumberOr(form.price, 0.0, number);
    p.Finite? && p.value > 0.0
  }

  predicate MinLevelOk(form: ShopItemForm, number: string -> JsNumber)
  {
    var m := NumberOr(form.minLevel, 1.0, number);
    m.Finite? && m.value >= 1.0
  }

  /** Empty properties are `{}`; anything else must parse. `parse` stands for `JSON.parse`. */
  predicate PropertiesOk(form: ShopItemForm, parse: JsonParse)
  {
    Trim(form.properties) == "" || parse(Trim(form.properties)).Parsed?
  }

  /** `addShopItem()`. */
  function AddShopItem(form: ShopItemForm, number: string -> JsNumber, parse: JsonParse, remoteOk: bool): (r: AddItemOutcome)
    ensures Trim(form.name) == "" ==> r == Refused(NameRequired)
    ensures Trim(form.name) != "" && !PriceOk(form, number) ==> r == Refused(PriceTooLow)
    ensures Trim(form.name) != "" && PriceOk(form, number) && !MinLevelOk(form, number) ==> r == Refused(MinLevelTooLow)
    ensures Trim(form.name) != "" && PriceOk(form, number) && MinLevelOk(form, number) && !PropertiesOk(form, parse)
      ==> r == Refused(BadProperties)
    ensures r.Refused? <==>
      !(Trim(form.name) != "" && PriceOk(form, number) && MinLevelOk(form, number) && PropertiesOk(form, parse))
    ensures !r.Refused? ==> r.request.name == Trim(form.name) && r.request.price > 0.0 && r.request.minLevel >= 1.0
    ensures !r.Refused? ==> (r.request.description.None? <==> Trim(form.description) == "")
    ensures !r.Refused? && Trim(form.properties) == "" ==> r.request.properties == Obj(map[])
    ensures r.ItemAdded? <==> !r.Refused? && remoteOk
    ensures r.ItemAdded? ==> r.form == ResetForm
  {
    if Trim(form.name) == "" then Refused(NameRequired)
    else if !PriceOk(form, number) then Refused(PriceTooLow)
    else if !MinLevelOk(form, number) then Refused(MinLevelTooLow)
    else if !PropertiesOk(form, parse) then Refused(BadProperties)
    else
      var request := ItemRequest(form, number, parse);
      if remoteOk then ItemAdded(request, ResetForm) else AddFailed(request)
  }

  /** The request a form that passed every check sends: trimmed name and description (null when
      empty), the numbers read from the form, and `{}` for empty properties. */
  function ItemRequest(form: ShopItemForm, number: string -> JsNumber, parse: JsonParse): (q: ShopItemRequest)
    requires PriceOk(form, number) && MinLevelOk(form, number) && PropertiesOk(form, parse)
    ensures q.name == Trim(form.name) && q.price > 0.0 && q.minLevel >= 1.0
    ensures q.description.None? <==> Trim(form.description) == ""
    ensures Trim(form.properties) == "" ==> q.properties == Obj(map[])
    ensures Trim(form.properties) != "" ==> Some(q.properties) == (match parse(Trim(form.properties))
      case Parsed(v) => Some(v)
      case SyntaxError => None)
  {
    var raw := Trim(form.properties);
    var description := Trim(form.description);
    ShopItemRequest(Trim(form.name), if description == "" then None else Some(description), form.category,
                    NumberOr(form.price, 0.0, number).value, NumberOr(form.minLevel, 1.0, number).value,
                    if raw == "" then Obj(map[]) else parse(raw).value, form.active)
  }

  /** An empty minimum level reads as 1 and passes. */
  lemma EmptyMinLevelPasses(form: ShopItemForm, number: string -> JsNumber)
    requires form.minLevel == ""
    ensures MinLevelOk(form, number)
  {
  }

  /** Empty properties pass. */
  lemma EmptyPropertiesPass(form: ShopItemForm, parse: JsonParse)
    requires form.properties == ""
    ensures PropertiesOk(form, parse)
  {
    assert Trim("") == "";
  }

  /** An empty price reads as 0 and fails. */
  lemma EmptyPriceFails(form: ShopItemForm, number: string -> JsNumber)
    requires form.price == ""
    ensures !PriceOk(form, number)
  {
  }

  /** Empty minimum-level and properties fields never refuse an item: with both empty, a named
      item with a positive price is accepted. */
  lemma EmptyFieldsAfterReset(form: ShopItemForm, number: string -> JsNumber, parse: JsonParse, remoteOk: bool)
    requires form.minLevel == "" && form.properties == ""
    ensures !AddShopItem(form, number, parse, remoteOk).Refused? <==> Trim(form.name) != "" && PriceOk(form, number)
  {
    EmptyMinLevelPasses(form, number);
    EmptyPropertiesPass(form, parse);
  }

  /** The form as the reset leaves it, once a name and a price are typed in again: given that
      `Number("1")` is 1, an item is accepted exactly when it has a name and a positive price. */
  lemma ResetFormNeedsNameAndPrice(name: string, price: string, number: string -> JsNumber, parse: JsonParse,
                                   remoteOk: bool)
    requires number("1") == Finite(1.0)
    ensures var form := ResetForm.(name := name, price := price);
      !AddShopItem(form, number, parse, remoteOk).Refused? <==> Trim(name) != "" && PriceOk(form, number)
  {
    var form := ResetForm.(name := name, price := price);
    assert MinLevelOk(form, number);
    EmptyPropertiesPass(form, parse);
  }

  /** What the multi-role form does. */
  datatype RolesOutcome = EmailRequired | NoRoleSelected | SetRoles(email: string, roles: seq<string>)

  /** `applyMultipleRolesByEmail()`: an email and at least one ticked role, sent in the order
      student, teacher, admin. */
  function ApplyMultipleRoles(email: string, student: bool, teacher: bool, admin: bool): (r: RolesOutcome)
    ensures r == EmailRequired <==> Trim(email) == ""
    ensures r == NoRoleSelected <==> Trim(email) != "" && !student && !teacher && !admin
    ensures r.SetRoles? ==> r.email == Trim(email) && r.roles != []
    ensures r.SetRoles? ==> IsSubsequence(r.roles, ["student", "teacher", "admin"])
    ensures r.SetRoles? ==> ("student" in r.roles <==> student)
    ensures r.SetRoles? ==> ("teacher" in r.roles <==> teacher)
    ensures r.SetRoles? ==> ("admin" in r.roles <==> admin)
  {
    var roles := Ticked(student, teacher, admin);
    if Trim(email) == "" then EmailRequired
    else if roles == [] then NoRoleSelected
    else SetRoles(Trim(email), roles)
  }

  /** The ticked roles, in the order of the boxes. */
  function Ticked(student: bool, teacher: bool, admin: bool): (roles: seq<string>)
    ensures roles == [] <==> !student && !teacher && !admin
    ensures IsSubsequence(roles, ["student", "teacher", "admin"])
    ensures "student" in roles <==> student
    ensures "teacher" in roles <==> teacher
    ensures "admin" in roles <==> admin
  {
    TickedInOrder(student, teacher, admin);
    var third: seq<string> := if admin then ["admin"] else [];
    var second: seq<string> := (if teacher then ["teacher"] else []) + third;
    (if student then ["student"] else []) + second
  }

  lemma TickedInOrder(student: bool, teacher: bool, admin: bool)
    ensures IsSubsequence((if student then ["student"] else []) + (if teacher then ["teacher"] else [])
                          + (if admin then ["admin"] else []), ["student", "teacher", "admin"])
  {
    var all: seq<string> := ["student", "teacher", "admin"];
    var roles := (if student then ["student"] else []) + (if teacher then ["teacher"] else [])
                 + (if admin then ["admin"] else []);
    var third: seq<string> := if admin then ["admin"] else [];
    var last: seq<string> := ["admin"];
    assert IsSubsequence(third, last) by {
      if admin {
        assert IsSubsequence<string>([], []);
      }
    }
    var second := (if teacher then ["teacher"] else []) + third;
    assert all[1..] == ["teacher"] + last;
    assert IsSubsequence(second, all[1..]) by {
      assert (["teacher"] + last)[1..] == last;
      if teacher {
        assert second[1..] == third;
      } else {
        assert second == third;
      }
    }
    assert IsSubsequence(roles, all) by {
      if student {
        assert roles[1..] == second;
      } else {
        assert roles == second;
      }
    }
  }

  /** `deleteShopItem`'s success test: `data === true`, or an array whose first element is `true`. */
  function DeleteSucceeded(data: RawValue): (ok: bool)
    ensures ok <==> data == Bool(true) || (data.Arr? && |data.items| > 0 && data.items[0] == Bool(true))
    ensures ok ==> Truthy(data)
  {
    data == Bool(true) || (data.Arr? && |data.items| > 0 && data.items[0] == Bool(true))
  }

  /** The toggle button of a shop-item row. */
  datatype Toggle = Toggle(caption: string, nextActive: bool)

  /** `row.is_active ? "Deactivate" : "Activate"`, sending the opposite state. */
  function ToggleButton(isActive: RawValue): (t: Toggle)
    ensures t.nextActive <==> !Truthy(isActive)
    ensures t.caption == "Deactivate" <==> Truthy(isActive)
    ensures t.caption == "Activate" <==> !Truthy(isActive)
  {
    if Truthy(isActive) then Toggle("Deactivate", false) else Toggle("Activate", true)
  }

  /** The "active" cell of the same row. */
  function ActiveCell(isActive: RawValue): (cell: string)
    ensures cell == "yes" || cell == "no"
    ensures cell == "yes" <==> Truthy(isActive)
  {
    if Truthy(isActive) then "yes" else "no"
  }

  /** The button always offers the state the row is not in. */
  lemma ToggleOffersTheOtherState(isActive: RawValue)
    ensures ActiveCell(isActive) == "yes" <==> !ToggleButton(isActive).nextActive
    ensures ActiveCell(isActive) == "no" <==> ToggleButton(isActive).caption == "Activate"
  {
  }

  /** `String(row?.properties?.type || "").toLowerCase() === "avatar"`. */
  predicate IsAvatarItem(row: RawValue)
  {
    ToLower(TextOr(Get(Get(row, "properties"), "type"))) == "avatar"
  }

  /** `loadAvatarCosmeticItems`: the rows, in order, whose properties type is "avatar" in any case. */
  function AvatarItems(data: RawValue): (r: seq<RawValue>)
    ensures IsSubsequence(r, ElementsOrEmpty(data))
    ensures forall row :: row in r <==> row in ElementsOrEmpty(data) && IsAvatarItem(row)
  {
    var rows := ElementsOrEmpty(data);
    FilterIsSubsequence(rows, IsAvatarItem);
    forall row ensures row in Filter(rows, IsAvatarItem) <==> row in rows && IsAvatarItem(row) {
      FilterMembership(rows, IsAvatarItem, row);
    }
    Filter(rows, IsAvatarItem)
  }

  /** An answer from the backend: its data, or an error with its message. */
  datatype Response = Ok(data: RawValue) | Failed(message: RawValue)

  /** What `loadShopItems` ends with: rows to show, or an error raised with this message. */
  datatype ShopItemsOutcome = Rows(rows: seq<RawValue>) | Raised(message: RawValue)

  /** The error says the `admin_get_shop_items` call is missing. */
  predicate CacheMissing(message: RawValue)
  {
    var text := TextOr(message);
    Contains(text, "schema cache") || Contains(text, "admin_get_shop_items")
  }

  /** `loadShopItems()` given the call's answer and the direct table query's answer. */
  function LoadShopItems(rpc: Response, table: Response): (r: ShopItemsOutcome)
    ensures rpc.Ok? ==> r == Rows(ElementsOrEmpty(rpc.data))
    ensures rpc.Failed? && !CacheMissing(rpc.message) ==> r == Raised(rpc.message)
    ensures rpc.Failed? && CacheMissing(rpc.message) ==>
      r == (if table.Ok? then Rows(ElementsOrEmpty(table.data)) else Raised(table.message))
  {
    match rpc
    case Ok(data) => Rows(ElementsOrEmpty(data))
    case Failed(message) =>
      if !CacheMissing(message) then Raised(message)
      else match table
        case Ok(data) => Rows(ElementsOrEmpty(data))
        case Failed(m) => Raised(m)
  }

  /** The table is only read when the call is missing: otherwise its answer does not matter. */
  lemma TableOnlyAsFallback(rpc: Response, table1: Response, table2: Response)
    requires !(rpc.Failed? && CacheMissing(rpc.message))
    ensures LoadShopItems(rpc, table1) == LoadShopItems(rpc, table2)
  {
  }

  /** `defaultAvatarDataUrl(seed)`'s initials: the first two characters of the seed, upper-cased,
      or "U". */
  function DefaultAvatarInitials(seed: RawValue): (r: string)
    ensures |r| <= 2
    ensures !Truthy(seed) ==> r == "U"
    ensures seed.Str? && seed.s != "" ==> r == ToUpper(Take(seed.s, 2))
  {
    assert ToUpper(Take("U", 2)) == "U";
    Admin.Initials(Or(seed, Str("U")))
  }

  /** The settings page's own avatar, seeded with the username, else the email, shows the same
      initials as that user's row in the admin table. */
  lemma OwnAvatarMatchesTable(user: RawValue)
    ensures DefaultAvatarInitials(Or(Or(Get(user, "username"), Get(user, "email")), Str("U")))
      == Admin.InitialsFromUser(user)
  {
    var seed := Or(Or(Get(user, "username"), Get(user, "email")), Str("U"));
    assert Truthy(seed);
    assert Or(seed, Str("U")) == seed;
  }
}

=== FILE: assignments.dfy ===
/**
 * Classroom assignments: the links and labels of an assignment's resources, the
 * resource picker that adds one to a new assignment, the chip that removes one,
 * and the rows stored once the assignment exists.
 *
 * A resource's text fields hold "" where the page stores null: the code only ever
 * tests them for truth, and both are false.
 */
module Assignments {
  import opened Js
  import opened Text
  import opened Seqs

  /** A subject (`id`, `name`) or a revision guide (`id`, `title`). */
  datatype Named = Named(id: int, name: string)

  /** A resource of an assignment: its kind, the subject or guide it points to, the exam board of a
      past-papers resource, the url of a link and its label. */
  datatype Resource = Resource(kind: string, refId: Option<int>, refExtra: string, url: string, caption: string)

  /** A resource picked for a new assignment, with the label its chip shows. */
  datatype Added = Added(resource: Resource, displayLabel: string)

  /** A row of `assignment_resources`. */
  datatype ResourceRow = ResourceRow(assignmentId: RawValue, resource: Resource, sortOrder: nat)

  /** The kinds that point at a subject. */
  predicate SubjectKind(kind: string)
  {
    kind == "subject" || kind == "past_papers" || kind == "flashcards" || kind == "quiz"
  }

  predicate KnownKind(kind: string)
  {
    SubjectKind(kind) || kind == "revision_guide" || kind == "link"
  }

  function HasId(id: Option<int>): Named -> bool
  {
    (n: Named) => id == Some(n.id)
  }

  /** `list.find(x => x.id === id)?.name || fallback`: the name of the first entry with that id,
      when it has one. */
  function NameOr(list: seq<Named>, id: Option<int>, fallback: string): (r: string)
    ensures r != fallback ==> exists i :: 0 <= i < |list| && Some(list[i].id) == id && list[i].name == r
    ensures (forall i :: 0 <= i < |list| ==> Some(list[i].id) != id) ==> r == fallback
    ensures fallback != "" ==> r != ""
  {
    match FindIndex(list, HasId(id))
    case Some(k) => if list[k].name != "" then list[k].name else fallback
    case None => fallback
  }

  /** `${r.ref_id}` in a template: the number, or "null". */
  function RefText(id: Option<int>): string
  {
    match id
    case Some(n) => IntToString(n)
    case None => "null"
  }

  /** Whether `r.ref_id` is truthy: set and not 0. */
  predicate RefSet(id: Option<int>)
  {
    id.Some? && id.value != 0
  }

  /** `resourceHref(r, basePath)`, with `base` the prefix it settles on. */
  function ResourceHref(r: Resource, base: string): (h: string)
    ensures r.kind == "link" ==> h == (if r.url != "" then r.url else "#")
    ensures !KnownKind(r.kind) ==> h == "#"
    ensures r.kind == "past_papers" ==> h == base + "past-papers.html?subject=" + RefText(r.refId)
    ensures SubjectKind(r.kind) || r.kind == "revision_guide" ==> StartsWith(h, base)
  {
    var h := match r.kind
      case "subject" => base + "subjects.html"
      case "past_papers" => base + "past-papers.html?subject=" + RefText(r.refId)
      case "revision_guide" => base + "subjects.html"
      case "flashcards" => base + "flashcards.html"
      case "quiz" => base + "quizzes.html"
      case "link" => if r.url != "" then r.url else "#"
      case _ => "#";
    assert SubjectKind(r.kind) || r.kind == "revision_guide" ==> h[..|base|] == base;
    h
  }

  /** The extra query a saved past-papers link carries: `&examBoard=` and the encoded board, only
      when a board is set. `encode` stands for `encodeURIComponent`. */
  function BoardQuery(r: Resource, encode: string -> string): string
  {
    if r.refExtra != "" then "&examBoard=" + encode(r.refExtra) else ""
  }

  /** The subject query a saved flashcards or quiz link carries, only when a subject is set. */
  function SubjectQuery(r: Resource): string
  {
    if RefSet(r.refId) then "?subject=" + IntToString(r.refId.value) else ""
  }

  /** The href `loadAssignments` gives each saved resource. */
  function ListHref(r: Resource, base: string, encode: string -> string): (h: string)
    ensures r.kind == "past_papers" && r.refExtra != "" ==> EndsWith(h, "&examBoard=" + encode(r.refExtra))
    ensures (r.kind == "flashcards" || r.kind == "quiz") && RefSet(r.refId) ==>
      EndsWith(h, "?subject=" + IntToString(r.refId.value))
  {
    var h := if r.kind == "link" then (if r.url != "" then r.url else "#")
      else if r.kind == "subject" then base + "subjects.html"
      else if r.kind == "past_papers" then
        base + "past-papers.html?subject=" + (if RefSet(r.refId) then IntToString(r.refId.value) else "")
        + BoardQuery(r, encode)
      else if r.kind == "revision_guide" then base + "subjects.html"
      else if r.kind == "flashcards" then base + "flashcards.html" + SubjectQuery(r)
      else if r.kind == "quiz" then base + "quizzes.html" + SubjectQuery(r)
      else "#";
    assert r.kind == "past_papers" && r.refExtra != "" ==> h[|h| - |BoardQuery(r, encode)|..] == BoardQuery(r, encode);
    assert (r.kind == "flashcards" || r.kind == "quiz") ==> h[|h| - |SubjectQuery(r)|..] == SubjectQuery(r);
    h
  }

  /** The two hrefs agree except that the list adds the board to a past-papers link and the
      subject to a flashcards or quiz link, and only when those are set. */
  lemma ListHrefExtendsResourceHref(r: Resource, base: string, encode: string -> string)
    ensures r.kind != "past_papers" && r.kind != "flashcards" && r.kind != "quiz" ==>
      ListHref(r, base, encode) == ResourceHref(r, base)
    ensures r.kind == "past_papers" && RefSet(r.refId) ==>
      ListHref(r, base, encode) == ResourceHref(r, base) + BoardQuery(r, encode)
    ensures r.kind == "flashcards" || r.kind == "quiz" ==>
      ListHref(r, base, encode) == ResourceHref(r, base) + SubjectQuery(r)
    ensures (r.kind == "flashcards" || r.kind == "quiz") && !RefSet(r.refId) ==>
      ListHref(r, base, encode) == ResourceHref(r, base)
  {
    if r.kind == "past_papers" && RefSet(r.refId) {
      assert RefText(r.refId) == IntToString(r.refId.value);
    }
  }

  /** `resourceLabel(r)`: the resource's own label, else one made from the subject or guide it
      points to, with the fallbacks "Subject", "Revision guide" and "Link"; an unknown kind is
      its own label. */
  function ResourceLabel(r: Resource, subjects: seq<Named>, guides: seq<Named>): (l: string)
    ensures r.caption != "" ==> l == r.caption
    ensures r.caption == "" && !KnownKind(r.kind) ==> l == r.kind
    ensures r.caption == "" && r.kind == "link" ==> l == (if r.url != "" then r.url else "Link")
    ensures r.caption == "" && (r.kind == "subject" || r.kind == "revision_guide") ==> l != ""
    ensures r.caption == "" && r.kind == "past_papers" ==> EndsWith(l, " Past papers")
    ensures r.caption == "" && r.kind == "flashcards" ==> EndsWith(l, " Flashcards")
    ensures r.caption == "" && r.kind == "quiz" ==> EndsWith(l, " Quizzes")
  {
    if r.caption != "" then r.caption
    else match r.kind
      case "subject" => NameOr(subjects, r.refId, "Subject")
      case "past_papers" => PastPapersLabel(r.refExtra, NameOr(subjects, r.refId, ""))
      case "revision_guide" => NameOr(guides, r.refId, "Revision guide")
      case "flashcards" => Suffixed(NameOr(subjects, r.refId, ""), " Flashcards")
      case "quiz" => Suffixed(NameOr(subjects, r.refId, ""), " Quizzes")
      case "link" => if r.url != "" then r.url else "Link"
      case _ => r.kind
  }

  function Suffixed(s: string, suffix: string): (r: string)
    ensures EndsWith(r, suffix) && StartsWith(r, s)
  {
    assert (s + suffix)[|s + suffix| - |suffix|..] == suffix;
    assert (s + suffix)[..|s|] == s;
    s + suffix
  }

  /** `(board ? board + ' ' : '') + subject + ' Past papers'`. */
  function PastPapersLabel(board: string, subject: string): (r: string)
    ensures EndsWith(r, " Past papers")
    ensures board != "" ==> StartsWith(r, board + " ")
  {
    var front := (if board != "" then board + " " else "") + subject;
    assert board != "" ==> (front + " Past papers")[..|board + " "|] == board + " ";
    Suffixed(front, " Past papers")
  }

  /** The value of a subject or guide picker as `ref_id`: `parseInt(value, 10)` when the value is
      not empty, kept only when it is truthy (not NaN and not 0). */
  function PickedId(value: string): (r: Option<int>)
    ensures r.Some? ==> r.value != 0 && value != "" && ParseInt(value, 10) == r
    ensures r.None? ==> value == "" || ParseInt(value, 10) == None || ParseInt(value, 10) == Some(0)
  {
    if value == "" then None
    else match ParseInt(value, 10)
      case Some(n) => if n != 0 then Some(n) else None
      case None => None
  }

  /** The fields of the resource picker. */
  datatype Picker = Picker(kind: string, subject: string, examBoard: string, guide: string,
                           url: string, caption: string)

  /** `onAddResource()`: the resource the picker describes, or None when nothing is added. A kind
      that points at a subject or guide needs one picked, a link needs a url; a link's label
      defaults to its url. */
  function AddResource(p: Picker, subjects: seq<Named>, guides: seq<Named>): (r: Option<Added>)
    ensures p.kind == "" ==> r.None?
    ensures SubjectKind(p.kind) ==> (r.Some? <==> PickedId(p.subject).Some?)
    ensures p.kind == "revision_guide" ==> (r.Some? <==> PickedId(p.guide).Some?)
    ensures p.kind == "link" ==> (r.Some? <==> Trim(p.url) != "")
    ensures p.kind != "" && !KnownKind(p.kind) ==> r == Some(Added(Resource(p.kind, None, "", "", ""), ""))
    ensures r.Some? ==> r.value.resource.kind == p.kind
    ensures r.Some? && SubjectKind(p.kind) ==> r.value.resource.refId == PickedId(p.subject)
    ensures r.Some? && p.kind == "revision_guide" ==> r.value.resource.refId == PickedId(p.guide)
    ensures r.Some? && p.kind == "link" ==>
      && r.value.resource.url == Trim(p.url)
      && r.value.resource.caption == (if Trim(p.caption) != "" then Trim(p.caption) else Trim(p.url))
    ensures r.Some? && p.kind == "past_papers" ==> r.value.resource.refExtra == p.examBoard
    ensures r.Some? && p.kind != "past_papers" ==> r.value.resource.refExtra == ""
  {
    if p.kind == "" then None
    else if SubjectKind(p.kind) then
      match PickedId(p.subject)
      case None => None
      case Some(id) =>
        var name := NameOr(subjects, Some(id), "");
        if p.kind == "subject" then
          Some(Added(Resource(p.kind, Some(id), "", "", ""), NameOr(subjects, Some(id), "Subject")))
        else
          var caption := if p.kind == "past_papers" then PastPapersLabel(p.examBoard, name)
            else if p.kind == "flashcards" then Suffixed(name, " Flashcards")
            else Suffixed(name, " Quizzes");
          Some(Added(Resource(p.kind, Some(id), if p.kind == "past_papers" then p.examBoard else "", "", caption), caption))
    else if p.kind == "revision_guide" then
      match PickedId(p.guide)
      case None => None
      case Some(id) =>
        var caption := NameOr(guides, Some(id), "Revision guide");
        Some(Added(Resource(p.kind, Some(id), "", "", caption), caption))
    else if p.kind == "link" then
      var url := Trim(p.url);
      var caption := if Trim(p.caption) != "" then Trim(p.caption) else url;
      if url == "" then None else Some(Added(Resource(p.kind, None, "", url, caption), caption))
    else Some(Added(Resource(p.kind, None, "", "", ""), ""))
  }

  /** The text of a chip: `r.displayLabel || resourceLabel(r)`. */
  function ChipLabel(a: Added, subjects: seq<Named>, guides: seq<Named>): (r: string)
    ensures a.displayLabel != "" ==> r == a.displayLabel
    ensures a.displayLabel == "" && a.resource.caption != "" ==> r == a.resource.caption
    ensures a.displayLabel == "" && a.resource.caption == "" && a.resource.kind == "link"
      ==> r == (if a.resource.url != "" then a.resource.url else "Link")
    ensures a.displayLabel == "" && a.resource.caption == "" && !KnownKind(a.resource.kind) ==> r == a.resource.kind
  {
    if a.displayLabel != "" then a.displayLabel else ResourceLabel(a.resource, subjects, guides)
  }

  /** The chip's remove button: `splice(i, 1)`. */
  function RemoveChip(added: seq<Added>, i: nat): (r: seq<Added>)
    ensures i < |added| ==> r == added[..i] + added[i + 1..]
    ensures i >= |added| ==> r == added
  {
    var r := RemoveAt(added, i);
    assert i < |added| ==> r == added[..i] + added[i + 1..];
    r
  }

  /** `created[0].id` when `created` is an array with a truthy first element, else `created.id`
      when both are truthy, else null. */
  function AssignmentId(created: RawValue): (r: RawValue)
    ensures created.Arr? && |created.items| > 0 && Truthy(created.items[0]) ==> r == Get(created.items[0], "id")
    ensures created.Arr? && !(|created.items| > 0 && Truthy(created.items[0])) ==> r == Null
    ensures !created.Arr? ==> (Truthy(r) <==> Truthy(Get(created, "id")))
    ensures !created.Arr? && Truthy(r) ==> r == Get(created, "id")
  {
    if created.Arr? && |created.items| > 0 && Truthy(created.items[0]) then Get(created.items[0], "id")
    else if Truthy(created) && Truthy(Get(created, "id")) then Get(created, "id")
    else Null
  }

  /** What a row stores of a picked resource: `ref_id || null` turns a 0 id into null. */
  function Stored(r: Resource): (s: Resource)
    ensures s.kind == r.kind && s.refExtra == r.refExtra && s.url == r.url && s.caption == r.caption
    ensures RefSet(s.refId) <==> RefSet(r.refId)
    ensures RefSet(r.refId) ==> s.refId == r.refId
    ensures !RefSet(r.refId) ==> s.refId.None?
  {
    r.(refId := if RefSet(r.refId) then r.refId else None)
  }

  /** The rows `handleCreateAssignment` inserts: one per picked resource, in order, with
      `sort_order` its position. */
  function ResourceRows(assignmentId: RawValue, added: seq<Added>): (rows: seq<ResourceRow>)
    ensures |rows| == |added|
    ensures forall i :: 0 <= i < |rows| ==> rows[i].sortOrder == i && rows[i].assignmentId == assignmentId
    ensures forall i :: 0 <= i < |rows| ==> rows[i].resource == Stored(added[i].resource)
  {
    seq(|added|, i requires 0 <= i < |added| => ResourceRow(assignmentId, Stored(added[i].resource), i))
  }

  /** The insert, if any: only when an assignment id came back and resources were picked. */
  function InsertedRows(created: RawValue, added: seq<Added>): (r: Option<seq<ResourceRow>>)
    ensures r.Some? <==> Truthy(AssignmentId(created)) && added != []
    ensures r.Some? ==> r.value == ResourceRows(AssignmentId(created), added)
  {
    var id := AssignmentId(created);
    if Truthy(id) && added != [] then Some(ResourceRows(id, added)) else None
  }

  /** The sort orders of the rows strictly increase, so the list loads them back in picking order. */
  lemma RowsInPickingOrder(assignmentId: RawValue, added: seq<Added>, i: nat, j: nat)
    requires i < j < |added|
    ensures ResourceRows(assignmentId, added)[i].sortOrder < ResourceRows(assignmentId, added)[j].sortOrder
  {
  }

  /** A picked resource is listed, once saved, with the same text its chip showed. */
  lemma SavedLabelMatchesChip(p: Picker, subjects: seq<Named>, guides: seq<Named>)
    requires AddResource(p, subjects, guides).Some?
    ensures var a := AddResource(p, subjects, guides).value;
      ResourceLabel(Stored(a.resource), subjects, guides) == ChipLabel(a, subjects, guides)
  {
    var a := AddResource(p, subjects, guides).value;
    if p.kind == "subject" {
      assert a.resource.refId == PickedId(p.subject);
      assert Stored(a.resource).refId == a.resource.refId;
      assert a.displayLabel == NameOr(subjects, a.resource.refId, "Subject");
    }
  }
}

=== FILE: avatar.dfy ===
/**
 * Avatar appearance: the border colour and CSS filter an avatar takes from the
 * cosmetic items a user has equipped, and how they are put on the avatar
 * element's inline style.
 */
module Avatar {
  import opened Js
  import opened Text
  import opened Seqs
  import Palette

  /** What the avatar shows; the empty string means "not set". */
  datatype Appearance = Appearance(borderColor: string, filter: string)

  const NoAppearance := Appearance("", "")

  /** The colour words a border item may use instead of a hex value. */
  function NamedBorderColor(word: string): (r: Option<string>)
    ensures r.Some? ==> Palette.IsHexColor(r.value)
  {
    if word == "gold" then Palette.UpperHexColor('F', '5', '9', 'E', '0', 'B'); Some("#F59E0B")
    else if word == "rainbow" then Palette.UpperHexColor('E', 'C', '4', '8', '9', '9'); Some("#EC4899")
    else if word == "blue" then Palette.UpperHexColor('3', 'B', '8', '2', 'F', '6'); Some("#3B82F6")
    else if word == "green" then Palette.UpperHexColor('1', '0', 'B', '9', '8', '1'); Some("#10B981")
    else if word == "purple" then Palette.UpperHexColor('8', 'B', '5', 'C', 'F', '6'); Some("#8B5CF6")
    else if word == "red" then Palette.UpperHexColor('E', 'F', '4', '4', '4', '4'); Some("#EF4444")
    else if word == "silver" then Palette.UpperHexColor('9', '4', 'A', '3', 'B', '8'); Some("#94A3B8")
    else None
  }

  /** `resolveAvatarBorderColor`: the trimmed, lower-cased text if it is a hex colour, else the
      colour of a known word, else nothing. */
  function ResolveBorderColor(raw: RawValue): (r: string)
    ensures r == "" || Palette.IsHexColor(r)
    ensures var w := ToLower(Trim(TextOr(raw)));
      (Palette.IsHexColor(w) ==> r == w)
      && (!Palette.IsHexColor(w) && NamedBorderColor(w).Some? ==> r == NamedBorderColor(w).value)
      && (!Palette.IsHexColor(w) && NamedBorderColor(w).None? ==> r == "")
  {
    var w := ToLower(Trim(TextOr(raw)));
    if w == "" then ""
    else if Palette.IsHexColor(w) then w
    else match NamedBorderColor(w)
      case Some(c) => c
      case None => ""
  }

  /** A colour word is found whatever its case and surrounding white space. */
  lemma NamedWordResolves(s: string, word: string)
    requires ToLower(Trim(s)) == word && NamedBorderColor(word).Some?
    ensures ResolveBorderColor(Str(s)) == NamedBorderColor(word).value
  {
    NamedWordIsNotHex(word);
    assert TextOr(Str(s)) == s;
  }

  /** No colour word is itself a hex colour. */
  lemma NamedWordIsNotHex(word: string)
    requires NamedBorderColor(word).Some?
    ensures !Palette.IsHexColor(word)
  {
    assert word != [] && word[0] != '#';
  }

  /** `row?.shop_items`. */
  function ShopItem(row: RawValue): RawValue
  {
    Get(row, "shop_items")
  }

  predicate IsCosmetic(row: RawValue)
  {
    Truthy(ShopItem(row)) && Get(ShopItem(row), "category") == Str("cosmetic")
  }

  /** `shopItem.properties || {}`. */
  function Props(row: RawValue): RawValue
  {
    Or(Get(ShopItem(row), "properties"), Obj(map[]))
  }

  /** `String(props.type || '').toLowerCase()`. */
  function ItemType(row: RawValue): string
  {
    ToLower(TextOr(Get(Props(row), "type")))
  }

  predicate IsBorderRow(row: RawValue)
  {
    IsCosmetic(row) && ItemType(row) == "border"
  }

  predicate IsAvatarRow(row: RawValue)
  {
    IsCosmetic(row) && ItemType(row) == "avatar"
  }

  /** The trimmed `props.filter` when it is a string, else empty. */
  function FilterText(row: RawValue): string
  {
    var f := Get(Props(row), "filter");
    if f.Str? then Trim(f.s) else ""
  }

  /** Border and avatar items set the filter, but only with a non-blank filter string. */
  predicate SetsFilter(row: RawValue)
  {
    (IsBorderRow(row) || IsAvatarRow(row)) && FilterText(row) != ""
  }

  /** The border colour a border row asks for: `props.color || props.frame_color || ''`, resolved. */
  function BorderColorOf(row: RawValue): (r: string)
    ensures r == "" || Palette.IsHexColor(r)
  {
    var props := Props(row);
    ResolveBorderColor(Or(Or(Get(props, "color"), Get(props, "frame_color")), Str("")))
  }

  /** `getAvatarAppearanceFromInventoryRows`: the border colour of the last border row (even when
      that colour does not resolve) and the filter of the last row that carries one; a non-array
      gives no appearance. */
  method AppearanceFromRows(rows: RawValue) returns (a: Appearance)
    ensures !rows.Arr? ==> a == NoAppearance
    ensures var items := ElementsOrEmpty(rows);
      (forall j :: 0 <= j < |items| ==> !IsBorderRow(items[j])) ==> a.borderColor == ""
    ensures var items := ElementsOrEmpty(rows);
      forall k :: 0 <= k < |items| && IsBorderRow(items[k]) && (forall j :: k < j < |items| ==> !IsBorderRow(items[j]))
        ==> a.borderColor == BorderColorOf(items[k])
    ensures var items := ElementsOrEmpty(rows);
      (forall j :: 0 <= j < |items| ==> !SetsFilter(items[j])) ==> a.filter == ""
    ensures var items := ElementsOrEmpty(rows);
      forall k :: 0 <= k < |items| && SetsFilter(items[k]) && (forall j :: k < j < |items| ==> !SetsFilter(items[j]))
        ==> a.filter == FilterText(items[k])
  {
    var items := ElementsOrEmpty(rows);
    a := NoAppearance;
    var i := 0;
    while i < |items|
      invariant 0 <= i <= |items|
      invariant a.borderColor == LastOr(items[..i], IsBorderRow, BorderColorOf)
      invariant a.filter == LastOr(items[..i], SetsFilter, FilterText)
    {
      var row := items[i];
      assert items[..i + 1] == items[..i] + [row];
      LastOrSnoc(items[..i], row, IsBorderRow, BorderColorOf);
      LastOrSnoc(items[..i], row, SetsFilter, FilterText);
      a := Appearance(if IsBorderRow(row) then BorderColorOf(row) else a.borderColor,
                      if SetsFilter(row) then FilterText(row) else a.filter);
      i := i + 1;
    }
    assert items[..|items|] == items;
    LastOrMeaning(items, IsBorderRow, BorderColorOf);
    LastOrMeaning(items, SetsFilter, FilterText);
  }

  /** f of the last element satisfying p, or the empty string when there is none. */
  function LastOr(xs: seq<RawValue>, p: RawValue -> bool, f: RawValue -> string): string
  {
    match LastIndex(xs, p)
    case None => ""
    case Some(k) => f(xs[k])
  }

  /** LastOr is f of the element at the last index satisfying p, and empty when none does. */
  lemma LastOrMeaning(xs: seq<RawValue>, p: RawValue -> bool, f: RawValue -> string)
    ensures (forall j :: 0 <= j < |xs| ==> !p(xs[j])) ==> LastOr(xs, p, f) == ""
    ensures forall k :: 0 <= k < |xs| && p(xs[k]) && (forall j :: k < j < |xs| ==> !p(xs[j])) ==>
                LastOr(xs, p, f) == f(xs[k])
  {
    forall k | 0 <= k < |xs| && p(xs[k]) && (forall j :: k < j < |xs| ==> !p(xs[j]))
      ensures LastOr(xs, p, f) == f(xs[k])
    {
      LastIndexIsLast(xs, p, k);
    }
  }

  lemma LastOrSnoc(xs: seq<RawValue>, x: RawValue, p: RawValue -> bool, f: RawValue -> string)
    ensures LastOr(xs + [x], p, f) == if p(x) then f(x) else LastOr(xs, p, f)
  {
    LastIndexSnoc(xs, x, p);
  }

  /** Inline style properties of the avatar element; other properties are left alone. */
  datatype StyleProp = BorderColorProp | FilterProp | OtherProp(name: string)

  /** One property: set to the value when it is non-empty, else removed. */
  function SetOrRemove(style: map<StyleProp, string>, k: StyleProp, v: string): (r: map<StyleProp, string>)
    ensures v != "" ==> k in r && r[k] == v
    ensures v == "" ==> k !in r
    ensures forall o :: o in style && o != k ==> o in r && r[o] == style[o]
    ensures forall o :: o in r && o != k ==> o in style
  {
    if v != "" then style[k := v] else style - {k}
  }

  /** `applyAvatarAppearance`: without an element nothing happens; otherwise the border colour and
      filter are each set when given and removed when not, and no other property changes. */
  function ApplyAvatarAppearance(element: Option<map<StyleProp, string>>, a: Appearance): (r: Option<map<StyleProp, string>>)
    ensures r.Some? <==> element.Some?
    ensures r.Some? ==> (a.borderColor != "" ==> BorderColorProp in r.value && r.value[BorderColorProp] == a.borderColor)
    ensures r.Some? ==> (a.borderColor == "" ==> BorderColorProp !in r.value)
    ensures r.Some? ==> (a.filter != "" ==> FilterProp in r.value && r.value[FilterProp] == a.filter)
    ensures r.Some? ==> (a.filter == "" ==> FilterProp !in r.value)
    ensures r.Some? ==> forall o: StyleProp :: o.OtherProp? ==> (o in r.value <==> o in element.value)
    ensures r.Some? ==> forall o: StyleProp :: o.OtherProp? && o in element.value ==> r.value[o] == element.value[o]
  {
    match element
    case None => None
    case Some(style) => Some(SetOrRemove(SetOrRemove(style, BorderColorProp, a.borderColor), FilterProp, a.filter))
  }

  /** Putting the same appearance on twice is putting it on once. */
  lemma ApplyAvatarIdempotent(element: Option<map<StyleProp, string>>, a: Appearance)
    ensures ApplyAvatarAppearance(ApplyAvatarAppearance(element, a), a) == ApplyAvatarAppearance(element, a)
  {
    var once := ApplyAvatarAppearance(element, a);
    if element.Some? {
      var twice := ApplyAvatarAppearance(once, a);
      assert twice.value.Keys == once.value.Keys;
      assert twice.value == once.value;
    }
  }

  /** The appearance of a later application replaces an earlier one entirely. */
  lemma ApplyAvatarOverrides(element: Option<map<StyleProp, string>>, a: Appearance, b: Appearance)
    ensures ApplyAvatarAppearance(ApplyAvatarAppearance(element, a), b) == ApplyAvatarAppearance(element, b)
  {
    if element.Some? {
      var x := ApplyAvatarAppearance(ApplyAvatarAppearance(element, a), b).value;
      var y := ApplyAvatarAppearance(element, b).value;
      assert x.Keys == y.Keys;
      assert x == y;
    }
  }
}

=== FILE: board.dfy ===
/**
 * Revision boards: the custom select used for the subject pickers, the items of
 * the board editor and their blur edits, the record a board form saves, the
 * record a duplicate inserts and the facts a board card shows.
 */
module Board {
  import opened Js
  import opened Text
  import opened Seqs

  /** The state of a `CustomSelect`; `mounted` says whether its trigger and dropdown exist. */
  datatype Select = Select(mounted: bool, isOpen: bool, value: string, text: string)

  const NewSelect := Select(true, false, "", "All Subjects")

  /** `toggle()`: flips the open flag, when the select is on the page. */
  function Toggle(s: Select): (r: Select)
    ensures s.mounted ==> r == s.(isOpen := !s.isOpen)
    ensures !s.mounted ==> r == s
  {
    if s.mounted then s.(isOpen := !s.isOpen) else s
  }

  /** `close()`: the select is closed, when it is on the page. */
  function Close(s: Select): (r: Select)
    ensures s.mounted ==> !r.isOpen
    ensures r.(isOpen := s.isOpen) == s
  {
    if s.mounted then s.(isOpen := false) else s
  }

  lemma ToggleTwice(s: Select)
    ensures Toggle(Toggle(s)) == s
  {
  }

  /** `select(value, text)`: remembers the choice, closes, then hands the value to `onChange` when
      one is set; the second result is the value handed over. */
  function Choose(s: Select, value: string, text: string, hasOnChange: bool): (r: (Select, Option<string>))
    ensures r.0.value == value && r.0.text == text && r.0.mounted == s.mounted
    ensures s.mounted ==> !r.0.isOpen
    ensures r.1 == if hasOnChange then Some(value) else None
  {
    (Close(s.(value := value, text := text)), if hasOnChange then Some(value) else None)
  }

  /** The fields of an editor item. */
  datatype Field = Kind | Content | Front | Back | Url | Title | CreatedAt

  /** One item of `currentBoardContent`: an object of text fields. */
  type Item = map<Field, string>

  /** The item `addNote`, `addFlashcard` or `addLink` pushes, stamped with the time given. */
  function NoteItem(now: string): (r: Item)
    ensures r.Keys == {Kind, Content, CreatedAt} && r[Kind] == "note" && r[Content] == ""
  {
    map[Kind := "note", Content := "", CreatedAt := now]
  }

  function FlashcardItem(now: string): (r: Item)
    ensures r.Keys == {Kind, Front, Back, CreatedAt} && r[Kind] == "flashcard" && r[Front] == "" && r[Back] == ""
  {
    map[Kind := "flashcard", Front := "", Back := "", CreatedAt := now]
  }

  function LinkItem(now: string): (r: Item)
    ensures r.Keys == {Kind, Url, Title, CreatedAt} && r[Kind] == "link" && r[Url] == "" && r[Title] == ""
  {
    map[Kind := "link", Url := "", Title := "", CreatedAt := now]
  }

  /** The three add buttons: one new item at the end, the others as they were. */
  datatype ItemKind = NoteKind | FlashcardKind | LinkKind

  function AddItem(items: seq<Item>, kind: ItemKind, now: string): (r: seq<Item>)
    ensures |r| == |items| + 1 && r[..|items|] == items
    ensures Kind in r[|items|] && CreatedAt in r[|items|] && r[|items|][CreatedAt] == now
    ensures r[|items|][Kind] == match kind
      case NoteKind => "note"
      case FlashcardKind => "flashcard"
      case LinkKind => "link"
  {
    var item := match kind
      case NoteKind => NoteItem(now)
      case FlashcardKind => FlashcardItem(now)
      case LinkKind => LinkItem(now);
    assert (items + [item])[..|items|] == items;
    items + [item]
  }

  /** `deleteItem(index)`: once confirmed, `splice(index, 1)`; cancelled, nothing. */
  function DeleteItem(items: seq<Item>, index: nat, confirmed: bool): (r: seq<Item>)
    ensures !confirmed || index >= |items| ==> r == items
    ensures confirmed && index < |items| ==> r == items[..index] + items[index + 1..]
  {
    if confirmed then
      var r := RemoveAt(items, index);
      assert index < |items| ==> r == items[..index] + items[index + 1..];
      r
    else items
  }

  /** The blur handlers: `if (currentBoardContent[index]) currentBoardContent[index][field] = value`,
      for the index parsed from the element (`None` when it is not a number). */
  function UpdateField(items: seq<Item>, index: Option<int>, field: Field, value: string): (r: seq<Item>)
    ensures |r| == |items|
    ensures !(index.Some? && 0 <= index.value < |items|) ==> r == items
    ensures index.Some? && 0 <= index.value < |items| ==>
      && r[index.value] == items[index.value][field := value]
      && forall j :: 0 <= j < |items| && j != index.value ==> r[j] == items[j]
  {
    if index.Some? && 0 <= index.value < |items| then items[index.value := items[index.value][field := value]]
    else items
  }

  /** `parseInt` reported as a JS number: the integer, or NaN. */
  function NumberValue(n: Option<int>): (r: RawValue)
    ensures r.Num?
    ensures n.None? <==> r == Num("NaN")
  {
    match n
    case Some(v) =>
      assert IntToString(v) != "NaN" by {
        if v < 0 {
          assert IntToString(v)[0] == '-';
        } else {
          assert IsDigit(IntToString(v)[0]);
        }
      }
      Num(IntToString(v))
    case None => Num("NaN")
  }

  /** A row of `revision_boards` as the page writes it. */
  datatype BoardRecord = BoardRecord(userId: string, title: string, description: RawValue,
                                     subjectId: RawValue, isPublic: bool, content: RawValue)

  const EmptyContent := Obj(map["items" := Arr([])])

  /** The values of the board form. */
  datatype BoardForm = BoardForm(title: string, description: string, subject: string, isPublic: bool)

  /** The board form's submit: the record sent for both a new board and an edited one. The title
      and description are trimmed, an empty description and an unchosen subject are null, and the
      content is reset to no items. */
  function BoardData(form: BoardForm, userId: string): (r: BoardRecord)
    ensures r.userId == userId && r.title == Trim(form.title) && r.isPublic == form.isPublic
    ensures Trim(form.description) == "" <==> r.description == Null
    ensures r.description != Null ==> r.description == Str(Trim(form.description))
    ensures form.subject == "" <==> r.subjectId == Null
    ensures form.subject != "" ==> r.subjectId == NumberValue(ParseInt(form.subject, 0))
    ensures r.content == EmptyContent
  {
    var description := Trim(form.description);
    BoardRecord(userId, Trim(form.title),
                if description == "" then Null else Str(description),
                if form.subject == "" then Null else NumberValue(ParseInt(form.subject, 0)),
                form.isPublic, EmptyContent)
  }

  /** Without a `0x` prefix, `parseInt` with no radix reads base 10. */
  lemma UnsignedDefaultsToDecimal(u: string)
    requires !HasHexPrefix(u)
    ensures ParseUnsigned(u, 0) == ParseUnsigned(u, 10)
  {
  }

  /** Digit text has no sign, no space and no `0x` prefix, so with no radix it reads as decimal. */
  lemma DigitsWithoutRadix(d: string)
    requires d != [] && forall i :: 0 <= i < |d| ==> IsDigit(d[i])
    ensures ParseInt(d, 0) == ParseInt(d, 10)
  {
    assert !HasHexPrefix(d) by {
      if |d| >= 2 {
        assert IsDigit(d[1]);
      }
    }
    assert TrimStart(d) == d by {
      assert !IsSpace(d[0]);
    }
    assert d[0] != '-' && d[0] != '+' by {
      assert IsDigit(d[0]);
    }
    UnsignedDefaultsToDecimal(d);
  }

  /** `parseInt` with no radix reads decimal text back as the number it prints. */
  lemma ParseDecimalWithoutRadix(id: nat)
    ensures ParseInt(NatToString(id), 0) == Some(id)
  {
    DigitsWithoutRadix(NatToString(id));
    ParseIntOfIntToString(id);
  }

  /** A decimal subject id is stored as that number. */
  lemma SubjectIdKept(form: BoardForm, userId: string, id: nat)
    requires form.subject == NatToString(id)
    ensures BoardData(form, userId).subjectId == Num(NatToString(id))
  {
    ParseDecimalWithoutRadix(id);
    assert form.subject != "";
    assert NumberValue(Some(id)) == Num(IntToString(id));
  }

  /** `duplicateBoard`: a private copy owned by the current user, titled with " (Copy)". */
  function Duplicate(original: RawValue, userId: string): (r: BoardRecord)
    ensures r.userId == userId && !r.isPublic
    ensures r.title == JsString(Get(original, "title")) + " (Copy)"
    ensures r.description == Get(original, "description")
    ensures r.subjectId == Get(original, "subject_id")
    ensures r.content == Get(original, "content")
  {
    BoardRecord(userId, JsString(Get(original, "title")) + " (Copy)", Get(original, "description"),
                Get(original, "subject_id"), false, Get(original, "content"))
  }

  /** Every duplicate title ends with " (Copy)" and keeps the original title in front. */
  lemma DuplicateTitle(original: RawValue, userId: string)
    ensures StartsWith(Duplicate(original, userId).title, JsString(Get(original, "title")))
    ensures EndsWith(Duplicate(original, userId).title, " (Copy)")
  {
    var t := JsString(Get(original, "title"));
    var r := t + " (Copy)";
    assert r[..|t|] == t;
    assert r[|r| - 7..] == " (Copy)";
  }

  /** `board.content?.items?.length || 0`: an array's length or a string's length in UTF-16 code units, else 0. */
  function ItemCount(board: RawValue): (r: nat)
    ensures Get(Get(board, "content"), "items").Arr? ==> r == |Get(Get(board, "content"), "items").items|
    ensures Get(Get(board, "content"), "items").Str? ==> r == Utf16Length(Get(Get(board, "content"), "items").s)
    ensures !Get(Get(board, "content"), "items").Arr? && !Get(Get(board, "content"), "items").Str? ==> r == 0
  {
    match Get(Get(board, "content"), "items")
    case Arr(xs) => |xs|
    case Str(s) => Utf16Length(s)
    case _ => 0
  }

  /** `board.subjects?.name || 'No Subject'`. */
  function SubjectName(board: RawValue): (r: string)
    ensures !Truthy(Get(Get(board, "subjects"), "name")) ==> r == "No Subject"
    ensures Get(Get(board, "subjects"), "name").Str? && Get(Get(board, "subjects"), "name").s != "" ==>
      r == Get(Get(board, "subjects"), "name").s
  {
    JsString(Or(Get(Get(board, "subjects"), "name"), Str("No Subject")))
  }

  /** A duplicate shows as many items as its original. */
  lemma DuplicateKeepsItemCount(original: RawValue, userId: string)
    ensures var d := Duplicate(original, userId);
      ItemCount(Obj(map["content" := d.content])) == ItemCount(original)
  {
  }
}

=== FILE: dashboard.dfy ===
/**
 * The dashboard's account logic: the role list a profile row is read as and
 * its primary role, the XP thresholds of a level and the progress bar, and the
 * profile row created for a user who has none.
 */
module Dashboard {
  import opened Js
  import opened Text
  import opened Seqs

  datatype Role = Student | Teacher | Admin

  function RoleName(r: Role): string
  {
    match r
    case Student => "student"
    case Teacher => "teacher"
    case Admin => "admin"
  }

  /** `['student', 'teacher', 'admin'].includes(s)`, returning the role named. */
  function ParseRole(s: string): (r: Option<Role>)
    ensures r.Some? ==> RoleName(r.value) == s
    ensures r.None? ==> forall x: Role :: RoleName(x) != s
  {
    if s == "student" then Some(Student)
    else if s == "teacher" then Some(Teacher)
    else if s == "admin" then Some(Admin)
    else None
  }

  /** A role name reads back as its role. */
  lemma ParseRoleName(x: Role)
    ensures ParseRole(RoleName(x)) == Some(x)
  {
  }

  /** `String(r || '').trim().toLowerCase()`, kept only when it names a role. */
  function CleanRole(v: RawValue): Option<Role>
  {
    ParseRole(ToLower(Trim(TextOr(v))))
  }

  /** The `map(...).filter(...)` step: the roles named by the entries, in entry order. */
  function ValidRoles(entries: seq<RawValue>): (r: seq<Role>)
    ensures forall i :: 0 <= i < |entries| && CleanRole(entries[i]).Some? ==> CleanRole(entries[i]).value in r
    ensures forall x :: x in r ==> exists i :: 0 <= i < |entries| && CleanRole(entries[i]) == Some(x)
  {
    FilterMap(entries, CleanRole)
  }

  /** The role a profile falls back to when its `roles` name none: `profile.role` lower-cased (not
      trimmed) if it is a role, else student. */
  function FallbackRole(profile: RawValue): Role
  {
    match ParseRole(ToLower(JsString(Or(Get(profile, "role"), Str("student")))))
    case Some(x) => x
    case None => Student
  }

  /** `normalizeRoles(profile)`: the distinct roles named in `profile.roles`, in order of first
      appearance; when there are none, the single fallback role. */
  function NormalizeRoles(profile: RawValue): (r: seq<Role>)
    ensures r != []
    ensures forall i, j :: 0 <= i < j < |r| ==> r[i] != r[j]
  {
    var valid := ValidRoles(ElementsOrEmpty(Get(profile, "roles")));
    if valid == [] then [FallbackRole(profile)] else Dedup(valid)
  }

  /** When some entry of `roles` names a role, the result holds exactly the roles the entries name,
      ordered by where each is first named. */
  lemma NormalizeRolesContents(profile: RawValue)
    requires ValidRoles(ElementsOrEmpty(Get(profile, "roles"))) != []
    ensures var entries := ElementsOrEmpty(Get(profile, "roles"));
      forall x: Role :: x in NormalizeRoles(profile) <==> exists i :: 0 <= i < |entries| && CleanRole(entries[i]) == Some(x)
    ensures var valid := ValidRoles(ElementsOrEmpty(Get(profile, "roles")));
      forall i, j :: 0 <= i < j < |NormalizeRoles(profile)| ==>
        IndexOf(valid, NormalizeRoles(profile)[i]) < IndexOf(valid, NormalizeRoles(profile)[j])
  {
    var entries := ElementsOrEmpty(Get(profile, "roles"));
    var valid := ValidRoles(entries);
    var r := NormalizeRoles(profile);
    assert r == Dedup(valid);
    forall x: Role ensures x in r <==> x in valid {
      if x in valid {
        var k :| 0 <= k < |valid| && valid[k] == x;
        assert valid[k] in r;
      }
    }
  }

  /** No entry naming a role leaves exactly the fallback role. */
  lemma NormalizeRolesFallback(profile: RawValue)
    requires forall i :: 0 <= i < |ElementsOrEmpty(Get(profile, "roles"))| ==> CleanRole(ElementsOrEmpty(Get(profile, "roles"))[i]).None?
    ensures NormalizeRoles(profile) == [FallbackRole(profile)]
  {
    FilterMapNone(ElementsOrEmpty(Get(profile, "roles")), CleanRole);
    NoValidRoles(profile);
  }

  /** The highest of a set of roles: admin over teacher over student. */
  function HighestRole(roles: seq<Role>): (r: Role)
    ensures r == Admin <==> Admin in roles
    ensures r == Teacher <==> Admin !in roles && Teacher in roles
    ensures roles != [] ==> r in roles
  {
    if Admin in roles then Admin
    else if Teacher in roles then Teacher
    else
      assert roles != [] ==> roles[0] == Student;
      Student
  }

  /** `getPrimaryRole(profile)`: the highest of the profile's roles, which it always holds. */
  function PrimaryRole(profile: RawValue): (r: Role)
    ensures r in NormalizeRoles(profile)
    ensures r == Admin <==> Admin in NormalizeRoles(profile)
    ensures r == Teacher <==> Admin !in NormalizeRoles(profile) && Teacher in NormalizeRoles(profile)
  {
    HighestRole(NormalizeRoles(profile))
  }

  /** The level bar's numbers. */
  datatype LevelProgress = LevelProgress(
    level: int, currentLevelXp: int, nextLevelXp: int, xpInLevel: int, xpNeeded: int, percent: real)

  /** `x || d` for a nullable integer column. */
  function IntOr(x: Option<int>, d: int): int
  {
    if x.Some? && x.value != 0 then x.value else d
  }

  function Square(n: int): int
  {
    n * n
  }

  /** `Math.max(0, Math.min(100, v))`. */
  function Clamp100(v: real): (r: real)
    ensures 0.0 <= r <= 100.0
    ensures 0.0 <= v <= 100.0 ==> r == v
  {
    if v < 0.0 then 0.0 else if v > 100.0 then 100.0 else v
  }

  /** `updateLevelProgress()`: level n spans `(n-1)² · 100` to `n² · 100` XP; a missing or zero
      level counts as 1 and missing XP as 0; the percentage is clamped to [0, 100]. */
  function UpdateLevelProgress(level: Option<int>, xp: Option<int>): (r: LevelProgress)
    ensures r.level == (if level.None? || level == Some(0) then 1 else level.value)
    ensures r.currentLevelXp == (r.level - 1) * (r.level - 1) * 100
    ensures r.nextLevelXp == r.level * r.level * 100
    ensures r.xpInLevel == (if xp.Some? then xp.value else 0) - r.currentLevelXp
    ensures r.xpNeeded == r.nextLevelXp - r.currentLevelXp
    ensures r.xpNeeded == (2 * r.level - 1) * 100
    ensures r.level >= 1 ==> r.xpNeeded > 0
    ensures 0.0 <= r.percent <= 100.0
  {
    var lv := IntOr(level, 1);
    var x := IntOr(xp, 0);
    var current := Square(lv - 1) * 100;
    var next := Square(lv) * 100;
    var xpInLevel := x - current;
    var xpNeeded := next - current;
    assert xpNeeded == (2 * lv - 1) * 100 by {
      assert Square(lv) - Square(lv - 1) == 2 * lv - 1;
    }
    LevelProgress(lv, current, next, xpInLevel, xpNeeded, Clamp100(xpInLevel as real / xpNeeded as real * 100.0))
  }

  /** Within a level the bar shows the exact share of the level's XP earned; below it the bar is
      empty and from the next threshold on it is full. */
  lemma LevelProgressShare(level: Option<int>, xp: Option<int>)
    requires IntOr(level, 1) >= 1
    ensures var r := UpdateLevelProgress(level, xp);
      var x := IntOr(xp, 0);
      (r.currentLevelXp <= x <= r.nextLevelXp ==> r.percent == r.xpInLevel as real / r.xpNeeded as real * 100.0)
      && (x <= r.currentLevelXp ==> r.percent == 0.0)
      && (x >= r.nextLevelXp ==> r.percent == 100.0)
  {
    var r := UpdateLevelProgress(level, xp);
    assert r.nextLevelXp - r.currentLevelXp == r.xpNeeded;
    var i := r.xpInLevel as real;
    var n := r.xpNeeded as real;
    assert n > 0.0;
    if 0.0 <= i <= n {
      ShareInUnit(i, n);
    }
    if i <= 0.0 {
      ShareNonPositive(i, n);
    }
    if i >= n {
      ShareAtLeastOne(i, n);
    }
  }

  /** The levels tile the XP scale: each level starts where the one before it ends. */
  lemma LevelsAdjoin(n: int, xp: Option<int>)
    requires n >= 1
    ensures UpdateLevelProgress(Some(n + 1), xp).currentLevelXp == UpdateLevelProgress(Some(n), xp).nextLevelXp
    ensures UpdateLevelProgress(Some(n), xp).currentLevelXp < UpdateLevelProgress(Some(n), xp).nextLevelXp
  {
  }

  lemma ShareInUnit(i: real, n: real)
    requires n > 0.0 && 0.0 <= i <= n
    ensures 0.0 <= i / n * 100.0 <= 100.0
  {
  }

  lemma ShareNonPositive(i: real, n: real)
    requires n > 0.0 && i <= 0.0
    ensures i / n * 100.0 <= 0.0
  {
  }

  lemma ShareAtLeastOne(i: real, n: real)
    requires n > 0.0 && i >= n
    ensures i / n * 100.0 >= 100.0
  {
  }

  /** `email.split('@')[0]`: the text before the first `@`, or all of it. */
  function BeforeAt(email: string): (r: string)
    ensures |r| <= |email| && r == email[..|r|]
    ensures '@' !in r
    ensures |r| < |email| ==> email[|r|] == '@'
  {
    if email == [] || email[0] == '@' then [] else [email[0]] + BeforeAt(email[1..])
  }

  /** The signed-in account: id, email and its sign-up metadata. */
  datatype Account = Account(id: string, email: string, metadata: RawValue)

  /** The `users` row inserted by `createUserProfile`. */
  datatype ProfileRow = ProfileRow(
    id: string, email: string, username: RawValue, roles: seq<string>, role: string,
    yearGroup: RawValue, xp: int, level: int, brainCoins: int, hintTokens: int)

  /** `createUserProfile()`'s record: a fresh account at level 1 with 5 hints, whose single role is the
      sign-up role lower-cased (student when none was given). */
  function CreateUserProfile(a: Account): (r: ProfileRow)
    ensures r.xp == 0 && r.level == 1 && r.brainCoins == 0 && r.hintTokens == 5
    ensures r.id == a.id && r.email == a.email
    ensures r.roles == [r.role]
    ensures Truthy(Get(a.metadata, "role")) ==> r.role == ToLower(JsString(Get(a.metadata, "role")))
    ensures !Truthy(Get(a.metadata, "role")) ==> r.role == "student"
    ensures Truthy(Get(a.metadata, "year_group")) ==> r.yearGroup == Get(a.metadata, "year_group")
    ensures !Truthy(Get(a.metadata, "year_group")) ==> r.yearGroup == Null
    ensures ToLower(r.role) == r.role
    ensures Truthy(Get(a.metadata, "username")) ==> r.username == Get(a.metadata, "username")
    ensures !Truthy(Get(a.metadata, "username")) ==> r.username == Str(BeforeAt(a.email))
  {
    ToLowerIdempotent(JsString(Or(Get(a.metadata, "role"), Str("student"))));
    var role := ToLower(JsString(Or(Get(a.metadata, "role"), Str("student"))));
    ProfileRow(a.id, a.email, Or(Get(a.metadata, "username"), Str(BeforeAt(a.email))), [role], role,
      Or(Get(a.metadata, "year_group"), Null), 0, 1, 0, 5)
  }

  /** The row as the dashboard reads it back. */
  function ProfileValue(p: ProfileRow): RawValue
  {
    SingleRoleValue(p.role)
  }

  /** A role name has no surrounding space and no capitals. */
  lemma RoleNameIsClean(x: Role)
    ensures Trim(RoleName(x)) == RoleName(x) && ToLower(RoleName(x)) == RoleName(x)
  {
    var s := RoleName(x);
    forall i | 0 <= i < |s| ensures IsLowerLetter(s[i]) {
      match x
      case Student => assert s[i] in "student";
      case Teacher => assert s[i] in "teacher";
      case Admin => assert s[i] in "admin";
    }
    LettersAreClean(s);
  }

  /** A non-empty run of lower-case letters is unchanged by `trim()` and `toLowerCase()`. */
  lemma LettersAreClean(s: string)
    requires s != [] && forall i :: 0 <= i < |s| ==> IsLowerLetter(s[i])
    ensures Trim(s) == s && ToLower(s) == s
  {
    assert !IsSpace(s[0]) && !IsSpace(s[|s| - 1]);
    assert TrimStart(s) == s;
    assert TrimEnd(s) == s;
  }

  lemma ValidRolesSingle(e: RawValue)
    ensures ValidRoles([e]) == if CleanRole(e).Some? then [CleanRole(e).value] else []
  {
    assert [e][1..] == [];
    assert FilterMap([e], CleanRole) == (match CleanRole(e) case Some(x) => [x] + FilterMap([e][1..], CleanRole) case None => FilterMap([e][1..], CleanRole));
  }

  /** The row a profile with a single role reads as. */
  function SingleRoleValue(role: string): RawValue
  {
    Obj(map["roles" := Arr([Str(role)]), "role" := Str(role)])
  }

  lemma SingleRoleSteps(role: string)
    ensures var v := SingleRoleValue(role);
      var valid := ValidRoles(ElementsOrEmpty(Get(v, "roles")));
      valid == (if CleanRole(Str(role)).Some? then [CleanRole(Str(role)).value] else [])
      && Or(Get(v, "role"), Str("student")) == Or(Str(role), Str("student"))
  {
    var v := SingleRoleValue(role);
    assert Get(v, "roles") == Arr([Str(role)]);
    assert Get(v, "role") == Str(role);
    ValidRolesSingle(Str(role));
  }

  /** A profile whose `roles` is just its lower-cased `role` reads back as the role that text names
      once trimmed, and as a student when it names none. */
  lemma SingleRoleProfile(role: string)
    requires ToLower(role) == role
    ensures NormalizeRoles(SingleRoleValue(role))
      == [if CleanRole(Str(role)).Some? then CleanRole(Str(role)).value else Student]
  {
    SingleRoleSteps(role);
    if CleanRole(Str(role)).Some? {
      SingleRoleNamed(role);
    } else {
      if ParseRole(role).Some? {
        CleanRoleName(ParseRole(role).value);
        assert false;
      }
      SingleRoleUnnamed(role);
    }
  }

  lemma SingleRoleNamed(role: string)
    requires CleanRole(Str(role)).Some?
    ensures NormalizeRoles(SingleRoleValue(role)) == [CleanRole(Str(role)).value]
  {
    SingleRoleSteps(role);
    var y := CleanRole(Str(role)).value;
    assert Dedup([y]) == [y];
  }

  lemma SingleRoleUnnamed(role: string)
    requires CleanRole(Str(role)).None? && (role == "" || ParseRole(ToLower(role)).None?)
    ensures NormalizeRoles(SingleRoleValue(role)) == [Student]
  {
    var v := SingleRoleValue(role);
    assert ValidRoles(ElementsOrEmpty(Get(v, "roles"))) == [] by {
      SingleRoleSteps(role);
    }
    NoValidRoles(v);
    assert FallbackRole(v) == Student by {
      assert Get(v, "role") == Str(role);
      UnnamedFallback(v, role);
    }
  }

  lemma UnnamedFallback(v: RawValue, role: string)
    requires Get(v, "role") == Str(role) && (role == "" || ParseRole(ToLower(role)).None?)
    ensures FallbackRole(v) == Student
  {
    if role == "" {
      StudentFallback(v);
    } else {
      UnknownRoleFallback(v, role);
    }
  }

  lemma NoValidRoles(v: RawValue)
    requires ValidRoles(ElementsOrEmpty(Get(v, "roles"))) == []
    ensures NormalizeRoles(v) == [FallbackRole(v)]
  {
  }

  /** A role's own name, as a value, cleans to that role. */
  lemma CleanRoleName(x: Role)
    ensures CleanRole(Str(RoleName(x))) == Some(x)
  {
    RoleNameIsClean(x);
    ParseRoleName(x);
  }

  lemma StudentFallback(v: RawValue)
    requires !Truthy(Get(v, "role"))
    ensures FallbackRole(v) == Student
  {
    var text := JsString(Or(Get(v, "role"), Str("student")));
    assert text == "student";
    assert ToLower(text) == RoleName(Student) by {
      RoleNameIsClean(Student);
    }
    ParseRoleName(Student);
  }

  lemma UnknownRoleFallback(v: RawValue, role: string)
    requires role != "" && Get(v, "role") == Str(role) && ParseRole(ToLower(role)).None?
    ensures FallbackRole(v) == Student
  {
    assert JsString(Or(Get(v, "role"), Str("student"))) == role;
  }

  /** A freshly created profile is read back with its own role, trimmed, when that names a role,
      and as a student otherwise. */
  lemma NewProfileRoles(a: Account)
    ensures var p := CreateUserProfile(a);
      NormalizeRoles(ProfileValue(p)) == [if CleanRole(Str(p.role)).Some? then CleanRole(Str(p.role)).value else Student]
    ensures var p := CreateUserProfile(a);
      ParseRole(p.role).Some? ==> NormalizeRoles(ProfileValue(p)) == [ParseRole(p.role).value]
  {
    var p := CreateUserProfile(a);
    SingleRoleOutcome(p.role);
  }

  /** The roles a lower-case single-role profile normalises to. */
  lemma SingleRoleOutcome(role: string)
    requires ToLower(role) == role
    ensures NormalizeRoles(SingleRoleValue(role))
      == [if CleanRole(Str(role)).Some? then CleanRole(Str(role)).value else Student]
    ensures ParseRole(role).Some? ==> NormalizeRoles(SingleRoleValue(role)) == [ParseRole(role).value]
  {
    SingleRoleProfile(role);
    if ParseRole(role).Some? {
      RoleNameIsClean(ParseRole(role).value);
    }
  }
}

=== FILE: escape.dfy ===
/**
 * The three HTML escaping helpers: `escapeHtml` (admin page), `escapeModalText`
 * (notification modal) and `escHtml` (poetry page). Each is a chain of
 * `replaceAll` calls, one per special character, with `&` handled first.
 */
module Escape {
  import opened Js
  import opened Text
  import Seqs

  /** One `replaceAll(c, repl)` step. */
  datatype Rule = Rule(c: char, repl: string)

  /** `s.replaceAll(c, repl)` for a one-character pattern. */
  function ReplaceChar(s: string, c: char, repl: string): (r: string)
    ensures c !in s ==> r == s
    ensures c !in repl ==> c !in r
    decreases |s|
  {
    if s == [] then []
    else (if s[0] == c then repl else [s[0]]) + ReplaceChar(s[1..], c, repl)
  }

  /** The replacements applied one after the other, in the order given. */
  function ReplaceEach(s: string, rules: seq<Rule>): string
    decreases |rules|
  {
    if rules == [] then s else ReplaceEach(ReplaceChar(s, rules[0].c, rules[0].repl), rules[1..])
  }

  /** `&`, `<`, `>`, `"`, `'` in this order: `escapeHtml` and `escapeModalText`. */
  const HtmlRules: seq<Rule> :=
    [Rule('&', "&amp;"), Rule('<', "&lt;"), Rule('>', "&gt;"), Rule('"', "&quot;"), Rule('\'', "&#39;")]

  /** `&`, `<`, `>`, `"`: `escHtml`, which leaves the apostrophe alone. */
  const AttrRules: seq<Rule> :=
    [Rule('&', "&amp;"), Rule('<', "&lt;"), Rule('>', "&gt;"), Rule('"', "&quot;")]

  /** What a single character becomes: the replacement of the first rule for it, else itself. */
  function Lookup(x: char, rules: seq<Rule>): (r: string)
    ensures (forall i :: 0 <= i < |rules| ==> rules[i].c != x) ==> r == [x]
    decreases |rules|
  {
    if rules == [] then [x]
    else if rules[0].c == x then rules[0].repl
    else Lookup(x, rules[1..])
  }

  /** The character-by-character reading of a replacement chain. */
  function EscapeChars(s: string, rules: seq<Rule>): string
    decreases |s|
  {
    if s == [] then [] else Lookup(s[0], rules) + EscapeChars(s[1..], rules)
  }

  /** A later rule never rewrites what an earlier one inserted. */
  predicate Ordered(rules: seq<Rule>)
  {
    forall i, j :: 0 <= i < j < |rules| ==> rules[j].c !in rules[i].repl
  }

  lemma {:induction false} ReplaceCharConcat(a: string, b: string, c: char, repl: string)
    ensures ReplaceChar(a + b, c, repl) == ReplaceChar(a, c, repl) + ReplaceChar(b, c, repl)
    decreases |a|
  {
    if a == [] {
      assert a + b == b;
    } else {
      var head := if a[0] == c then repl else [a[0]];
      var t := a + b;
      assert t != [] && t[0] == a[0];
      assert t[1..] == a[1..] + b;
      var x, y := ReplaceChar(a[1..], c, repl), ReplaceChar(b, c, repl);
      calc {
        ReplaceChar(t, c, repl);
        head + ReplaceChar(t[1..], c, repl);
        { ReplaceCharConcat(a[1..], b, c, repl); }
        head + (x + y);
        { Seqs.AppendAssoc(head, x, y); }
        (head + x) + y;
        ReplaceChar(a, c, repl) + y;
      }
    }
  }

  lemma {:induction false} ReplaceEachConcat(a: string, b: string, rules: seq<Rule>)
    ensures ReplaceEach(a + b, rules) == ReplaceEach(a, rules) + ReplaceEach(b, rules)
    decreases |rules|
  {
    if rules != [] {
      ReplaceCharConcat(a, b, rules[0].c, rules[0].repl);
      ReplaceEachConcat(ReplaceChar(a, rules[0].c, rules[0].repl), ReplaceChar(b, rules[0].c, rules[0].repl), rules[1..]);
    }
  }

  lemma {:induction false} ReplaceEachUntouched(s: string, rules: seq<Rule>)
    requires forall i :: 0 <= i < |rules| ==> rules[i].c !in s
    ensures ReplaceEach(s, rules) == s
    decreases |rules|
  {
    if rules != [] {
      ReplaceEachUntouched(s, rules[1..]);
    }
  }

  lemma {:induction false} ReplaceEachChar(x: char, rules: seq<Rule>)
    requires Ordered(rules)
    ensures ReplaceEach([x], rules) == Lookup(x, rules)
    decreases |rules|
  {
    if rules != [] {
      var tail := rules[1..];
      assert Ordered(tail) by {
        forall i, j | 0 <= i < j < |tail| ensures tail[j].c !in tail[i].repl {
          assert tail[j] == rules[j + 1] && tail[i] == rules[i + 1];
        }
      }
      if rules[0].c == x {
        assert ReplaceChar([x], x, rules[0].repl) == rules[0].repl;
        assert forall j :: 0 <= j < |tail| ==> tail[j].c !in rules[0].repl by {
          forall j | 0 <= j < |tail| ensures tail[j].c !in rules[0].repl {
            assert tail[j] == rules[j + 1];
          }
        }
        ReplaceEachUntouched(rules[0].repl, tail);
      } else {
        assert ReplaceChar([x], rules[0].c, rules[0].repl) == [x];
        ReplaceEachChar(x, tail);
      }
    }
  }

  /** The replaceAll chain equals the per-character escape when the rules are ordered. */
  lemma {:induction false} ReplaceEachIsPerChar(s: string, rules: seq<Rule>)
    requires Ordered(rules)
    ensures ReplaceEach(s, rules) == EscapeChars(s, rules)
    decreases |s|
  {
    if s == [] {
      ReplaceEachUntouched(s, rules);
    } else {
      assert s == [s[0]] + s[1..];
      ReplaceEachConcat([s[0]], s[1..], rules);
      ReplaceEachChar(s[0], rules);
      ReplaceEachIsPerChar(s[1..], rules);
    }
  }

  lemma HtmlRulesOrdered()
    ensures Ordered(HtmlRules) && Ordered(AttrRules)
  {
  }

  /** Text without any of the rules' characters comes out as it went in. */
  lemma {:induction false} EscapeCharsPlain(s: string, rules: seq<Rule>)
    requires forall i :: 0 <= i < |rules| ==> rules[i].c !in s
    ensures EscapeChars(s, rules) == s
    decreases |s|
  {
    if s != [] {
      assert forall i :: 0 <= i < |rules| ==> rules[i].c !in s[1..];
      EscapeCharsPlain(s[1..], rules);
      assert s == [s[0]] + s[1..];
    }
  }

  /** A character no replacement produces and no rule keeps survives nowhere in the output. */
  lemma {:induction false} EscapeCharsAvoids(s: string, rules: seq<Rule>, c: char)
    requires forall x :: c !in Lookup(x, rules)
    ensures c !in EscapeChars(s, rules)
    decreases |s|
  {
    if s != [] {
      EscapeCharsAvoids(s[1..], rules, c);
    }
  }

  /** The chain of `escapeHtml` / `escapeModalText` on a string. */
  function EscapeText(s: string): (r: string)
    ensures r == EscapeChars(s, HtmlRules)
    ensures '<' !in r && '>' !in r && '"' !in r && '\'' !in r
  {
    HtmlRulesOrdered();
    LookupAvoidsSpecials();
    ReplaceEachIsPerChar(s, HtmlRules);
    EscapeCharsAvoids(s, HtmlRules, '<');
    EscapeCharsAvoids(s, HtmlRules, '>');
    EscapeCharsAvoids(s, HtmlRules, '"');
    EscapeCharsAvoids(s, HtmlRules, '\'');
    ReplaceEach(s, HtmlRules)
  }

  /** The chain of `escHtml` on a string: the apostrophe is left as it is. */
  function EscapeAttrText(s: string): (r: string)
    ensures r == EscapeChars(s, AttrRules)
    ensures '<' !in r && '>' !in r && '"' !in r
    ensures ('\'' in r) <==> ('\'' in s)
  {
    HtmlRulesOrdered();
    LookupAvoidsSpecials();
    ReplaceEachIsPerChar(s, AttrRules);
    EscapeCharsAvoids(s, AttrRules, '<');
    EscapeCharsAvoids(s, AttrRules, '>');
    EscapeCharsAvoids(s, AttrRules, '"');
    ApostropheKept(s);
    ReplaceEach(s, AttrRules)
  }

  lemma {:induction false} ApostropheKept(s: string)
    ensures ('\'' in EscapeChars(s, AttrRules)) <==> ('\'' in s)
    decreases |s|
  {
    if s != [] {
      ApostropheKept(s[1..]);
      assert s == [s[0]] + s[1..];
    }
  }

  /** `escapeHtml(value)` and `escapeModalText(value)`: `String(value ?? '')`, escaped. */
  function EscapeHtml(v: RawValue): (r: string)
    ensures '<' !in r && '>' !in r && '"' !in r && '\'' !in r
    ensures (v.Absent? || v.Null?) ==> r == ""
    ensures v.Str? ==> r == EscapeChars(v.s, HtmlRules)
  {
    EscapeText(TextOrNullish(v))
  }

  /** `escHtml(str)`: `String(str || '')`, escaped without the apostrophe rule. */
  function EscHtml(v: RawValue): (r: string)
    ensures '<' !in r && '>' !in r && '"' !in r
    ensures !Truthy(v) ==> r == ""
    ensures v.Str? ==> r == EscapeChars(v.s, AttrRules)
  {
    EscapeAttrText(TextOr(v))
  }

  /** What a browser reads back from escaped text: the five entities decode, anything else is literal. */
  function Unescape(s: string): string
    decreases |s|
  {
    if s == [] then []
    else if StartsWith(s, "&amp;") then "&" + Unescape(s[5..])
    else if StartsWith(s, "&lt;") then "<" + Unescape(s[4..])
    else if StartsWith(s, "&gt;") then ">" + Unescape(s[4..])
    else if StartsWith(s, "&quot;") then "\"" + Unescape(s[6..])
    else if StartsWith(s, "&#39;") then "'" + Unescape(s[5..])
    else [s[0]] + Unescape(s[1..])
  }

  lemma NotStartsWith(s: string, p: string, i: nat)
    requires i < |p| && i < |s| && s[i] != p[i]
    ensures !StartsWith(s, p)
  {
    if |p| <= |s| {
      assert s[..|p|][i] == s[i];
    }
  }

  lemma UnescapeLiteral(x: char, t: string)
    requires x != '&'
    ensures Unescape([x] + t) == [x] + Unescape(t)
  {
    var s := [x] + t;
    NotStartsWith(s, "&amp;", 0);
    NotStartsWith(s, "&lt;", 0);
    NotStartsWith(s, "&gt;", 0);
    NotStartsWith(s, "&quot;", 0);
    NotStartsWith(s, "&#39;", 0);
    assert s[1..] == t;
  }

  /** Each entity decodes to its character, whatever follows it. */
  lemma UnescapeEntity(x: char, t: string)
    requires x in "&<>\"'"
    ensures Unescape(Lookup(x, HtmlRules) + t) == [x] + Unescape(t)
  {
    var e := Lookup(x, HtmlRules);
    var s := e + t;
    assert s[..|e|] == e;
    assert s[|e|..] == t;
    if x != '&' {
      NotStartsWith(s, "&amp;", 1);
    }
    if x != '&' && x != '<' {
      NotStartsWith(s, "&lt;", 1);
    }
    if x != '&' && x != '<' && x != '>' {
      NotStartsWith(s, "&gt;", 1);
    }
    if x == '\'' {
      NotStartsWith(s, "&quot;", 1);
    }
  }

  lemma {:induction false} UnescapeStep(x: char, t: string, rules: seq<Rule>)
    requires rules == HtmlRules || rules == AttrRules
    ensures Unescape(Lookup(x, rules) + t) == [x] + Unescape(t)
  {
    LookupRules(x);
    if x == '\'' && rules == AttrRules {
      UnescapeLiteral(x, t);
    } else if x in "&<>\"'" {
      UnescapeEntity(x, t);
    } else {
      UnescapeLiteral(x, t);
    }
  }

  /** The two rule tables, one character at a time. */
  lemma LookupRules(x: char)
    ensures Lookup(x, HtmlRules) ==
      if x == '&' then "&amp;" else if x == '<' then "&lt;" else if x == '>' then "&gt;"
      else if x == '"' then "&quot;" else if x == '\'' then "&#39;" else [x]
    ensures Lookup(x, AttrRules) == if x == '\'' then [x] else Lookup(x, HtmlRules)
  {
  }

  /** No entity holds a character the rules escape, other than `&`. */
  lemma EntitiesClean()
    ensures forall e :: e in ["&amp;", "&lt;", "&gt;", "&quot;", "&#39;"] ==>
      '<' !in e && '>' !in e && '"' !in e && '\'' !in e
  {
  }

  lemma LookupAvoidsHtml(x: char)
    ensures '<' !in Lookup(x, HtmlRules) && '>' !in Lookup(x, HtmlRules)
    ensures '"' !in Lookup(x, HtmlRules) && '\'' !in Lookup(x, HtmlRules)
  {
    LookupRules(x);
    EntitiesClean();
    var e := Lookup(x, HtmlRules);
    assert e == [x] || e in ["&amp;", "&lt;", "&gt;", "&quot;", "&#39;"];
  }

  lemma LookupAvoids(x: char)
    ensures '<' !in Lookup(x, HtmlRules) && '>' !in Lookup(x, HtmlRules)
    ensures '"' !in Lookup(x, HtmlRules) && '\'' !in Lookup(x, HtmlRules)
    ensures '<' !in Lookup(x, AttrRules) && '>' !in Lookup(x, AttrRules) && '"' !in Lookup(x, AttrRules)
  {
    LookupAvoidsHtml(x);
    LookupRules(x);
  }

  lemma LookupAvoidsSpecials()
    ensures forall x :: '<' !in Lookup(x, HtmlRules) && '>' !in Lookup(x, HtmlRules)
    ensures forall x :: '"' !in Lookup(x, HtmlRules) && '\'' !in Lookup(x, HtmlRules)
    ensures forall x :: '<' !in Lookup(x, AttrRules) && '>' !in Lookup(x, AttrRules) && '"' !in Lookup(x, AttrRules)
  {
    forall x: char
      ensures '<' !in Lookup(x, HtmlRules) && '>' !in Lookup(x, HtmlRules)
      ensures '"' !in Lookup(x, HtmlRules) && '\'' !in Lookup(x, HtmlRules)
      ensures '<' !in Lookup(x, AttrRules) && '>' !in Lookup(x, AttrRules) && '"' !in Lookup(x, AttrRules)
    {
      LookupAvoids(x);
    }
  }

  lemma {:induction false} UnescapeEscapeChars(s: string, rules: seq<Rule>)
    requires rules == HtmlRules || rules == AttrRules
    ensures Unescape(EscapeChars(s, rules)) == s
    decreases |s|
  {
    if s != [] {
      UnescapeStep(s[0], EscapeChars(s[1..], rules), rules);
      UnescapeEscapeChars(s[1..], rules);
    }
  }

  /** Escaping loses nothing: decoding the output gives the input back. */
  lemma {:induction false} EscapeTextRoundTrip(s: string)
    ensures Unescape(EscapeText(s)) == s
  {
    UnescapeEscapeChars(s, HtmlRules);
  }

  /** The same holds for `escHtml`, which keeps apostrophes literal. */
  lemma {:induction false} EscapeAttrTextRoundTrip(s: string)
    ensures Unescape(EscapeAttrText(s)) == s
  {
    UnescapeEscapeChars(s, AttrRules);
  }

  /** Distinct texts never escape to the same markup. */
  lemma {:induction false} EscapeTextInjective(a: string, b: string)
    ensures EscapeText(a) == EscapeText(b) ==> a == b
  {
    EscapeTextRoundTrip(a);
    EscapeTextRoundTrip(b);
  }
}

=== FILE: js.dfy ===
/**
 * Plain JavaScript values as the browser scripts see them before they trust
 * their shape: stored JSON, rows returned by the backend, `properties` bags of
 * shop items. Only the handful of JavaScript operations the scripts actually
 * apply to such values is defined here: truthiness, `String(x)`, optional
 * property access `x?.k`, `typeof x === 'object'` and `Array.isArray(x)`.
 */
module Js {

  datatype Option<+T> = None | Some(value: T)

  /** A JavaScript value. A number is kept as the text `String(n)` produces,
      which is all the scripts ever look at (and decides its truthiness). */
  datatype RawValue =
    | Absent                               // undefined
    | Null
    | Bool(b: bool)
    | Num(text: string)
    | Str(s: string)
    | Arr(items: seq<RawValue>)
    | Obj(fields: map<string, RawValue>)

  /** Outcome of `JSON.parse`: a value, or the SyntaxError it throws. */
  datatype JsonResult = Parsed(value: RawValue) | SyntaxError

  /** `JSON.parse` itself is a foreign parser; operations that call it take it as a parameter. */
  type JsonParse = string -> JsonResult

  /** `!!v`: undefined, null, false, 0, NaN and "" are falsy; objects and arrays never are. */
  predicate Truthy(v: RawValue)
  {
    match v
    case Absent => false
    case Null => false
    case Bool(b) => b
    case Num(t) => t != "0" && t != "NaN"
    case Str(s) => s != ""
    case Arr(_) => true
    case Obj(_) => true
  }

  /** `typeof v === 'object'` for a truthy value (null is excluded by truthiness). */
  predicate IsObjectLike(v: RawValue)
  {
    v.Arr? || v.Obj?
  }

  /** `x?.k`: a missing key, or any value that is not a plain object, yields undefined. */
  function Get(v: RawValue, key: string): (r: RawValue)
    ensures !v.Obj? ==> r == Absent
    ensures v.Obj? && key in v.fields ==> r == v.fields[key]
  {
    if v.Obj? && key in v.fields then v.fields[key] else Absent
  }

  /** `a || b`. */
  function Or(a: RawValue, b: RawValue): (r: RawValue)
    ensures Truthy(a) ==> r == a
    ensures !Truthy(a) ==> r == b
  {
    if Truthy(a) then a else b
  }

  /** `String(v)`. Array elements that are null or undefined print as empty. */
  function JsString(v: RawValue): string
  {
    match v
    case Absent => "undefined"
    case Null => "null"
    case Bool(b) => if b then "true" else "false"
    case Num(t) => t
    case Str(s) => s
    case Arr(xs) => JoinElements(xs, ",")
    case Obj(_) => "[object Object]"
  }

  /** `xs.join(sep)`; `String([...])` is the join with a comma. Elements that are null or
      undefined print as empty. */
  function JoinElements(xs: seq<RawValue>, sep: string): string
    decreases xs, 1
  {
    if xs == [] then ""
    else
      var head := if xs[0].Absent? || xs[0].Null? then "" else JsString(xs[0]);
      if |xs| == 1 then head else head + sep + JoinElements(xs[1..], sep)
  }

  /** `String(v || '')`: the text of a truthy value, else the empty string. */
  function TextOr(v: RawValue): (r: string)
    ensures !Truthy(v) ==> r == ""
    ensures v.Str? ==> r == v.s
  {
    if Truthy(v) then JsString(v) else ""
  }

  /** `String(v ?? '')`: only null and undefined turn into the empty string. */
  function TextOrNullish(v: RawValue): (r: string)
    ensures v.Absent? || v.Null? ==> r == ""
    ensures v.Str? ==> r == v.s
  {
    if v.Absent? || v.Null? then "" else JsString(v)
  }

  /** `Array.isArray(v) ? v : []`. */
  function ElementsOrEmpty(v: RawValue): (r: seq<RawValue>)
    ensures v.Arr? ==> r == v.items
    ensures !v.Arr? ==> r == []
  {
    if v.Arr? then v.items else []
  }
}

=== FILE: palette.dfy ===
/**
 * The custom light/dark palette: ten colour slots per mode, the hex-colour
 * check (`normalizeHex`, case-keeping on the page and upper-casing in the
 * shop), the built-in defaults, the normaliser that also upgrades a legacy
 * flat palette, and the JSON text the palette is stored as.
 */
module Palette {
  import opened Js
  import opened Text

  datatype Slot =
    | AccentPrimary | AccentSecondary | TextPrimary | TextSecondary | BgSecondary
    | BorderColor | CardBg | NavBg | BgPrimaryStart | BgPrimaryEnd

  /** The object key each slot is stored under. */
  function Key(s: Slot): string
  {
    match s
    case AccentPrimary => "accentPrimary"
    case AccentSecondary => "accentSecondary"
    case TextPrimary => "textPrimary"
    case TextSecondary => "textSecondary"
    case BgSecondary => "bgSecondary"
    case BorderColor => "borderColor"
    case CardBg => "cardBg"
    case NavBg => "navBg"
    case BgPrimaryStart => "bgPrimaryStart"
    case BgPrimaryEnd => "bgPrimaryEnd"
  }

  /** One mode's colours. */
  datatype Slots = Slots(
    accentPrimary: string, accentSecondary: string, textPrimary: string, textSecondary: string,
    bgSecondary: string, borderColor: string, cardBg: string, navBg: string,
    bgPrimaryStart: string, bgPrimaryEnd: string)
  {
    function At(s: Slot): string
    {
      match s
      case AccentPrimary => accentPrimary
      case AccentSecondary => accentSecondary
      case TextPrimary => textPrimary
      case TextSecondary => textSecondary
      case BgSecondary => bgSecondary
      case BorderColor => borderColor
      case CardBg => cardBg
      case NavBg => navBg
      case BgPrimaryStart => bgPrimaryStart
      case BgPrimaryEnd => bgPrimaryEnd
    }

    /** `slots[key] = v`. */
    function With(s: Slot, v: string): (r: Slots)
      ensures r.At(s) == v
      ensures forall t: Slot :: t != s ==> r.At(t) == At(t)
    {
      match s
      case AccentPrimary => this.(accentPrimary := v)
      case AccentSecondary => this.(accentSecondary := v)
      case TextPrimary => this.(textPrimary := v)
      case TextSecondary => this.(textSecondary := v)
      case BgSecondary => this.(bgSecondary := v)
      case BorderColor => this.(borderColor := v)
      case CardBg => this.(cardBg := v)
      case NavBg => this.(navBg := v)
      case BgPrimaryStart => this.(bgPrimaryStart := v)
      case BgPrimaryEnd => this.(bgPrimaryEnd := v)
    }
  }

  /** Two slot records agree everywhere exactly when they are equal. */
  lemma SlotsExtensional(a: Slots, b: Slots)
    requires forall s: Slot :: a.At(s) == b.At(s)
    ensures a == b
  {
    assert a.At(AccentPrimary) == b.At(AccentPrimary) && a.At(AccentSecondary) == b.At(AccentSecondary);
    assert a.At(TextPrimary) == b.At(TextPrimary) && a.At(TextSecondary) == b.At(TextSecondary);
    assert a.At(BgSecondary) == b.At(BgSecondary) && a.At(BorderColor) == b.At(BorderColor);
    assert a.At(CardBg) == b.At(CardBg) && a.At(NavBg) == b.At(NavBg);
    assert a.At(BgPrimaryStart) == b.At(BgPrimaryStart) && a.At(BgPrimaryEnd) == b.At(BgPrimaryEnd);
  }

  datatype Mode = Light | Dark

  datatype Palette = Palette(light: Slots, dark: Slots)
  {
    function For(m: Mode): Slots
    {
      if m == Dark then dark else light
    }

    /** `palette[mode][key] = v`. */
    function WithSlot(m: Mode, s: Slot, v: string): (r: Palette)
      ensures r.For(m).At(s) == v
      ensures forall t: Slot :: t != s ==> r.For(m).At(t) == For(m).At(t)
      ensures forall n: Mode :: n != m ==> r.For(n) == For(n)
    {
      if m == Dark then this.(dark := dark.With(s, v)) else this.(light := light.With(s, v))
    }
  }

  /** How `normalizeHex` treats letter case: the page keeps it, the shop upper-cases. */
  datatype HexCase = KeepCase | Upper

  /** `/^#[0-9a-fA-F]{6}$/`. */
  predicate IsHexColor(c: string)
  {
    |c| == 7 && c[0] == '#' && forall i :: 1 <= i < 7 ==> IsHexDigit(c[i])
  }

  /** What a slot may hold under a case policy: `/^#[0-9A-F]{6}$/` for the shop. */
  predicate IsValidFor(c: string, hc: HexCase)
  {
    IsHexColor(c) && (hc == Upper ==> forall i :: 0 <= i < |c| ==> !IsLowerLetter(c[i]))
  }

  /** A hex colour upper-cases to a hex colour, and a non-colour to a non-colour. */
  lemma UpperKeepsHexColor(t: string)
    ensures IsHexColor(ToUpper(t)) <==> IsHexColor(t)
  {
    var u := ToUpper(t);
    if |t| == 7 {
      forall i | 0 <= i < 7 ensures IsHexDigit(u[i]) <==> IsHexDigit(t[i]) {
        assert u[i] == UpperChar(t[i]);
      }
      assert u[0] == '#' <==> t[0] == '#';
    }
  }

  /** `normalizeHex(value, fallback)`: a falsy value gives the fallback; otherwise `String(value).trim()`
      (upper-cased in the shop) if it is a hex colour, else the fallback. */
  function NormalizeHex(v: RawValue, fallback: string, hc: HexCase): (r: string)
    ensures !Truthy(v) ==> r == fallback
    ensures r == fallback || IsValidFor(r, hc)
  {
    if !Truthy(v) then fallback
    else
      var t := Trim(JsString(v));
      UpperKeepsHexColor(t);
      var c := if hc == Upper then ToUpper(t) else t;
      if IsHexColor(c) then c else fallback
  }

  /** The trimmed text is taken (upper-cased in the shop) exactly when it is `#` and six hex digits in
      either case; anything else, the empty string included, gives the fallback. */
  lemma NormalizeHexSpec(v: RawValue, fallback: string, hc: HexCase)
    ensures Truthy(v) && IsHexColor(Trim(JsString(v))) ==>
      NormalizeHex(v, fallback, hc) == (if hc == Upper then ToUpper(Trim(JsString(v))) else Trim(JsString(v)))
    ensures !(Truthy(v) && IsHexColor(Trim(JsString(v)))) ==> NormalizeHex(v, fallback, hc) == fallback
  {
    if Truthy(v) {
      UpperKeepsHexColor(Trim(JsString(v)));
    }
  }

  /** A valid colour normalises to itself: `normalizeHex` is idempotent. */
  lemma NormalizeHexFixes(c: string, fallback: string, hc: HexCase)
    requires IsValidFor(c, hc)
    ensures NormalizeHex(Str(c), fallback, hc) == c
  {
    assert !IsSpace(c[0]) && !IsSpace(c[6]);
    assert TrimStart(c) == c;
    assert TrimEnd(c) == c;
    if hc == Upper {
      assert ToUpper(c) == c;
    }
  }

  /** `defaultCustomThemePalette()` / `defaultCustomPalette()`. */
  const Defaults: Palette := Palette(
    Slots("#3B82F6", "#60A5FA", "#0F172A", "#64748B", "#FFFFFF", "#E2E8F0", "#FFFFFF", "#FFFFFF", "#F0F9FF", "#E0F2FE"),
    Slots("#60A5FA", "#93C5FD", "#F8FAFC", "#94A3B8", "#1E293B", "#334155", "#1E293B", "#1E293B", "#0F172A", "#1E293B"))

  /** Every slot of both modes is a hex colour valid under the policy. */
  predicate IsComplete(p: Palette, hc: HexCase)
  {
    forall s: Slot :: IsValidFor(p.light.At(s), hc) && IsValidFor(p.dark.At(s), hc)
  }

  /** Writing a valid colour into one slot keeps a palette complete. */
  lemma WithSlotKeepsComplete(p: Palette, m: Mode, s: Slot, v: string, hc: HexCase)
    requires IsComplete(p, hc) && IsValidFor(v, hc)
    ensures IsComplete(p.WithSlot(m, s, v), hc)
  {
    var r := p.WithSlot(m, s, v);
    forall t: Slot ensures IsValidFor(r.light.At(t), hc) && IsValidFor(r.dark.At(t), hc) {
      assert r.For(Light) == r.light && r.For(Dark) == r.dark;
      assert p.For(Light) == p.light && p.For(Dark) == p.dark;
    }
  }

  /** A record whose ten fields are all valid has every slot valid. */
  lemma SlotsValid(sl: Slots, hc: HexCase)
    requires IsValidFor(sl.accentPrimary, hc) && IsValidFor(sl.accentSecondary, hc)
    requires IsValidFor(sl.textPrimary, hc) && IsValidFor(sl.textSecondary, hc)
    requires IsValidFor(sl.bgSecondary, hc) && IsValidFor(sl.borderColor, hc)
    requires IsValidFor(sl.cardBg, hc) && IsValidFor(sl.navBg, hc)
    requires IsValidFor(sl.bgPrimaryStart, hc) && IsValidFor(sl.bgPrimaryEnd, hc)
    ensures forall s: Slot :: IsValidFor(sl.At(s), hc)
  {
    forall s: Slot ensures IsValidFor(sl.At(s), hc) {
      match s
      case AccentPrimary =>
      case AccentSecondary =>
      case TextPrimary =>
      case TextSecondary =>
      case BgSecondary =>
      case BorderColor =>
      case CardBg =>
      case NavBg =>
      case BgPrimaryStart =>
      case BgPrimaryEnd =>
    }
  }

  /** `#` and six digits or upper-case letters A to F make a colour valid under either policy. */
  lemma UpperHexColor(a: char, b: char, c: char, d: char, e: char, f: char)
    requires forall x :: x in [a, b, c, d, e, f] ==> IsDigit(x) || ('A' <= x <= 'F')
    ensures IsValidFor(['#', a, b, c, d, e, f], Upper) && IsValidFor(['#', a, b, c, d, e, f], KeepCase)
  {
    var h := ['#', a, b, c, d, e, f];
    forall i | 1 <= i < 7 ensures IsHexDigit(h[i]) && !IsLowerLetter(h[i]) {
      assert h[i] in [a, b, c, d, e, f];
    }
  }

  lemma DefaultLightValid(hc: HexCase)
    ensures forall s: Slot :: IsValidFor(Defaults.light.At(s), hc)
  {
    UpperHexColor('3', 'B', '8', '2', 'F', '6');
    assert "#3B82F6" == ['#', '3', 'B', '8', '2', 'F', '6'];
    UpperHexColor('6', '0', 'A', '5', 'F', 'A');
    assert "#60A5FA" == ['#', '6', '0', 'A', '5', 'F', 'A'];
    UpperHexColor('0', 'F', '1', '7', '2', 'A');
    assert "#0F172A" == ['#', '0', 'F', '1', '7', '2', 'A'];
    UpperHexColor('6', '4', '7', '4', '8', 'B');
    assert "#64748B" == ['#', '6', '4', '7', '4', '8', 'B'];
    UpperHexColor('F', 'F', 'F', 'F', 'F', 'F');
    assert "#FFFFFF" == ['#', 'F', 'F', 'F', 'F', 'F', 'F'];
    UpperHexColor('E', '2', 'E', '8', 'F', '0');
    assert "#E2E8F0" == ['#', 'E', '2', 'E', '8', 'F', '0'];
    UpperHexColor('F', '0', 'F', '9', 'F', 'F');
    assert "#F0F9FF" == ['#', 'F', '0', 'F', '9', 'F', 'F'];
    UpperHexColor('E', '0', 'F', '2', 'F', 'E');
    assert "#E0F2FE" == ['#', 'E', '0', 'F', '2', 'F', 'E'];
    SlotsValid(Defaults.light, hc);
  }

  lemma DefaultDarkValid(hc: HexCase)
    ensures forall s: Slot :: IsValidFor(Defaults.dark.At(s), hc)
  {
    UpperHexColor('6', '0', 'A', '5', 'F', 'A');
    assert "#60A5FA" == ['#', '6', '0', 'A', '5', 'F', 'A'];
    UpperHexColor('9', '3', 'C', '5', 'F', 'D');
    assert "#93C5FD" == ['#', '9', '3', 'C', '5', 'F', 'D'];
    UpperHexColor('F', '8', 'F', 'A', 'F', 'C');
    assert "#F8FAFC" == ['#', 'F', '8', 'F', 'A', 'F', 'C'];
    UpperHexColor('9', '4', 'A', '3', 'B', '8');
    assert "#94A3B8" == ['#', '9', '4', 'A', '3', 'B', '8'];
    UpperHexColor('1', 'E', '2', '9', '3', 'B');
    assert "#1E293B" == ['#', '1', 'E', '2', '9', '3', 'B'];
    UpperHexColor('3', '3', '4', '1', '5', '5');
    assert "#334155" == ['#', '3', '3', '4', '1', '5', '5'];
    UpperHexColor('0', 'F', '1', '7', '2', 'A');
    assert "#0F172A" == ['#', '0', 'F', '1', '7', '2', 'A'];
    SlotsValid(Defaults.dark, hc);
  }

  lemma DefaultsComplete()
    ensures IsComplete(Defaults, KeepCase) && IsComplete(Defaults, Upper)
  {
    DefaultLightValid(KeepCase);
    DefaultLightValid(Upper);
    DefaultDarkValid(KeepCase);
    DefaultDarkValid(Upper);
  }

  /** The record whose slot s holds f(s). */
  function FromFn(f: Slot -> string): (r: Slots)
    ensures forall s: Slot :: r.At(s) == f(s)
  {
    Slots(f(AccentPrimary), f(AccentSecondary), f(TextPrimary), f(TextSecondary), f(BgSecondary),
          f(BorderColor), f(CardBg), f(NavBg), f(BgPrimaryStart), f(BgPrimaryEnd))
  }

  /** Each slot read from `src[key]`, falling back to the default slot. */
  function NormalizeSlots(src: RawValue, d: Slots, hc: HexCase): (r: Slots)
    ensures forall s: Slot :: r.At(s) == NormalizeHex(Get(src, Key(s)), d.At(s), hc)
  {
    FromFn(s => NormalizeHex(Get(src, Key(s)), d.At(s), hc))
  }

  /** Both `light` and `dark` present (and truthy): the value holds a dual-mode palette. */
  predicate HasDualMode(raw: RawValue)
  {
    Truthy(Get(raw, "light")) && Truthy(Get(raw, "dark"))
  }

  /** `normalizeCustomThemePalette(raw)` (hc = KeepCase) and the shop's `normalizeStoredPalette(raw)`
      (hc = Upper). Anything but an object gives the defaults; an object without both modes is a
      legacy flat palette for the light mode. */
  function Normalize(raw: RawValue, hc: HexCase): (r: Palette)
    ensures IsComplete(r, hc)
    ensures !Truthy(raw) || !IsObjectLike(raw) ==> r == Defaults
  {
    DefaultsComplete();
    if !Truthy(raw) || !IsObjectLike(raw) then Defaults
    else if !HasDualMode(raw) then Palette(NormalizeSlots(raw, Defaults.light, hc), Defaults.dark)
    else Palette(NormalizeSlots(Get(raw, "light"), Defaults.light, hc), NormalizeSlots(Get(raw, "dark"), Defaults.dark, hc))
  }

  /** Where each slot comes from: a legacy flat object fills the light mode and leaves the dark mode at
      its defaults; a dual-mode object fills each mode from its own sub-object. */
  lemma NormalizeSources(raw: RawValue, hc: HexCase)
    requires Truthy(raw) && IsObjectLike(raw)
    ensures !HasDualMode(raw) ==>
      Normalize(raw, hc).dark == Defaults.dark
      && forall s: Slot :: Normalize(raw, hc).light.At(s) == NormalizeHex(Get(raw, Key(s)), Defaults.light.At(s), hc)
    ensures HasDualMode(raw) ==>
      forall m: Mode, s: Slot :: Normalize(raw, hc).For(m).At(s) ==
        NormalizeHex(Get(Get(raw, if m == Dark then "dark" else "light"), Key(s)), Defaults.For(m).At(s), hc)
  {
  }

  /** The palette as the object `JSON.parse` gives back for its stored text. */
  function SlotsValue(s: Slots): (v: RawValue)
    ensures v.Obj?
    ensures forall t: Slot :: Get(v, Key(t)) == Str(s.At(t))
  {
    Obj(map[
      "accentPrimary" := Str(s.accentPrimary), "accentSecondary" := Str(s.accentSecondary),
      "textPrimary" := Str(s.textPrimary), "textSecondary" := Str(s.textSecondary),
      "bgSecondary" := Str(s.bgSecondary), "borderColor" := Str(s.borderColor),
      "cardBg" := Str(s.cardBg), "navBg" := Str(s.navBg),
      "bgPrimaryStart" := Str(s.bgPrimaryStart), "bgPrimaryEnd" := Str(s.bgPrimaryEnd)])
  }

  function PaletteValue(p: Palette): (v: RawValue)
    ensures Truthy(v) && IsObjectLike(v) && HasDualMode(v)
    ensures Get(v, "light") == SlotsValue(p.light) && Get(v, "dark") == SlotsValue(p.dark)
  {
    Obj(map["light" := SlotsValue(p.light), "dark" := SlotsValue(p.dark)])
  }

  lemma {:induction false} NormalizeSlotsOfValue(sl: Slots, d: Slots, hc: HexCase)
    requires forall s: Slot :: IsValidFor(sl.At(s), hc)
    ensures NormalizeSlots(SlotsValue(sl), d, hc) == sl
  {
    var r := NormalizeSlots(SlotsValue(sl), d, hc);
    forall s: Slot ensures r.At(s) == sl.At(s) {
      NormalizeHexFixes(sl.At(s), d.At(s), hc);
    }
    SlotsExtensional(r, sl);
  }

  /** A complete palette survives normalisation unchanged. */
  lemma {:induction false} NormalizeComplete(p: Palette, hc: HexCase)
    requires IsComplete(p, hc)
    ensures Normalize(PaletteValue(p), hc) == p
  {
    NormalizeSlotsOfValue(p.light, Defaults.light, hc);
    NormalizeSlotsOfValue(p.dark, Defaults.dark, hc);
  }

  /** Normalising a normalised palette changes nothing. */
  lemma {:induction false} NormalizeIdempotent(raw: RawValue, hc: HexCase)
    ensures Normalize(PaletteValue(Normalize(raw, hc)), hc) == Normalize(raw, hc)
  {
    NormalizeComplete(Normalize(raw, hc), hc);
  }

  /** An upper-case palette is also a valid case-keeping palette. */
  lemma UpperIsKeepCase(p: Palette)
    requires IsComplete(p, Upper)
    ensures IsComplete(p, KeepCase)
  {
  }

  function SlotsJson(s: Slots): string
  {
    "{\"accentPrimary\":\"" + s.accentPrimary + "\",\"accentSecondary\":\"" + s.accentSecondary
    + "\",\"textPrimary\":\"" + s.textPrimary + "\",\"textSecondary\":\"" + s.textSecondary
    + "\",\"bgSecondary\":\"" + s.bgSecondary + "\",\"borderColor\":\"" + s.borderColor
    + "\",\"cardBg\":\"" + s.cardBg + "\",\"navBg\":\"" + s.navBg
    + "\",\"bgPrimaryStart\":\"" + s.bgPrimaryStart + "\",\"bgPrimaryEnd\":\"" + s.bgPrimaryEnd + "\"}"
  }

  /** `JSON.stringify(palette)`; slot values of a complete palette never need escaping. */
  function PaletteJson(p: Palette): string
  {
    "{\"light\":" + SlotsJson(p.light) + ",\"dark\":" + SlotsJson(p.dark) + "}"
  }

  /** What the model relies on from the foreign `JSON.parse`: it reads back the text of a
      complete palette as that palette's object. */
  ghost predicate ParsesPalettes(parse: JsonParse)
  {
    forall p: Palette :: IsComplete(p, KeepCase) ==> parse(PaletteJson(p)) == Parsed(PaletteValue(p))
  }
}

=== FILE: past_papers.dfy ===
/**
 * The past-papers browser: the four select filters and the search applied to
 * the loaded questions, clearing them, the year options and the results label.
 */
module PastPapers {
  import opened Js
  import opened Text
  import opened Seqs

  /** The filter state; the empty string means "any". */
  datatype Filters = Filters(subject: string, examBoard: string, year: string, difficulty: string, search: string)

  const NoFilters := Filters("", "", "", "", "")

  /** `v == s` between a row value and a select's value: a string compares as itself and a
      number by its decimal text. */
  predicate LooseEquals(v: RawValue, s: string)
  {
    (v.Str? && v.s == s) || (v.Num? && v.text == s)
  }

  predicate SubjectIs(q: RawValue, subject: string)
  {
    LooseEquals(Get(q, "subject_id"), subject)
  }

  predicate BoardIs(q: RawValue, board: string)
  {
    Get(q, "exam_board") == Str(board)
  }

  predicate YearIs(q: RawValue, year: string)
  {
    LooseEquals(Get(q, "year"), year)
  }

  predicate DifficultyIs(q: RawValue, difficulty: string)
  {
    Get(q, "difficulty") == Str(difficulty)
  }

  /** `q.topics.join(' ').toLowerCase()` for an array of topics, else the empty string. */
  function TopicsText(q: RawValue): string
  {
    var topics := Get(q, "topics");
    if topics.Arr? then ToLower(JoinElements(topics.items, " ")) else ""
  }

  /** The search test: the lower-cased question text or topics contain the lower-cased term. */
  predicate SearchHits(q: RawValue, term: string)
  {
    Contains(ToLower(TextOr(Get(q, "question_text"))), term) || Contains(TopicsText(q), term)
  }

  /** The five narrowing steps of `applyFilters`, in the order it takes them. */
  datatype Criterion = BySubject | ByBoard | ByYear | ByDifficulty | BySearch

  const Steps := [BySubject, ByBoard, ByYear, ByDifficulty, BySearch]

  /** Whether the filter behind a step is set. */
  predicate Active(f: Filters, c: Criterion)
  {
    match c
    case BySubject => f.subject != ""
    case ByBoard => f.examBoard != ""
    case ByYear => f.year != ""
    case ByDifficulty => f.difficulty != ""
    case BySearch => f.search != ""
  }

  /** The test a step applies when its filter is set. */
  predicate Test(q: RawValue, f: Filters, c: Criterion)
  {
    match c
    case BySubject => SubjectIs(q, f.subject)
    case ByBoard => BoardIs(q, f.examBoard)
    case ByYear => YearIs(q, f.year)
    case ByDifficulty => DifficultyIs(q, f.difficulty)
    case BySearch => SearchHits(q, ToLower(f.search))
  }

  function TestFn(f: Filters, c: Criterion): RawValue -> bool
  {
    (q: RawValue) => Test(q, f, c)
  }

  /** A question passes the filters when it meets every filter that is set. */
  predicate Passes(q: RawValue, f: Filters)
  {
    && (f.subject == "" || SubjectIs(q, f.subject))
    && (f.examBoard == "" || BoardIs(q, f.examBoard))
    && (f.year == "" || YearIs(q, f.year))
    && (f.difficulty == "" || DifficultyIs(q, f.difficulty))
    && (f.search == "" || SearchHits(q, ToLower(f.search)))
  }

  function PassesFn(f: Filters): RawValue -> bool
  {
    (q: RawValue) => Passes(q, f)
  }

  /** One `if (filters.x) filtered = filtered.filter(...)` step. */
  function Stage(xs: seq<RawValue>, f: Filters, c: Criterion): (r: seq<RawValue>)
    ensures IsSubsequence(r, xs)
  {
    if Active(f, c) then FilterIsSubsequence(xs, TestFn(f, c)); Filter(xs, TestFn(f, c))
    else SubsequenceRefl(xs); xs
  }

  lemma {:induction false} SubsequenceRefl(xs: seq<RawValue>)
    ensures IsSubsequence(xs, xs)
    decreases |xs|
  {
    if xs != [] {
      SubsequenceRefl(xs[1..]);
    }
  }

  /** The steps from the given one on, each narrowing what the one before left. */
  function Pipeline(xs: seq<RawValue>, f: Filters, cs: seq<Criterion>): (r: seq<RawValue>)
    ensures IsSubsequence(r, xs)
    decreases |cs|
  {
    if cs == [] then SubsequenceRefl(xs); xs
    else
      var next := Stage(xs, f, cs[0]);
      SubsequenceTrans(Pipeline(next, f, cs[1..]), next, xs);
      Pipeline(next, f, cs[1..])
  }

  /** `applyFilters()`: subject, board, year, difficulty and search, narrowed one after the other. */
  function ApplyFilters(all: seq<RawValue>, f: Filters): (r: seq<RawValue>)
    ensures IsSubsequence(r, all)
  {
    Pipeline(all, f, Steps)
  }

  predicate MeetsAll(q: RawValue, f: Filters, cs: seq<Criterion>)
  {
    forall i :: 0 <= i < |cs| ==> !Active(f, cs[i]) || Test(q, f, cs[i])
  }

  function MeetsAllFn(f: Filters, cs: seq<Criterion>): RawValue -> bool
  {
    (q: RawValue) => MeetsAll(q, f, cs)
  }

  /** Running the steps is one filter by every step's test whose filter is set. */
  lemma {:induction false} PipelineIsFilter(xs: seq<RawValue>, f: Filters, cs: seq<Criterion>)
    ensures Pipeline(xs, f, cs) == Filter(xs, MeetsAllFn(f, cs))
    decreases |cs|
  {
    if cs == [] {
      FilterKeepsAll(xs, MeetsAllFn(f, cs));
    } else {
      var next := Stage(xs, f, cs[0]);
      PipelineIsFilter(next, f, cs[1..]);
      if Active(f, cs[0]) {
        forall i | 0 <= i < |xs|
          ensures MeetsAllFn(f, cs)(xs[i]) == (TestFn(f, cs[0])(xs[i]) && MeetsAllFn(f, cs[1..])(xs[i]))
        {
          MeetsAllSplit(xs[i], f, cs);
        }
        FilterFilter(xs, TestFn(f, cs[0]), MeetsAllFn(f, cs[1..]), MeetsAllFn(f, cs));
      } else {
        forall i | 0 <= i < |xs|
          ensures MeetsAllFn(f, cs)(xs[i]) == MeetsAllFn(f, cs[1..])(xs[i])
        {
          MeetsAllSplit(xs[i], f, cs);
        }
        FilterExtensional(xs, MeetsAllFn(f, cs[1..]), MeetsAllFn(f, cs));
      }
    }
  }

  lemma MeetsAllSplit(q: RawValue, f: Filters, cs: seq<Criterion>)
    requires cs != []
    ensures MeetsAll(q, f, cs) == ((!Active(f, cs[0]) || Test(q, f, cs[0])) && MeetsAll(q, f, cs[1..]))
  {
    if MeetsAll(q, f, cs[1..]) && (!Active(f, cs[0]) || Test(q, f, cs[0])) {
      forall i | 0 <= i < |cs| ensures !Active(f, cs[i]) || Test(q, f, cs[i]) {
        if i > 0 {
          assert cs[i] == cs[1..][i - 1];
        }
      }
    }
  }

  /** The steps together are one filter by the conjunction of the filters that are set. */
  lemma ApplyFiltersConjunctive(all: seq<RawValue>, f: Filters)
    ensures ApplyFilters(all, f) == Filter(all, PassesFn(f))
  {
    PipelineIsFilter(all, f, Steps);
    forall i | 0 <= i < |all| ensures MeetsAllFn(f, Steps)(all[i]) == PassesFn(f)(all[i]) {
      var q := all[i];
      assert MeetsAll(q, f, Steps) ==> Passes(q, f) by {
        if MeetsAll(q, f, Steps) {
          assert !Active(f, Steps[0]) || Test(q, f, Steps[0]);
          assert !Active(f, Steps[1]) || Test(q, f, Steps[1]);
          assert !Active(f, Steps[2]) || Test(q, f, Steps[2]);
          assert !Active(f, Steps[3]) || Test(q, f, Steps[3]);
          assert !Active(f, Steps[4]) || Test(q, f, Steps[4]);
        }
      }
    }
    FilterExtensional(all, MeetsAllFn(f, Steps), PassesFn(f));
  }

  /** A question is shown exactly when it was loaded and passes every filter that is set. */
  lemma ApplyFiltersMembership(all: seq<RawValue>, f: Filters, q: RawValue)
    ensures q in ApplyFilters(all, f) <==> q in all && Passes(q, f)
  {
    ApplyFiltersConjunctive(all, f);
    FilterMembership(all, PassesFn(f), q);
  }

  /** `clearFilters()`: every filter back to "any". */
  function ClearFilters(): (f: Filters)
    ensures forall q: RawValue :: Passes(q, f)
  {
    NoFilters
  }

  /** After clearing, the list shows every question as loaded. */
  lemma ClearShowsAll(all: seq<RawValue>)
    ensures ApplyFilters(all, ClearFilters()) == all
  {
    ApplyFiltersConjunctive(all, ClearFilters());
    FilterKeepsAll(all, PassesFn(ClearFilters()));
  }

  /** `updateResultsCount(count)`: "question" for exactly one, "questions" otherwise. */
  function ResultsLabel(count: nat): (r: string)
    ensures StartsWith(r, "Showing " + NatToString(count) + " question")
    ensures EndsWith(r, "s") <==> count != 1
    ensures |r| == |"Showing " + NatToString(count) + " question"| + (if count != 1 then 1 else 0)
  {
    var prefix := "Showing " + NatToString(count) + " question";
    var r := prefix + (if count != 1 then "s" else "");
    assert r[..|prefix|] == prefix;
    assert r[|r| - 1..] == (if count != 1 then "s" else "n");
    r
  }

  predicate StrictlyDescending(xs: seq<int>)
  {
    forall i, j :: 0 <= i < j < |xs| ==> xs[i] > xs[j]
  }

  /** One year into a strictly descending list of years, unless it is there already. */
  function InsertYear(x: int, xs: seq<int>): (r: seq<int>)
    requires StrictlyDescending(xs)
    ensures StrictlyDescending(r)
    ensures forall y :: y in r <==> y == x || y in xs
  {
    if xs == [] then [x]
    else if x > xs[0] then [x] + xs
    else if x == xs[0] then xs
    else
      var tail := xs[1..];
      assert forall k :: 0 <= k < |tail| ==> tail[k] == xs[k + 1];
      var rest := InsertYear(x, tail);
      assert forall y :: y in rest ==> y < xs[0];
      var r := [xs[0]] + rest;
      forall i, j | 0 <= i < j < |r| ensures r[i] > r[j] {
        assert r[j] == rest[j - 1] && r[j] in rest;
        if i > 0 {
          assert r[i] == rest[i - 1];
        }
      }
      assert xs == [xs[0]] + tail;
      r
  }

  /** `populateYearFilter`: `[...new Set(years)].sort((a, b) => b - a)`, each year once, newest
      first. */
  function YearOptions(years: seq<int>): (r: seq<int>)
    ensures StrictlyDescending(r)
    ensures forall y :: y in r <==> y in years
  {
    if years == [] then []
    else InsertYear(years[0], YearOptions(years[1..]))
  }

  /** The head of a strictly descending list is its largest value, and the tail holds the rest. */
  lemma HeadIsLargest(a: seq<int>, y: int)
    requires StrictlyDescending(a) && a != [] && y in a
    ensures y <= a[0]
    ensures y in a[1..] <==> y != a[0]
  {
    var k :| 0 <= k < |a| && a[k] == y;
    if k > 0 {
      assert a[1..][k - 1] == y;
    }
  }

  /** A strictly descending list is fixed by which values it holds. */
  lemma {:induction false} DescendingUnique(a: seq<int>, b: seq<int>)
    requires StrictlyDescending(a) && StrictlyDescending(b)
    requires forall y :: y in a <==> y in b
    ensures a == b
    decreases |a|
  {
    assert a != [] ==> a[0] in a;
    assert b != [] ==> b[0] in b;
    if a != [] && b != [] {
      HeadIsLargest(a, b[0]);
      HeadIsLargest(b, a[0]);
      forall y ensures y in a[1..] <==> y in b[1..] {
        if y in a {
          HeadIsLargest(a, y);
          HeadIsLargest(b, y);
        } else {
          assert y !in a[1..] && y !in b[1..];
        }
      }
      DescendingUnique(a[1..], b[1..]);
    }
  }

  /** The year options are the only newest-first list of the distinct years. */
  lemma YearOptionsCanonical(years: seq<int>, r: seq<int>)
    requires StrictlyDescending(r)
    requires forall y :: y in r <==> y in years
    ensures r == YearOptions(years)
  {
    DescendingUnique(r, YearOptions(years));
  }
}

=== FILE: poetry.dfy ===
/**
 * Poetry analysis: annotations on the lines of a poem, kept in one list for all
 * poems and told apart by a key made of the author and title; the modal that
 * adds or edits one, deleting, the per-poem list and the line highlights, and
 * the chips that append text to the draft.
 */
module Poetry {
  import opened Js
  import opened Text
  import opened Seqs

  datatype Poem = Poem(author: string, title: string, lines: seq<string>)

  /** One saved annotation; `lineText` is `currentPoem.lines[lineIndex]`, which is undefined for a
      line the poem does not have. */
  datatype Annotation = Annotation(poemKey: string, lineIndex: Option<nat>, lineText: RawValue,
                                   kind: string, text: string, createdAt: int)

  /** The page state: the poem shown, every annotation, and the modal's line, the annotation it
      edits, its type tab and its text. */
  datatype Session = Session(poem: Option<Poem>, annotations: seq<Annotation>, line: Option<nat>,
                             editing: Option<nat>, activeType: string, draft: string, modalOpen: bool)

  const Separator := "|||"

  /** `poemKey()`: `author|||title`, or the empty string when no poem is loaded. */
  function PoemKey(poem: Option<Poem>): (r: string)
    ensures poem.None? ==> r == ""
    ensures poem.Some? ==> StartsWith(r, poem.value.author + Separator) && EndsWith(r, poem.value.title)
    ensures poem.Some? ==> |r| == |poem.value.author| + 3 + |poem.value.title|
  {
    match poem
    case None => ""
    case Some(p) =>
      var r := p.author + Separator + p.title;
      assert r[..|p.author + Separator|] == p.author + Separator;
      assert r[|r| - |p.title|..] == p.title;
      r
  }

  /** Authors without a `|` are read back from the key: two such poems share a key only when they
      have the same author and title. */
  lemma PoemKeyInjective(p: Poem, q: Poem)
    requires '|' !in p.author && '|' !in q.author
    requires PoemKey(Some(p)) == PoemKey(Some(q))
    ensures p.author == q.author && p.title == q.title
  {
    var k := PoemKey(Some(p));
    assert k == p.author + Separator + p.title;
    assert k == q.author + Separator + q.title;
    assert forall j :: 0 <= j < |p.author| ==> k[j] == p.author[j] && k[j] != '|';
    assert forall j :: 0 <= j < |q.author| ==> k[j] == q.author[j] && k[j] != '|';
    assert k[|p.author|] == '|' && k[|q.author|] == '|';
    assert p.author == k[..|p.author|] == q.author;
    assert p.title == k[|p.author| + 3..] == q.title;
  }

  /** The modal can only edit an annotation that exists. */
  predicate Consistent(s: Session)
  {
    s.editing.Some? ==> s.editing.value < |s.annotations|
  }

  /** `openModal(idx, line)` from a click on line `idx`: blank lines are ignored; otherwise a new
      annotation starts on the language tab with an empty draft. */
  function OpenLine(s: Session, idx: nat): (r: Session)
    ensures r.annotations == s.annotations && r.poem == s.poem
    ensures s.poem.None? || idx >= |s.poem.value.lines| || Trim(s.poem.value.lines[idx]) == "" ==> r == s
    ensures r != s ==> r.line == Some(idx) && r.editing.None? && r.activeType == "language" && r.draft == "" && r.modalOpen
    ensures s.poem.Some? && idx < |s.poem.value.lines| && Trim(s.poem.value.lines[idx]) != "" ==>
      r.line == Some(idx) && r.editing.None? && r.activeType == "language" && r.draft == "" && r.modalOpen
  {
    if s.poem.None? || idx >= |s.poem.value.lines| || Trim(s.poem.value.lines[idx]) == "" then s
    else s.(line := Some(idx), editing := None, activeType := "language", draft := "", modalOpen := true)
  }

  /** `openModal(ann.lineIndex, ann.lineText, idx)` from the annotation list: the modal edits that
      annotation, on its type tab and with its text. */
  function OpenExisting(s: Session, idx: nat): (r: Session)
    requires idx < |s.annotations|
    ensures Consistent(r) && r.editing == Some(idx) && r.modalOpen
    ensures r.annotations == s.annotations && r.poem == s.poem
    ensures r.activeType == s.annotations[idx].kind && r.draft == s.annotations[idx].text
  {
    var ann := s.annotations[idx];
    s.(line := ann.lineIndex, editing := Some(idx), activeType := ann.kind, draft := ann.text, modalOpen := true)
  }

  /** `closeModal()`. */
  function CloseModal(s: Session): (r: Session)
    ensures Consistent(r) && !r.modalOpen && r.line.None? && r.editing.None?
    ensures r.annotations == s.annotations && r.poem == s.poem
  {
    s.(modalOpen := false, line := None, editing := None)
  }

  /** The annotation the save button builds from the modal. */
  function Draft(s: Session, now: int): (a: Annotation)
    requires s.poem.Some?
    ensures a.poemKey == PoemKey(s.poem) && a.lineIndex == s.line && a.kind == s.activeType
    ensures a.text == Trim(s.draft) && a.createdAt == now
  {
    var lines := s.poem.value.lines;
    var lineText := if s.line.Some? && s.line.value < |lines| then Str(lines[s.line.value]) else Absent;
    Annotation(PoemKey(s.poem), s.line, lineText, s.activeType, Trim(s.draft), now)
  }

  /** The save button: nothing happens for a blank draft or without a poem; otherwise the edited
      annotation is replaced, or a new one is appended, and the modal closes. */
  function Save(s: Session, now: int): (r: Session)
    requires Consistent(s)
    ensures Consistent(r)
    ensures Trim(s.draft) == "" || s.poem.None? ==> r == s
    ensures Trim(s.draft) != "" && s.poem.Some? && s.editing.None? ==> r.annotations == s.annotations + [Draft(s, now)]
    ensures Trim(s.draft) != "" && s.poem.Some? && s.editing.Some? ==>
      && |r.annotations| == |s.annotations|
      && r.annotations[s.editing.value] == Draft(s, now)
      && forall i :: 0 <= i < |s.annotations| && i != s.editing.value ==> r.annotations[i] == s.annotations[i]
    ensures Trim(s.draft) != "" && s.poem.Some? ==> !r.modalOpen
  {
    if Trim(s.draft) == "" || s.poem.None? then s
    else
      var a := Draft(s, now);
      var annotations := if s.editing.Some? then s.annotations[s.editing.value := a] else s.annotations + [a];
      CloseModal(s.(annotations := annotations))
  }

  /** The delete button of the list: `annotations.splice(idx, 1)`. */
  function Delete(s: Session, idx: nat): (r: Session)
    ensures s.editing.None? ==> Consistent(r)
    ensures r.poem == s.poem && r.editing == s.editing
    ensures idx < |s.annotations| ==> |r.annotations| == |s.annotations| - 1
    ensures idx >= |s.annotations| ==> r.annotations == s.annotations
    ensures forall j :: 0 <= j < idx && j < |s.annotations| ==> r.annotations[j] == s.annotations[j]
    ensures forall j :: idx <= j < |r.annotations| ==> r.annotations[j] == s.annotations[j + 1]
  {
    s.(annotations := RemoveAt(s.annotations, idx))
  }

  function OfPoem(key: string): Annotation -> bool
  {
    (a: Annotation) => a.poemKey == key
  }

  /** `renderAnnotationList()`: the annotations of the poem shown, in the order they were made. */
  function Relevant(s: Session): (r: seq<Annotation>)
    ensures IsSubsequence(r, s.annotations)
    ensures forall a :: a in r <==> a in s.annotations && a.poemKey == PoemKey(s.poem)
  {
    var key := PoemKey(s.poem);
    FilterIsSubsequence(s.annotations, OfPoem(key));
    forall a ensures a in Filter(s.annotations, OfPoem(key)) <==> a in s.annotations && a.poemKey == key {
      FilterMembership(s.annotations, OfPoem(key), a);
    }
    Filter(s.annotations, OfPoem(key))
  }

  /** The count beside the list: `(n)`, or nothing when there are none. */
  function CountLabel(s: Session): (r: string)
    ensures r == "" <==> Relevant(s) == []
    ensures r != "" ==> r == "(" + NatToString(|Relevant(s)|) + ")"
  {
    var n := |Relevant(s)|;
    if n == 0 then "" else "(" + NatToString(n) + ")"
  }

  function OnLine(key: string, i: int): Annotation -> bool
  {
    (a: Annotation) => a.lineIndex == (if i >= 0 then Some(i as nat) else None) && a.poemKey == key
  }

  /** The class of line `i` in `renderPoem`: `highlighted-` and the type of the last annotation on
      that line of this poem, or nothing. */
  function LineClass(s: Session, i: nat): (r: string)
    ensures r == "" <==> forall k :: 0 <= k < |s.annotations| ==> !OnLine(PoemKey(s.poem), i)(s.annotations[k])
    ensures r != "" ==>
      exists k :: 0 <= k < |s.annotations| && OnLine(PoemKey(s.poem), i)(s.annotations[k]) && r == "highlighted-" + s.annotations[k].kind
  {
    FilterLast(s.annotations, OnLine(PoemKey(s.poem), i));
    var ann := Filter(s.annotations, OnLine(PoemKey(s.poem), i));
    if ann == [] then "" else "highlighted-" + ann[|ann| - 1].kind
  }

  /** The highlight is the type of the annotation at the last index that is on the line, and there
      is none when no annotation is. */
  lemma LineClassIsLast(s: Session, i: nat)
    ensures LastIndex(s.annotations, OnLine(PoemKey(s.poem), i)).None? <==> LineClass(s, i) == ""
    ensures var k := LastIndex(s.annotations, OnLine(PoemKey(s.poem), i));
      k.Some? ==> LineClass(s, i) == "highlighted-" + s.annotations[k.value].kind
  {
    FilterLast(s.annotations, OnLine(PoemKey(s.poem), i));
  }

  /** A new annotation on a line becomes that line's highlight. */
  lemma SavedAnnotationHighlights(s: Session, now: int, i: nat)
    requires Consistent(s) && Trim(s.draft) != "" && s.poem.Some? && s.editing.None? && s.line == Some(i)
    ensures LineClass(Save(s, now), i) == "highlighted-" + s.activeType
  {
    var r := Save(s, now);
    var p := OnLine(PoemKey(s.poem), i);
    assert r.poem == s.poem;
    assert p(Draft(s, now));
    LastIndexSnoc(s.annotations, Draft(s, now), p);
    LineClassIsLast(r, i);
  }

  /** `textarea.value += (textarea.value ? "\n" : "") + chip`. */
  function AppendChip(value: string, chip: string): (r: string)
    ensures StartsWith(r, value) && EndsWith(r, chip)
    ensures value == "" ==> r == chip
    ensures value != "" ==> |r| == |value| + 1 + |chip| && r[|value|] == '\n'
  {
    var r := value + (if value != "" then "\n" else "") + chip;
    assert r[..|value|] == value;
    assert r[|r| - |chip|..] == chip;
    r
  }

  /** A scaffold point is appended as `point: `, a sentence starter as it is. */
  function AppendPoint(value: string, point: string): (r: string)
    ensures StartsWith(r, value) && EndsWith(r, point + ": ")
    ensures value == "" ==> r == point + ": "
    ensures value != "" ==> r == value + "\n" + point + ": "
  {
    AppendChip(value, point + ": ")
  }
}

=== FILE: profile.dfy ===
/**
 * The profile page: the username rules and the save of the personal details,
 * the password change checks, the role label and the accent colour of the
 * generated avatar.
 */
module Profile {
  import opened Js
  import opened Text
  import Palette

  const UsernameRequired := "Username is required"
  const UsernameTooShort := "Username must be at least 3 characters"
  const UsernameTooLong := "Username must be less than 50 characters"
  const UsernameBadChars := "Username can only contain letters, numbers, and underscores"

  datatype Validation = Valid | Invalid(error: string)

  /** `/^[a-zA-Z0-9_]+$/`. */
  predicate IsWord(s: string)
  {
    s != [] && forall i :: 0 <= i < |s| ==> IsWordChar(s[i])
  }

  /** `validateUsernameFormat(username)`: the first failing rule of required, at least 3, at most 50
      and letters, digits and underscores only. */
  function ValidateUsernameFormat(username: string): (r: Validation)
    ensures r.Valid? <==> Trim(username) != "" && 3 <= Utf16Length(username) <= 50 && IsWord(username)
    ensures Trim(username) == "" ==> r == Invalid(UsernameRequired)
    ensures Trim(username) != "" && Utf16Length(username) < 3 ==> r == Invalid(UsernameTooShort)
    ensures Trim(username) != "" && 3 <= Utf16Length(username) && Utf16Length(username) > 50 ==> r == Invalid(UsernameTooLong)
    ensures Trim(username) != "" && 3 <= Utf16Length(username) <= 50 && !IsWord(username) ==> r == Invalid(UsernameBadChars)
  {
    if username == [] || Trim(username) == [] then Invalid(UsernameRequired)
    else if Utf16Length(username) < 3 then Invalid(UsernameTooShort)
    else if Utf16Length(username) > 50 then Invalid(UsernameTooLong)
    else if !IsWord(username) then Invalid(UsernameBadChars)
    else Valid
  }

  /** A word has nothing to trim. */
  lemma WordIsTrimmed(s: string)
    requires IsWord(s)
    ensures Trim(s) == s
  {
    assert !IsSpace(s[0]) && !IsSpace(s[|s| - 1]);
    assert TrimStart(s) == s;
  }

  /** The "required" rule only ever fires for blank names: a name of 3 to 50 word characters is
      accepted, and for such a name the code-unit count is the character count. */
  lemma UsernameAcceptedExactly(username: string)
    ensures ValidateUsernameFormat(username).Valid? <==> 3 <= |username| <= 50 && IsWord(username)
  {
    if IsWord(username) {
      assert forall i :: 0 <= i < |username| ==> !IsAstral(username[i]);
      WordIsTrimmed(username);
    }
  }

  /** What saving the personal details does. */
  datatype PersonalOutcome =
    | InvalidName(error: string)
    | NameTaken
    | SaveDetails(username: string, yearGroup: Option<string>)

  /** `handlePersonalInfoSubmit`: the trimmed username is validated; only a changed name is checked
      for availability (`available` stands for that remote check); the year group is sent as null
      when empty. */
  function SubmitPersonalInfo(input: string, yearGroup: string, current: RawValue, available: string -> bool): (r: PersonalOutcome)
    ensures ValidateUsernameFormat(Trim(input)).Invalid? <==> r.InvalidName?
    ensures r.InvalidName? ==> r.error == ValidateUsernameFormat(Trim(input)).error
    ensures r.NameTaken? <==> ValidateUsernameFormat(Trim(input)).Valid? && Str(Trim(input)) != current && !available(Trim(input))
    ensures r.SaveDetails? ==> r.username == Trim(input) && (r.yearGroup.None? <==> yearGroup == "")
  {
    var username := Trim(input);
    match ValidateUsernameFormat(username)
    case Invalid(error) => InvalidName(error)
    case Valid =>
      if Str(username) != current && !available(username) then NameTaken
      else SaveDetails(username, if yearGroup == "" then None else Some(yearGroup))
  }

  /** An unchanged username is saved without asking whether it is available. */
  lemma UnchangedNameSkipsCheck(input: string, yearGroup: string, current: RawValue, a: string -> bool, b: string -> bool)
    requires Str(Trim(input)) == current
    ensures SubmitPersonalInfo(input, yearGroup, current, a) == SubmitPersonalInfo(input, yearGroup, current, b)
    ensures !SubmitPersonalInfo(input, yearGroup, current, a).NameTaken?
  {
  }

  /** What the password form does. */
  datatype PasswordOutcome = Mismatch | TooShort | UpdatePassword(password: string)

  /** `handlePasswordChange`: the confirmation must match before the length is looked at, and a new
      password needs at least 8 UTF-16 code units. */
  function ChangePassword(newPassword: string, confirm: string): (r: PasswordOutcome)
    ensures r == Mismatch <==> newPassword != confirm
    ensures r == TooShort <==> newPassword == confirm && Utf16Length(newPassword) < 8
    ensures r.UpdatePassword? <==> newPassword == confirm && Utf16Length(newPassword) >= 8
    ensures r.UpdatePassword? ==> r.password == newPassword
  {
    if newPassword != confirm then Mismatch
    else if Utf16Length(newPassword) < 8 then TooShort
    else UpdatePassword(newPassword)
  }

  /** The role shown on the settings card: "Admin" and "Teacher" for exactly those roles, "Student"
      for anything else. */
  function RoleLabel(role: RawValue): (r: string)
    ensures r == "Admin" <==> role == Str("admin")
    ensures r == "Teacher" <==> role == Str("teacher")
    ensures r == "Student" <==> role != Str("admin") && role != Str("teacher")
  {
    if role == Str("admin") then "Admin"
    else if role == Str("teacher") then "Teacher"
    else "Student"
  }

  const DefaultAccent := "6366f1"

  /** `getAccentColor()` on the value of `--accent-primary`: the trimmed value without its `#`, or
      the default purple when it does not start with `#`. */
  function AccentColor(value: string): (r: string)
    ensures StartsWith(Trim(value), "#") ==> "#" + r == Trim(value)
    ensures !StartsWith(Trim(value), "#") ==> r == DefaultAccent
  {
    var v := Trim(value);
    if StartsWith(v, "#") then
      assert v == "#" + v[1..];
      v[1..]
    else DefaultAccent
  }

  /** A hex accent colour gives its six digits. */
  lemma AccentOfHexColor(value: string)
    requires Palette.IsHexColor(Trim(value))
    ensures |AccentColor(value)| == 6
    ensures forall i :: 0 <= i < 6 ==> IsHexDigit(AccentColor(value)[i])
  {
    var v := Trim(value);
    assert StartsWith(v, "#");
    assert AccentColor(value) == v[1..];
  }
}

=== FILE: seqs.dfy ===
/**
 * Generic list operations behind `Array.prototype.filter`, `find`, `splice(i, 1)`
 * and the order-preserving "subsequence" relation the list views promise.
 */
module Seqs {
  import opened Js

  /** `xs.filter(keep)`. */
  function Filter<T>(xs: seq<T>, keep: T -> bool): (r: seq<T>)
    ensures |r| <= |xs|
  {
    if xs == [] then []
    else if keep(xs[0]) then [xs[0]] + Filter(xs[1..], keep)
    else Filter(xs[1..], keep)
  }

  /** `xs.map(f).filter(...)` keeping the values f gives: they are the values of the elements f
      accepts, and only those. */
  function FilterMap<T, U>(xs: seq<T>, f: T -> Option<U>): (r: seq<U>)
    ensures forall i :: 0 <= i < |xs| && f(xs[i]).Some? ==> f(xs[i]).value in r
    ensures forall y :: y in r ==> exists i :: 0 <= i < |xs| && f(xs[i]) == Some(y)
  {
    if xs == [] then []
    else
      var rest := FilterMap(xs[1..], f);
      assert forall i :: 1 <= i < |xs| ==> xs[i] == xs[1..][i - 1];
      match f(xs[0])
      case Some(y) => [y] + rest
      case None => rest
  }

  lemma AppendAssoc<T>(a: seq<T>, b: seq<T>, c: seq<T>)
    ensures a + (b + c) == (a + b) + c
  {
  }

  /** When f accepts no element, nothing is kept. */
  lemma {:induction false} FilterMapNone<T, U>(xs: seq<T>, f: T -> Option<U>)
    requires forall i :: 0 <= i < |xs| ==> f(xs[i]).None?
    ensures FilterMap(xs, f) == []
  {
    if xs != [] {
      assert forall i :: 0 <= i < |xs[1..]| ==> xs[1..][i] == xs[i + 1];
      FilterMapNone(xs[1..], f);
    }
  }

  /** a can be obtained from b by deleting elements, keeping the order of the rest. */
  predicate IsSubsequence<T(==)>(a: seq<T>, b: seq<T>)
    decreases |b|
  {
    if a == [] then true
    else if b == [] then false
    else (a[0] == b[0] && IsSubsequence(a[1..], b[1..])) || IsSubsequence(a, b[1..])
  }

  /** `xs.splice(i, 1)` on a copy: the element at i goes, an index past the end changes nothing. */
  function RemoveAt<T>(xs: seq<T>, i: nat): (r: seq<T>)
    ensures i < |xs| ==> |r| == |xs| - 1
    ensures i >= |xs| ==> r == xs
    ensures forall j :: 0 <= j < i && j < |xs| ==> r[j] == xs[j]
    ensures forall j :: i <= j < |r| ==> r[j] == xs[j + 1]
  {
    if i < |xs| then xs[..i] + xs[i + 1..] else xs
  }

  /** `xs.find(p)` by index: the first index whose element satisfies p. */
  function FindIndex<T>(xs: seq<T>, p: T -> bool): (r: Option<nat>)
    ensures r.Some? ==> r.value < |xs| && p(xs[r.value])
    ensures r.Some? ==> forall j :: 0 <= j < r.value ==> !p(xs[j])
    ensures r.None? ==> forall j :: 0 <= j < |xs| ==> !p(xs[j])
  {
    if xs == [] then None
    else if p(xs[0]) then Some(0)
    else match FindIndex(xs[1..], p)
      case None => None
      case Some(k) => Some(k + 1)
  }

  /** The last index whose element satisfies p, if any. */
  function LastIndex<T>(xs: seq<T>, p: T -> bool): (r: Option<nat>)
    ensures r.Some? ==> r.value < |xs| && p(xs[r.value])
    ensures r.Some? ==> forall j :: r.value < j < |xs| ==> !p(xs[j])
    ensures r.None? ==> forall j :: 0 <= j < |xs| ==> !p(xs[j])
  {
    if xs == [] then None
    else if p(xs[|xs| - 1]) then Some(|xs| - 1)
    else LastIndex(xs[..|xs| - 1], p)
  }

  lemma LastIndexSnoc<T>(xs: seq<T>, x: T, p: T -> bool)
    ensures LastIndex(xs + [x], p) == if p(x) then Some(|xs|) else LastIndex(xs, p)
  {
    assert (xs + [x])[..|xs|] == xs;
  }

  /** A satisfying index with none after it is the last index. */
  lemma LastIndexIsLast<T>(xs: seq<T>, p: T -> bool, k: nat)
    requires k < |xs| && p(xs[k])
    requires forall j :: k < j < |xs| ==> !p(xs[j])
    ensures LastIndex(xs, p) == Some(k)
  {
  }

  /** Position of the first occurrence of x. */
  function IndexOf<T(==)>(xs: seq<T>, x: T): (r: nat)
    requires x in xs
    ensures r < |xs| && xs[r] == x && x !in xs[..r]
  {
    if xs[0] == x then 0 else 1 + IndexOf(xs[1..], x)
  }

  lemma {:induction false} IndexOfSnoc<T>(xs: seq<T>, y: T, x: T)
    requires x in xs
    ensures x in xs + [y] && IndexOf(xs + [y], x) == IndexOf(xs, x)
  {
    assert (xs + [y])[0] == xs[0];
    if xs[0] != x {
      assert x in xs[1..];
      IndexOfSnoc(xs[1..], y, x);
      assert (xs + [y])[1..] == xs[1..] + [y];
    }
  }

  /** `[...new Set(xs)]`: each element once, at its first occurrence. */
  function Dedup<T(==)>(xs: seq<T>): (r: seq<T>)
    ensures forall i, j :: 0 <= i < j < |r| ==> r[i] != r[j]
    ensures forall i :: 0 <= i < |r| ==> r[i] in xs
    ensures forall i :: 0 <= i < |xs| ==> xs[i] in r
    ensures forall i, j :: 0 <= i < j < |r| ==> IndexOf(xs, r[i]) < IndexOf(xs, r[j])
  {
    if xs == [] then []
    else
      var init := xs[..|xs| - 1];
      var last := xs[|xs| - 1];
      assert xs == init + [last];
      var d := Dedup(init);
      forall x | x in init ensures IndexOf(xs, x) == IndexOf(init, x) {
        IndexOfSnoc(init, last, x);
      }
      if last in d then d
      else
        assert IndexOf(xs, last) == |init|;
        d + [last]
  }

  /** Number of elements that satisfy p. */
  function Count<T>(xs: seq<T>, p: T -> bool): (n: nat)
    ensures n <= |xs|
  {
    if xs == [] then 0 else (if p(xs[0]) then 1 else 0) + Count(xs[1..], p)
  }

  lemma {:induction false} CountSnoc<T>(xs: seq<T>, x: T, p: T -> bool)
    ensures Count(xs + [x], p) == Count(xs, p) + (if p(x) then 1 else 0)
    decreases |xs|
  {
    if xs != [] {
      assert (xs + [x])[1..] == xs[1..] + [x];
      CountSnoc(xs[1..], x, p);
    }
  }

  /** The positions of the elements that satisfy p. */
  function Positions<T>(xs: seq<T>, p: T -> bool): set<nat>
  {
    set i: nat | i < |xs| && p(xs[i])
  }

  /** Counting the elements that satisfy p is counting their positions. */
  lemma {:induction false} CountIsPositions<T>(xs: seq<T>, p: T -> bool)
    ensures Count(xs, p) == |Positions(xs, p)|
    decreases |xs|
  {
    if xs != [] {
      var init, last := xs[..|xs| - 1], xs[|xs| - 1];
      assert xs == init + [last];
      CountSnoc(init, last, p);
      CountIsPositions(init, p);
      if p(last) {
        assert Positions(xs, p) == Positions(init, p) + {|xs| - 1};
      } else {
        assert Positions(xs, p) == Positions(init, p);
      }
    }
  }

  /** `xs.filter(p).length`. */
  lemma {:induction false} CountIsFilterLength<T>(xs: seq<T>, p: T -> bool)
    ensures Count(xs, p) == |Filter(xs, p)|
    decreases |xs|
  {
    if xs != [] {
      CountIsFilterLength(xs[1..], p);
    }
  }

  lemma {:induction false} FilterIsSubsequence<T>(xs: seq<T>, keep: T -> bool)
    ensures IsSubsequence(Filter(xs, keep), xs)
    decreases |xs|
  {
    if xs != [] {
      FilterIsSubsequence(xs[1..], keep);
      var rest := Filter(xs[1..], keep);
      if keep(xs[0]) {
        assert Filter(xs, keep) == [xs[0]] + rest;
        assert ([xs[0]] + rest)[1..] == rest;
      } else {
        SubsequenceOfTail(rest, xs);
      }
    }
  }

  lemma {:induction false} SubsequenceOfTail<T>(a: seq<T>, b: seq<T>)
    requires b != [] && IsSubsequence(a, b[1..])
    ensures IsSubsequence(a, b)
  {
  }

  lemma {:induction false} FilterMembership<T>(xs: seq<T>, keep: T -> bool, x: T)
    ensures x in Filter(xs, keep) <==> x in xs && keep(x)
    decreases |xs|
  {
    if xs != [] {
      FilterMembership(xs[1..], keep, x);
      assert xs == [xs[0]] + xs[1..];
    }
  }

  lemma {:induction false} FilterKeepsAll<T>(xs: seq<T>, keep: T -> bool)
    requires forall i :: 0 <= i < |xs| ==> keep(xs[i])
    ensures Filter(xs, keep) == xs
    decreases |xs|
  {
    if xs != [] {
      FilterKeepsAll(xs[1..], keep);
      assert [xs[0]] + xs[1..] == xs;
    }
  }

  /** Filters that agree on every element give the same result. */
  lemma {:induction false} FilterExtensional<T>(xs: seq<T>, p: T -> bool, q: T -> bool)
    requires forall i :: 0 <= i < |xs| ==> p(xs[i]) == q(xs[i])
    ensures Filter(xs, p) == Filter(xs, q)
    decreases |xs|
  {
    if xs != [] {
      FilterExtensional(xs[1..], p, q);
    }
  }

  /** Filtering twice is filtering once by the conjunction. */
  lemma {:induction false} FilterFilter<T>(xs: seq<T>, p: T -> bool, q: T -> bool, both: T -> bool)
    requires forall i :: 0 <= i < |xs| ==> both(xs[i]) == (p(xs[i]) && q(xs[i]))
    ensures Filter(Filter(xs, p), q) == Filter(xs, both)
    decreases |xs|
  {
    if xs != [] {
      FilterFilter(xs[1..], p, q, both);
      if p(xs[0]) {
        assert Filter(xs, p) == [xs[0]] + Filter(xs[1..], p);
        assert ([xs[0]] + Filter(xs[1..], p))[1..] == Filter(xs[1..], p);
      }
    }
  }

  /** A subsequence of a subsequence is a subsequence. */
  lemma {:induction false} SubsequenceTrans<T>(a: seq<T>, b: seq<T>, c: seq<T>)
    requires IsSubsequence(a, b) && IsSubsequence(b, c)
    ensures IsSubsequence(a, c)
    decreases |c|
  {
    if a != [] && b != [] && c != [] {
      if IsSubsequence(b, c[1..]) {
        SubsequenceTrans(a, b, c[1..]);
      } else if a[0] == b[0] && IsSubsequence(a[1..], b[1..]) {
        SubsequenceTrans(a[1..], b[1..], c[1..]);
      } else {
        SubsequenceTrans(a, b[1..], c[1..]);
      }
    }
  }

  /** Filtering a list with one more element at the end. */
  lemma {:induction false} FilterSnoc<T>(xs: seq<T>, x: T, keep: T -> bool)
    ensures Filter(xs + [x], keep) == Filter(xs, keep) + (if keep(x) then [x] else [])
    decreases |xs|
  {
    if xs == [] {
      assert [x][1..] == [];
    } else {
      assert (xs + [x])[0] == xs[0];
      assert (xs + [x])[1..] == xs[1..] + [x];
      FilterSnoc(xs[1..], x, keep);
    }
  }

  /** The last element a filter keeps is the element at the last index satisfying the test. */
  lemma {:induction false} FilterLast<T>(xs: seq<T>, keep: T -> bool)
    ensures Filter(xs, keep) == [] <==> LastIndex(xs, keep).None?
    ensures LastIndex(xs, keep).Some? ==>
      Filter(xs, keep) != [] && Filter(xs, keep)[|Filter(xs, keep)| - 1] == xs[LastIndex(xs, keep).value]
    decreases |xs|
  {
    if xs != [] {
      var init := xs[..|xs| - 1];
      var x := xs[|xs| - 1];
      assert xs == init + [x];
      FilterSnoc(init, x, keep);
      LastIndexSnoc(init, x, keep);
      FilterLast(init, keep);
    }
  }

  lemma {:induction false} CountSplit<T>(xs: seq<T>, p: T -> bool, q: T -> bool, r: T -> bool)
    requires forall i :: 0 <= i < |xs| ==> !(p(xs[i]) && q(xs[i])) && !(p(xs[i]) && r(xs[i])) && !(q(xs[i]) && r(xs[i]))
    ensures Count(xs, p) + Count(xs, q) + Count(xs, r) <= |xs|
    decreases |xs|
  {
    if xs != [] {
      CountSplit(xs[1..], p, q, r);
    }
  }
}

=== FILE: shop.dfy ===
/**
 * The shop page: which status and action each item card shows, the category
 * filter, recognising the Custom Theme Creator item, applying a theme when an
 * item is equipped, and the custom palette editor (light/dark tabs, per-slot
 * colour fields, swatches, reset, apply).
 */
module Shop {
  import opened Js
  import opened Text
  import opened Seqs
  import opened ThemeNames
  import opened Palette
  import opened Theme

  /** A row of `shop_items`. Numeric columns may be null. */
  datatype Item = Item(
    id: int, name: RawValue, category: string,
    price: Option<int>, minLevel: Option<int>, properties: RawValue)

  /** A row of `user_inventory`. */
  datatype Record = Record(itemId: int, equipped: bool)

  /** The signed-in user's level and coins, either of which may be missing. */
  datatype Buyer = Buyer(level: Option<int>, coins: Option<int>)

  /** `Number(x || 0)` for a nullable integer column. */
  function NumberOr0(x: Option<int>): int
  {
    if x.Some? then x.value else 0
  }

  /** `getInventoryRecord(itemId)`: the first inventory record for the item, if any. */
  function InventoryRecord(inventory: seq<Record>, itemId: int): (r: Option<Record>)
    ensures r.Some? ==> r.value.itemId == itemId && r.value in inventory
    ensures r.None? <==> forall j :: 0 <= j < |inventory| ==> inventory[j].itemId != itemId
  {
    match FindIndex(inventory, (rec: Record) => rec.itemId == itemId)
    case None => None
    case Some(k) => Some(inventory[k])
  }

  /** `getCosmeticType(item)`. */
  function CosmeticType(item: Item): string
  {
    ToLower(TextOr(Get(item.properties, "type")))
  }

  /** `isCustomCreatorItem(item)`: a theme whose name slugs to the creator slug, or whose
      `properties.type` is "creator" in any letter case. */
  function IsCustomCreatorItem(item: Item): (r: bool)
    ensures r ==> item.category == "theme"
    ensures item.category == "theme" && CosmeticType(item) == "creator" ==> r
  {
    item.category == "theme" && (Slug(item.name) == CreatorSlug || CosmeticType(item) == "creator")
  }

  /** Only themes can be the creator; a theme is the creator by its canonical name alone. */
  lemma CreatorItemByName(item: Item)
    ensures item.category != "theme" ==> !IsCustomCreatorItem(item)
    ensures item.category == "theme" && item.name == Str(CreatorSlug) ==> IsCustomCreatorItem(item)
  {
    if item.name == Str(CreatorSlug) {
      CreatorSlugCanonical();
      SlugOfCanonical(CreatorSlug);
    }
  }

  lemma CreatorSlugCanonical()
    ensures IsCanonical(CreatorSlug)
  {
    var s := CreatorSlug;
    assert s == "custom-theme-creator";
    forall i | 0 <= i < |s| ensures IsSlugChar(s[i]) || s[i] == '-' {
      assert s[i] in "custom-theme-creator";
    }
    assert s[0] == 'c' && s[|s| - 1] == 'r';
    forall i | 0 <= i < |s| - 1 ensures !(s[i] == '-' && s[i + 1] == '-') {
      assert s[6] == '-' && s[12] == '-';
      assert s[5] != '-' && s[7] != '-' && s[11] != '-' && s[13] != '-';
    }
  }

  /** `getCustomCreatorItem()`: the first listed item that is the creator. */
  function CustomCreatorItem(items: seq<Item>): (r: Option<Item>)
    ensures r.None? <==> forall j :: 0 <= j < |items| ==> !IsCustomCreatorItem(items[j])
    ensures r.Some? ==> exists k :: 0 <= k < |items| && items[k] == r.value && IsCustomCreatorItem(items[k])
                                    && forall j :: 0 <= j < k ==> !IsCustomCreatorItem(items[j])
  {
    match FindIndex(items, (it: Item) => IsCustomCreatorItem(it))
    case None => None
    case Some(k) => Some(items[k])
  }

  /** Whether the signed-in user owns the creator item, and whether it is equipped. */
  datatype CreatorStatus = NotOwned | Owned(item: Item, equipped: bool)

  /** `isCustomCreatorOwned()` and `isCustomCreatorEquipped()`: the creator is owned when it is listed
      and has an inventory record, and equipped when that record is marked so. */
  function CreatorStatusOf(items: seq<Item>, inventory: seq<Record>): (r: CreatorStatus)
    ensures r.NotOwned? <==>
      CustomCreatorItem(items).None? || InventoryRecord(inventory, CustomCreatorItem(items).value.id).None?
    ensures r.Owned? ==> Some(r.item) == CustomCreatorItem(items)
    ensures r.Owned? ==> InventoryRecord(inventory, r.item.id) == Some(Record(r.item.id, r.equipped))
  {
    match CustomCreatorItem(items)
    case None => NotOwned
    case Some(c) =>
      match InventoryRecord(inventory, c.id)
      case None => NotOwned
      case Some(rec) => Owned(c, rec.equipped)
  }

  /** What a card shows, as the status line and action button `renderCard` chooses. */
  datatype Card =
    | CreatorEquipped                   // "Custom Theme Creator equipped", Customize Colors
    | EquipTheme                        // "Owned", Equip Theme
    | ThemeEquipped                     // "Equipped", disabled
    | CosmeticEquipped(kind: string)    // "Equipped (kind)", disabled
    | EquipCosmetic                     // "Owned", Equip Cosmetic
    | OwnedOther                        // "Owned", disabled
    | Locked(minLevel: Option<int>)     // "Unlocks at level n", disabled
    | ForSale(affordable: bool, buyDisabled: bool)

  predicate IsOwnedCard(c: Card)
  {
    c.CreatorEquipped? || c.EquipTheme? || c.ThemeEquipped? || c.CosmeticEquipped? || c.EquipCosmetic? || c.OwnedOther?
  }

  /** `renderCard(item)` without the markup: ownership decides first, then the level lock, and only
      then affordability. */
  function RenderCard(item: Item, buyer: Buyer, inventory: seq<Record>): (r: Card)
    ensures InventoryRecord(inventory, item.id).Some? <==> IsOwnedCard(r)
    ensures InventoryRecord(inventory, item.id).None? && NumberOr0(buyer.level) < NumberOr0(item.minLevel)
      ==> r == Locked(item.minLevel)
    ensures InventoryRecord(inventory, item.id).None? && NumberOr0(buyer.level) >= NumberOr0(item.minLevel)
      ==> r.ForSale? && r.affordable == (NumberOr0(buyer.coins) >= NumberOr0(item.price)) && r.buyDisabled == !r.affordable
  {
    var record := InventoryRecord(inventory, item.id);
    var equipped := record.Some? && record.value.equipped;
    var canAfford := NumberOr0(buyer.coins) >= NumberOr0(item.price);
    var locked := !(NumberOr0(buyer.level) >= NumberOr0(item.minLevel));
    if record.Some? then
      if item.category == "theme" then
        if IsCustomCreatorItem(item) then (if equipped then CreatorEquipped else EquipTheme)
        else if equipped then ThemeEquipped
        else EquipTheme
      else if item.category == "cosmetic" then
        if equipped then CosmeticEquipped(CosmeticType(item)) else EquipCosmetic
      else OwnedOther
    else if locked then Locked(item.minLevel)
    else ForSale(canAfford, record.Some? || locked || !canAfford)
  }

  /** The buy button is live exactly for an item not owned, not above the buyer's level, and
      affordable. */
  lemma BuyEnabledExactly(item: Item, buyer: Buyer, inventory: seq<Record>)
    ensures (RenderCard(item, buyer, inventory).ForSale? && !RenderCard(item, buyer, inventory).buyDisabled)
      <==> (forall j :: 0 <= j < |inventory| ==> inventory[j].itemId != item.id)
           && NumberOr0(buyer.level) >= NumberOr0(item.minLevel)
           && NumberOr0(buyer.coins) >= NumberOr0(item.price)
  {
  }

  /** An "Equipped" card appears only for an item whose inventory record is marked equipped. */
  lemma EquippedCardNeedsRecord(item: Item, buyer: Buyer, inventory: seq<Record>)
    ensures var c := RenderCard(item, buyer, inventory);
      c.CreatorEquipped? || c.ThemeEquipped? || c.CosmeticEquipped? ==>
        exists j :: 0 <= j < |inventory| && inventory[j].itemId == item.id && inventory[j].equipped
  {
    var rec := InventoryRecord(inventory, item.id);
    if rec.Some? && rec.value.equipped {
      var j :| 0 <= j < |inventory| && inventory[j] == rec.value;
    }
  }

  /** `renderShop` filter: "all" shows everything, any other filter the items of that category. */
  function ShownItems(items: seq<Item>, filter: string): (r: seq<Item>)
    ensures filter == "all" ==> r == items
    ensures |r| <= |items|
  {
    if filter == "all" then items else Filter(items, (item: Item) => item.category == filter)
  }

  /** The shown items keep their order, and a category filter keeps exactly its own items. */
  lemma ShownItemsSpec(items: seq<Item>, filter: string, item: Item)
    ensures IsSubsequence(ShownItems(items, filter), items)
    ensures filter != "all" ==> (item in ShownItems(items, filter) <==> item in items && item.category == filter)
  {
    var keep := (it: Item) => it.category == filter;
    FilterIsSubsequence(items, keep);
    FilterMembership(items, keep, item);
    if filter == "all" {
      FilterKeepsAll(items, (it: Item) => true);
      FilterIsSubsequence(items, (it: Item) => true);
    }
  }

  /** `applyThemeForItem(item)` on the page: nothing for non-themes; the theme named by the item, and
      only when that name resolves to nothing, the item's own two colours (both required). */
  function ApplyThemeForItem(p: Page, item: Item, parse: JsonParse): (r: Page)
    ensures item.category != "theme" ==> r == p
    ensures r.dark == p.dark
  {
    if item.category != "theme" then p
    else
      var byName := ApplyNamedTheme(p, item.name, true, parse);
      var colors := Get(item.properties, "colors");
      if !byName.applied && Truthy(Get(colors, "primary")) && Truthy(Get(colors, "secondary")) then
        ApplyThemeColors(p, Get(colors, "primary"), Get(colors, "secondary"), item.name, true).page
      else byName.page
  }

  /** A theme item whose name resolves gets exactly what the named theme does. */
  lemma ItemThemeByName(p: Page, item: Item, parse: JsonParse)
    requires item.category == "theme" && ApplyNamedTheme(p, item.name, true, parse).applied
    ensures ApplyThemeForItem(p, item, parse) == ApplyNamedTheme(p, item.name, true, parse).page
  {
  }

  /** A theme item's own colours are used exactly when its name does not resolve and both colours
      are present; otherwise an unresolved theme leaves the page alone. */
  lemma ItemColorsFallback(p: Page, item: Item, parse: JsonParse)
    requires item.category == "theme" && !ApplyNamedTheme(p, item.name, true, parse).applied
    ensures var colors := Get(item.properties, "colors");
      Truthy(Get(colors, "primary")) && Truthy(Get(colors, "secondary")) ==>
        ApplyThemeForItem(p, item, parse) == ApplyThemeColors(p, Get(colors, "primary"), Get(colors, "secondary"), item.name, true).page
    ensures var colors := Get(item.properties, "colors");
      !(Truthy(Get(colors, "primary")) && Truthy(Get(colors, "secondary"))) ==> ApplyThemeForItem(p, item, parse) == p
  {
  }

  /** The palette editor: the palette being edited and the tab (light or dark) that is open. */
  datatype Editor = Editor(palette: Palette, mode: Mode)

  /** `setCustomMode(mode)`: "dark" opens the dark tab, anything else the light one. */
  function SetCustomMode(e: Editor, mode: string): (r: Editor)
    ensures r.palette == e.palette
    ensures r.mode == Dark <==> mode == "dark"
  {
    e.(mode := if mode == "dark" then Dark else Light)
  }

  /** `updateCustomThemePanel`: the editor reloads the stored palette, upper-cased and completed. */
  function OpenPanel(e: Editor, storage: map<StoreKey, string>, parse: JsonParse): (r: Editor)
    ensures IsComplete(r.palette, Upper)
    ensures r.mode == e.mode
    ensures StoredPalette(storage, parse).None? ==> r.palette == Defaults
    ensures StoredPalette(storage, parse).Some? ==>
      r.palette == Normalize(PaletteValue(StoredPalette(storage, parse).value), Upper)
  {
    var stored := match StoredPalette(storage, parse)
      case None => Null
      case Some(pal) => PaletteValue(pal);
    Editor(Normalize(stored, Upper), e.mode)
  }

  /** The editor after typing into a colour field, and whether the field is flagged invalid. */
  datatype Edited = Edited(editor: Editor, invalid: bool)

  /** The colour-field input handler: the slot of the open tab takes the typed text trimmed and
      upper-cased when that is a hex colour, and keeps its previous value otherwise. The field is
      flagged when the stored value differs from the upper-cased text as typed. */
  function EditColor(e: Editor, s: Slot, value: string): (r: Edited)
    ensures r.editor.mode == e.mode
    ensures IsHexColor(Trim(value)) ==> r.editor.palette.For(e.mode).At(s) == ToUpper(Trim(value))
    ensures !IsHexColor(Trim(value)) ==> r.editor.palette.For(e.mode).At(s) == e.palette.For(e.mode).At(s)
    ensures forall t: Slot :: t != s ==> r.editor.palette.For(e.mode).At(t) == e.palette.For(e.mode).At(t)
    ensures forall n: Mode :: n != e.mode ==> r.editor.palette.For(n) == e.palette.For(n)
  {
    var fallback := e.palette.For(e.mode).At(s);
    var normalized := NormalizeHex(Str(value), fallback, Upper);
    NormalizeHexSpec(Str(value), fallback, Upper);
    Edited(Editor(e.palette.WithSlot(e.mode, s, normalized), e.mode), normalized != ToUpper(value))
  }

  /** Invalid text leaves the whole palette as it was. */
  lemma InvalidEditChangesNothing(e: Editor, s: Slot, value: string)
    requires !IsHexColor(Trim(value))
    ensures EditColor(e, s, value).editor == e
  {
    var r := EditColor(e, s, value).editor.palette;
    SlotsExtensional(r.For(e.mode), e.palette.For(e.mode));
    if e.mode == Dark {
      assert r.light == e.palette.light;
    } else {
      assert r.dark == e.palette.dark;
    }
  }

  /** Editing keeps a complete upper-case palette complete. */
  lemma EditKeepsComplete(e: Editor, s: Slot, value: string)
    requires IsComplete(e.palette, Upper)
    ensures IsComplete(EditColor(e, s, value).editor.palette, Upper)
  {
    var fallback := SlotValid(e.palette, e.mode, s);
    var normalized := NormalizeHex(Str(value), fallback, Upper);
    WithSlotKeepsComplete(e.palette, e.mode, s, normalized, Upper);
  }

  /** Every slot of a complete palette is valid; returns that slot's colour. */
  lemma SlotValid(p: Palette, m: Mode, s: Slot) returns (c: string)
    requires IsComplete(p, Upper)
    ensures c == p.For(m).At(s) && IsValidFor(c, Upper)
  {
    c := p.For(m).At(s);
    assert IsValidFor(p.light.At(s), Upper) && IsValidFor(p.dark.At(s), Upper);
  }

  /** The shop's `normalizeHex` result differs from the upper-cased text exactly when that text is
      not a colour, as long as the fallback is a valid colour. */
  lemma UpperNormalizeDiffers(value: string, fallback: string)
    requires IsValidFor(fallback, Upper)
    ensures NormalizeHex(Str(value), fallback, Upper) != ToUpper(value) <==> !IsHexColor(ToUpper(value))
  {
    UpperKeepsHexColor(value);
    if IsHexColor(value) {
      HexColorIsTrimmed(value);
      NormalizeHexSpec(Str(value), fallback, Upper);
    } else {
      assert IsHexColor(NormalizeHex(Str(value), fallback, Upper));
    }
  }

  /** A hex colour has no white space around it. */
  lemma HexColorIsTrimmed(c: string)
    requires IsHexColor(c)
    ensures Trim(JsString(Str(c))) == c
  {
    assert !IsSpace(c[0]) && !IsSpace(c[6]);
    assert TrimStart(c) == c;
    assert TrimEnd(c) == c;
  }

  /** On a complete palette the invalid flag is raised exactly when the text as typed, upper-cased,
      is not a hex colour (so surrounding white space is accepted but flagged). */
  lemma InvalidFlagExact(e: Editor, s: Slot, value: string)
    requires IsComplete(e.palette, Upper)
    ensures EditColor(e, s, value).invalid <==> !IsHexColor(ToUpper(value))
  {
    var fallback := SlotValid(e.palette, e.mode, s);
    UpperNormalizeDiffers(value, fallback);
  }

  /** A swatch click: a non-empty colour is stored in the slot as given. */
  function PickSwatch(e: Editor, s: Slot, color: string): (r: Editor)
    ensures color != "" ==> r.palette.For(e.mode).At(s) == color
    ensures color == "" ==> r == e
    ensures forall t: Slot :: t != s ==> r.palette.For(e.mode).At(t) == e.palette.For(e.mode).At(t)
    ensures forall n: Mode :: n != e.mode ==> r.palette.For(n) == e.palette.For(n)
  {
    if color == "" then e else e.(palette := e.palette.WithSlot(e.mode, s, color))
  }

  /** Storage holding the text of a complete upper-case palette opens the editor on that palette. */
  lemma ReopenShowsStored(e: Editor, storage: map<StoreKey, string>, n: Palette, parse: JsonParse)
    requires ParsesPalettes(parse) && IsComplete(n, Upper)
    requires Holds(storage, CustomPaletteKey, PaletteJson(n))
    ensures OpenPanel(e, storage, parse) == Editor(n, e.mode)
  {
    UpperIsKeepCase(n);
    StoredPaletteOf(storage, n, parse);
    NormalizeComplete(n, Upper);
  }

  /** The reset button: the editor returns to the defaults on the same tab, and the page shows the
      default palette of its mode and stores it under the creator's name. */
  function ResetEditor(p: Page, e: Editor): (r: (Editor, Page))
    ensures r.0 == Editor(Defaults, e.mode)
    ensures r.1.dark == p.dark && Writes(p.vars, r.1.vars, AccentVars + SurfaceVars)
    ensures ShowsSlots(r.1.vars, Defaults.For(ModeOf(p)), p.dark)
    ensures r.1.storage == p.storage[CustomPaletteKey := PaletteJson(Defaults)][EquippedThemeKey := CreatorName]
  {
    DefaultsComplete();
    AppliedCompletePalette(p, Defaults, true);
    (Editor(Defaults, e.mode), ApplyCustomPalette(p, PaletteValue(Defaults), true).page)
  }

  /** After a reset, reopening the panel shows the editor as the reset left it. */
  lemma {:induction false} ResetThenReopen(p: Page, e: Editor, parse: JsonParse)
    requires ParsesPalettes(parse)
    ensures var r := ResetEditor(p, e);
      OpenPanel(r.0, r.1.storage, parse) == r.0
  {
    DefaultsComplete();
    ReopenAfterStoring(p.storage, Editor(Defaults, e.mode), Defaults, parse);
  }

  /** Storing a complete upper-case palette under the creator's name and reopening the panel shows it. */
  lemma ReopenAfterStoring(storage: map<StoreKey, string>, e: Editor, n: Palette, parse: JsonParse)
    requires ParsesPalettes(parse) && IsComplete(n, Upper) && e.palette == n
    ensures OpenPanel(e, storage[CustomPaletteKey := PaletteJson(n)][EquippedThemeKey := CreatorName], parse) == e
  {
    ReopenShowsStored(e, storage[CustomPaletteKey := PaletteJson(n)][EquippedThemeKey := CreatorName], n, parse);
  }

  /** How the equip step of the apply button went, when the creator was owned but not equipped. */
  datatype EquipStep =
    | EquipRejected                  // the equip call returned an error: the apply stops with an alert
    | RefreshFailed                  // equipped and its theme applied, but reloading the shop threw
    | Refreshed(creatorListed: bool) // the shop reloaded; the panel reloads the stored palette if the creator is still listed

  /** `applyCustomThemePalette(palette, true)` for a palette held by the editor. */
  function ApplyEdited(q: Page, n: Palette): (r: Page)
    ensures r.dark == q.dark
  {
    ApplyCustomPalette(q, PaletteValue(n), true).page
  }

  /** A complete palette from the editor shows its slots for the page's mode and is stored as is, under
      the creator's name. */
  lemma EditedPaletteApplies(q: Page, n: Palette)
    requires IsComplete(n, Upper)
    ensures var r := ApplyEdited(q, n);
      && ShowsSlots(r.vars, n.For(ModeOf(q)), q.dark)
      && r.storage == q.storage[CustomPaletteKey := PaletteJson(n)][EquippedThemeKey := CreatorName]
      && Holds(r.storage, CustomPaletteKey, PaletteJson(n))
  {
    UpperIsKeepCase(n);
    AppliedCompletePalette(q, n, true);
    HoldsAfterPersist(q.storage, PaletteJson(n));
  }

  /** Persisting a palette text leaves it readable under its key. */
  lemma HoldsAfterPersist(s: map<StoreKey, string>, v: string)
    ensures Holds(s[CustomPaletteKey := v][EquippedThemeKey := CreatorName], CustomPaletteKey, v)
  {
  }

  /** Where the apply button stands before its final step: stopped, leaving a page behind, or about
      to apply the palette of an editor to a page. */
  datatype BeforeApply = Stop(page: Page) | Go(editor: Editor, page: Page)

  /** The equip step of the apply button: nothing to do for an equipped creator; otherwise
      `handleEquip(creatorItem)`, which applies the creator's theme and reloads the shop, whose panel
      replaces the edited palette with the stored one. */
  function EquipStepOutcome(p: Page, e: Editor, item: Item, equipped: bool, equip: EquipStep, parse: JsonParse): (r: BeforeApply)
    ensures equipped ==> r == Go(e, p)
    ensures !equipped && equip.EquipRejected? ==> r == Stop(p)
    ensures !equipped && equip.RefreshFailed? ==> r == Stop(ApplyThemeForItem(p, item, parse))
    ensures !equipped && equip.Refreshed? ==> r.Go? && r.page == ApplyThemeForItem(p, item, parse)
    ensures !equipped && equip == Refreshed(true) ==> r.editor == OpenPanel(e, r.page.storage, parse)
    ensures !equipped && equip == Refreshed(false) ==> r.editor == e
    ensures r.page.dark == p.dark
    ensures r.Go? <==> equipped || equip.Refreshed?
    ensures r.Go? ==> r.editor.mode == e.mode
    ensures r.Go? && IsComplete(e.palette, Upper) ==> IsComplete(r.editor.palette, Upper)
  {
    if equipped then Go(e, p)
    else match equip
      case EquipRejected => Stop(p)
      case RefreshFailed => Stop(ApplyThemeForItem(p, item, parse))
      case Refreshed(listed) =>
        var q := ApplyThemeForItem(p, item, parse);
        Go(if listed then OpenPanel(e, q.storage, parse) else e, q)
  }

  /** The apply button. Without an owned creator nothing happens. An equipped creator applies and
      stores the edited palette. An owned but unequipped creator is equipped first, and then the
      palette the reloaded panel holds (the stored one) is applied, not the edited one. */
  function ApplyEditor(p: Page, e: Editor, creator: CreatorStatus, equip: EquipStep, parse: JsonParse): (r: (Editor, Page))
    ensures creator.NotOwned? ==> r == (e, p)
    ensures creator.Owned? && creator.equipped ==> r == (e, ApplyEdited(p, e.palette))
    ensures creator.Owned? ==>
      match EquipStepOutcome(p, e, creator.item, creator.equipped, equip, parse)
      case Stop(q) => r == (e, q)
      case Go(shown, q) => r == (shown, ApplyEdited(q, shown.palette))
  {
    match creator
    case NotOwned => (e, p)
    case Owned(item, isEquipped) =>
      match EquipStepOutcome(p, e, item, isEquipped, equip, parse)
      case Stop(q) => (e, q)
      case Go(shown, q) => (shown, ApplyEdited(q, shown.palette))
  }

  /** The apply goes through: the creator is equipped, or it is owned and equipping it reloaded the shop. */
  predicate ApplyGoesThrough(creator: CreatorStatus, equip: EquipStep)
  {
    creator.Owned? && (creator.equipped || equip.Refreshed?)
  }

  /** With the creator equipped, applying shows the edited palette for the page's mode and stores that
      very palette, provided it is complete. */
  lemma ApplyEditorStoresPalette(p: Page, e: Editor, creator: CreatorStatus, equip: EquipStep, parse: JsonParse)
    requires creator.Owned? && creator.equipped && IsComplete(e.palette, Upper)
    ensures var r := ApplyEditor(p, e, creator, equip, parse);
      && r.0 == e
      && ShowsSlots(r.1.vars, e.palette.For(ModeOf(p)), p.dark)
      && Holds(r.1.storage, CustomPaletteKey, PaletteJson(e.palette))
  {
    var r := ApplyEditor(p, e, creator, equip, parse);
    assert r == (e, ApplyEdited(p, e.palette));
    EditedPaletteApplies(p, e.palette);
  }

  /** When the creator has to be equipped first and the shop reloads with it listed, the edits are
      lost: the outcome is the same whatever palette the editor held. */
  lemma ApplyEditorDiscardsEdits(p: Page, e1: Editor, e2: Editor, creator: CreatorStatus, parse: JsonParse)
    requires creator.Owned? && !creator.equipped && e1.mode == e2.mode
    ensures ApplyEditor(p, e1, creator, Refreshed(true), parse) == ApplyEditor(p, e2, creator, Refreshed(true), parse)
  {
  }

  /** Whenever the apply goes through, the page afterwards shows the palette the editor then holds, for
      the page's mode, and stores exactly that palette. */
  lemma {:induction false} ApplyEditorShowsEditor(p: Page, e: Editor, creator: CreatorStatus, equip: EquipStep, parse: JsonParse)
    requires ApplyGoesThrough(creator, equip) && IsComplete(e.palette, Upper)
    ensures var r := ApplyEditor(p, e, creator, equip, parse);
      && IsComplete(r.0.palette, Upper)
      && ShowsSlots(r.1.vars, r.0.palette.For(ModeOf(p)), p.dark)
      && Holds(r.1.storage, CustomPaletteKey, PaletteJson(r.0.palette))
  {
    var o := EquipStepOutcome(p, e, creator.item, creator.equipped, equip, parse);
    assert o.Go?;
    assert ApplyEditor(p, e, creator, equip, parse) == (o.editor, ApplyEdited(o.page, o.editor.palette));
    EditedPaletteApplies(o.page, o.editor.palette);
    assert ModeOf(o.page) == ModeOf(p);
  }

  /** Whenever the apply goes through, reopening the panel shows the editor as the apply left it. */
  lemma {:induction false} ApplyThenReopen(p: Page, e: Editor, creator: CreatorStatus, equip: EquipStep, parse: JsonParse)
    requires ParsesPalettes(parse)
    requires ApplyGoesThrough(creator, equip) && IsComplete(e.palette, Upper)
    ensures var r := ApplyEditor(p, e, creator, equip, parse);
      OpenPanel(r.0, r.1.storage, parse) == r.0
  {
    var r := ApplyEditor(p, e, creator, equip, parse);
    ApplyEditorShowsEditor(p, e, creator, equip, parse);
    ReopenShowsStored(r.0, r.1.storage, r.0.palette, parse);
  }
}

=== FILE: slug.dfy ===
/**
 * `normalizeThemeName`, shared by the theme engine and the shop: lower-case,
 * drop a trailing white-space-separated "theme", turn every run of characters
 * outside `[a-z0-9]` into one `-`, and strip dashes from both ends.
 */
module ThemeNames {
  import opened Js
  import opened Text
  import Seqs

  /** `[a-z0-9]`. */
  predicate IsSlugChar(c: char)
  {
    IsLowerLetter(c) || IsDigit(c)
  }

  predicate NoDoubleDash(s: string)
  {
    forall i :: 0 <= i < |s| - 1 ==> !(s[i] == '-' && s[i + 1] == '-')
  }

  /** Only `[a-z0-9-]`, no dash at either end, never two dashes in a row. */
  predicate IsCanonical(s: string)
  {
    (forall i :: 0 <= i < |s| ==> IsSlugChar(s[i]) || s[i] == '-')
    && NoDoubleDash(s)
    && (s == [] || (s[0] != '-' && s[|s| - 1] != '-'))
  }

  /** `.replace(/\s+theme$/, '')`: the final "theme" goes together with the whole white-space run before it. */
  function DropThemeSuffix(s: string): (r: string)
    ensures |r| <= |s| && r == s[..|r|]
    ensures (forall i :: 0 <= i < |s| ==> !IsSpace(s[i])) ==> r == s
  {
    if |s| >= 6 && EndsWith(s, "theme") && IsSpace(s[|s| - 6]) then TrimEnd(s[..|s| - 5]) else s
  }

  /** Drops the characters outside `[a-z0-9]` at the front. */
  function SkipRun(s: string): (r: string)
    ensures |r| <= |s| && r == s[|s| - |r|..]
    ensures r == [] || IsSlugChar(r[0])
    decreases |s|
  {
    if s == [] || IsSlugChar(s[0]) then s else SkipRun(s[1..])
  }

  /** `.replace(/[^a-z0-9]+/g, '-')`. */
  function CollapseRuns(s: string): (r: string)
    ensures forall i :: 0 <= i < |r| ==> IsSlugChar(r[i]) || r[i] == '-'
    ensures NoDoubleDash(r)
    ensures s != [] && IsSlugChar(s[0]) ==> r != [] && r[0] == s[0]
    ensures s != [] ==> r != []
    decreases |s|
  {
    if s == [] then []
    else if IsSlugChar(s[0]) then [s[0]] + CollapseRuns(s[1..])
    else "-" + CollapseRuns(SkipRun(s[1..]))
  }

  function TrimLeadingDashes(s: string): (r: string)
    ensures |r| <= |s| && r == s[|s| - |r|..]
    ensures r == [] || r[0] != '-'
    ensures (s == [] || s[0] != '-') ==> r == s
    decreases |s|
  {
    if s == [] || s[0] != '-' then s else TrimLeadingDashes(s[1..])
  }

  function TrimTrailingDashes(s: string): (r: string)
    ensures |r| <= |s| && r == s[..|r|]
    ensures r == [] || r[|r| - 1] != '-'
    ensures (s == [] || s[|s| - 1] != '-') ==> r == s
    decreases |s|
  {
    if s == [] || s[|s| - 1] != '-' then s else TrimTrailingDashes(s[..|s| - 1])
  }

  /** A slice of a string keeps its alphabet and its lack of double dashes. */
  lemma SliceKeepsShape(s: string, lo: nat, hi: nat)
    requires lo <= hi <= |s|
    requires forall i :: 0 <= i < |s| ==> IsSlugChar(s[i]) || s[i] == '-'
    requires NoDoubleDash(s)
    ensures forall i :: 0 <= i < hi - lo ==> IsSlugChar(s[lo..hi][i]) || s[lo..hi][i] == '-'
    ensures NoDoubleDash(s[lo..hi])
  {
    var t := s[lo..hi];
    forall i | 0 <= i < |t| - 1 ensures !(t[i] == '-' && t[i + 1] == '-') {
      assert t[i] == s[lo + i] && t[i + 1] == s[lo + i + 1];
    }
  }

  /** `normalizeThemeName(name)`: `String(name || '')` turned into a slug. */
  function Slug(name: RawValue): (r: string)
    ensures IsCanonical(r)
  {
    SlugOfText(TextOr(name))
  }

  /** The slug of the text of a name. */
  function SlugOfText(t: string): (r: string)
    ensures IsCanonical(r)
  {
    var c := CollapseRuns(DropThemeSuffix(ToLower(t)));
    var a := TrimLeadingDashes(c);
    var b := TrimTrailingDashes(a);
    SliceKeepsShape(c, |c| - |a|, |c|);
    SliceKeepsShape(a, 0, |b|);
    b
  }

  /** A canonical string has no run of two or more separators, so collapsing leaves it alone. */
  lemma {:induction false} CollapseCanonical(s: string)
    requires forall i :: 0 <= i < |s| ==> IsSlugChar(s[i]) || s[i] == '-'
    requires NoDoubleDash(s)
    ensures CollapseRuns(s) == s
    decreases |s|
  {
    if s != [] {
      SliceKeepsShape(s, 1, |s|);
      CollapseCanonical(s[1..]);
      if !IsSlugChar(s[0]) {
        assert s[1..] == [] || IsSlugChar(s[1]);
        assert SkipRun(s[1..]) == s[1..];
      }
      assert [s[0]] + s[1..] == s;
    }
  }

  /** Slugs are fixed points: a slug, slugged again, is itself. */
  lemma {:induction false} SlugOfCanonical(s: string)
    requires IsCanonical(s)
    ensures Slug(Str(s)) == s
  {
    assert TextOr(Str(s)) == s;
    assert ToLower(s) == s;
    assert forall i :: 0 <= i < |s| ==> !IsSpace(s[i]);
    assert DropThemeSuffix(s) == s;
    CollapseCanonical(s);
  }

  /** `normalizeThemeName` is idempotent. */
  lemma {:induction false} SlugIdempotent(name: RawValue)
    ensures Slug(Str(Slug(name))) == Slug(name)
  {
    SlugOfCanonical(Slug(name));
  }

  lemma {:induction false} CollapseWord(w: string, rest: string)
    requires forall i :: 0 <= i < |w| ==> IsSlugChar(w[i])
    ensures CollapseRuns(w + rest) == w + CollapseRuns(rest)
    decreases |w|
  {
    if w == [] {
      assert w + rest == rest;
    } else {
      var s := w + rest;
      assert s[0] == w[0] && IsSlugChar(w[0]);
      assert s[1..] == w[1..] + rest;
      assert CollapseRuns(s) == [w[0]] + CollapseRuns(w[1..] + rest);
      CollapseWord(w[1..], rest);
      Seqs.AppendAssoc([w[0]], w[1..], CollapseRuns(rest));
      assert [w[0]] + w[1..] == w;
    }
  }

  /** A separator run becomes one dash, then what follows the run. */
  lemma CollapseSeparator(s: string)
    requires s != [] && !IsSlugChar(s[0])
    ensures CollapseRuns(s) == "-" + CollapseRuns(SkipRun(s[1..]))
  {
  }

  /** A word alone is left as it is. */
  lemma CollapseWordAlone(w: string)
    requires forall i :: 0 <= i < |w| ==> IsSlugChar(w[i])
    ensures CollapseRuns(w) == w
  {
    CollapseWord(w, []);
    assert w + [] == w;
  }

  lemma CollapseSpaceWord(b: string)
    requires b != [] && IsSlugChar(b[0]) && CollapseRuns(b) == b
    ensures CollapseRuns(" " + b) == "-" + b
  {
    assert (" " + b)[1..] == b;
    CollapseSeparator(" " + b);
  }

  /** Two words separated by one space become the words joined by one dash. */
  lemma CollapseTwoWords(a: string, b: string)
    requires forall i :: 0 <= i < |a| ==> IsSlugChar(a[i])
    requires b != [] && forall i :: 0 <= i < |b| ==> IsSlugChar(b[i])
    ensures CollapseRuns(a + " " + b) == a + "-" + b
  {
    calc {
      CollapseRuns(a + " " + b);
      { Seqs.AppendAssoc(a, " ", b); }
      CollapseRuns(a + (" " + b));
      { CollapseWord(a, " " + b); }
      a + CollapseRuns(" " + b);
      { CollapseWordAlone(b); CollapseSpaceWord(b); }
      a + ("-" + b);
      { Seqs.AppendAssoc(a, "-", b); }
      a + "-" + b;
    }
  }

  lemma LowerOceanWave()
    ensures ToLower("Ocean Wave Theme") == "ocean wave theme"
  {
  }

  lemma DropOceanWaveSuffix()
    ensures DropThemeSuffix("ocean wave theme") == "ocean wave"
  {
    var s := "ocean wave theme";
    assert s[|s| - 5..] == "theme";
    assert EndsWith(s, "theme");
    assert IsSpace(s[|s| - 6]);
    assert s[..|s| - 5] == "ocean wave ";
    assert "ocean wave "[..10] == "ocean wave";
    assert TrimEnd("ocean wave ") == TrimEnd("ocean wave");
    assert TrimEnd("ocean wave") == "ocean wave";
  }

  lemma CollapseOceanWave()
    ensures CollapseRuns("ocean wave") == "ocean-wave"
  {
    CollapseTwoWords("ocean", "wave");
    assert "ocean" + " " + "wave" == "ocean wave";
    assert "ocean" + "-" + "wave" == "ocean-wave";
  }

  /** A display name and its slug resolve to the same preset key. */
  lemma SlugOfDisplayName()
    ensures Slug(Str("Ocean Wave Theme")) == "ocean-wave"
  {
    LowerOceanWave();
    DropOceanWaveSuffix();
    CollapseOceanWave();
    assert Slug(Str("Ocean Wave Theme")) == SlugOfText("Ocean Wave Theme");
    assert TrimLeadingDashes("ocean-wave") == "ocean-wave";
    assert TrimTrailingDashes("ocean-wave") == "ocean-wave";
  }

  lemma SlugOfPresetKey()
    ensures Slug(Str("ocean-wave")) == "ocean-wave"
  {
    SlugOfCanonical("ocean-wave");
  }

  /** A missing name has the empty slug. */
  lemma SlugOfMissingName()
    ensures Slug(Absent) == ""
  {
  }
}

=== FILE: text.dfy ===
/**
 * The string operations of the scripts: `trim`, `\s`, ASCII case mapping,
 * `includes`, `startsWith`, `substring(0, n)`, `join`, number printing and
 * `parseInt`. A Dafny string is a sequence of Unicode scalar values, so `|s|` counts characters;
 * JavaScript's `length` counts UTF-16 code units and is `Utf16Length` here.
 */
module Text {
  import opened Js

  /** JavaScript WhiteSpace and LineTerminator: what `trim()` strips and `\s` matches. */
  predicate IsSpace(c: char)
  {
    c == '\t' || c == '\n' || c == '\U{000B}' || c == '\U{000C}' || c == '\r' || c == ' '
    || c == '\U{00A0}' || c == '\U{1680}' || ('\U{2000}' <= c <= '\U{200A}')
    || c == '\U{2028}' || c == '\U{2029}' || c == '\U{202F}' || c == '\U{205F}'
    || c == '\U{3000}' || c == '\U{FEFF}'
  }

  predicate IsDigit(c: char) { '0' <= c <= '9' }
  predicate IsLowerLetter(c: char) { 'a' <= c <= 'z' }
  predicate IsUpperLetter(c: char) { 'A' <= c <= 'Z' }

  /** `[0-9a-fA-F]`. */
  predicate IsHexDigit(c: char)
  {
    IsDigit(c) || ('a' <= c <= 'f') || ('A' <= c <= 'F')
  }

  /** `[A-Za-z0-9_]`. */
  predicate IsWordChar(c: char)
  {
    IsDigit(c) || IsLowerLetter(c) || IsUpperLetter(c) || c == '_'
  }

  /** A character above U+FFFF, which a JavaScript string stores as a surrogate pair. */
  predicate IsAstral(c: char)
  {
    c as int >= 0x10000
  }

  /** JavaScript's `length`: one code unit per character up to U+FFFF, two above it. */
  function Utf16Length(s: string): (n: nat)
    ensures |s| <= n <= 2 * |s|
    ensures n == |s| <==> forall i :: 0 <= i < |s| ==> !IsAstral(s[i])
  {
    if s == [] then 0
    else
      assert forall i :: 0 < i < |s| ==> s[i] == s[1..][i - 1];
      (if IsAstral(s[0]) then 2 else 1) + Utf16Length(s[1..])
  }

  /** What stands for one half of a surrogate pair. Like a lone surrogate it is no digit, sign,
      letter or white space, which is all that `parseInt` and trimming look at. */
  const SurrogateHalf: char := '\U{FFFD}'

  /** The UTF-16 code units of s, with each half of a surrogate pair written as `SurrogateHalf`:
      what `slice` and indexing work on in JavaScript. */
  function CodeUnits(s: string): (u: string)
    ensures |u| == Utf16Length(s)
    ensures (forall i :: 0 <= i < |s| ==> !IsAstral(s[i])) ==> u == s
  {
    if s == [] then []
    else
      assert forall i :: 0 < i < |s| ==> s[i] == s[1..][i - 1];
      (if IsAstral(s[0]) then [SurrogateHalf, SurrogateHalf] else [s[0]]) + CodeUnits(s[1..])
  }

  function LowerChar(c: char): (r: char)
    ensures !IsUpperLetter(r)
    ensures IsUpperLetter(c) ==> r as int == c as int + 32
    ensures !IsUpperLetter(c) ==> r == c
  {
    if IsUpperLetter(c) then (c as int + 32) as char else c
  }

  function UpperChar(c: char): (r: char)
    ensures !IsLowerLetter(r)
    ensures IsLowerLetter(c) ==> r as int == c as int - 32
    ensures !IsLowerLetter(c) ==> r == c
  {
    if IsLowerLetter(c) then (c as int - 32) as char else c
  }

  /** `toLowerCase()`, restricted to the ASCII letters. */
  function ToLower(s: string): (r: string)
    ensures |r| == |s|
    ensures forall i :: 0 <= i < |s| ==> r[i] == LowerChar(s[i])
  {
    seq(|s|, i requires 0 <= i < |s| => LowerChar(s[i]))
  }

  /** `toUpperCase()`, restricted to the ASCII letters. */
  function ToUpper(s: string): (r: string)
    ensures |r| == |s|
    ensures forall i :: 0 <= i < |s| ==> r[i] == UpperChar(s[i])
  {
    seq(|s|, i requires 0 <= i < |s| => UpperChar(s[i]))
  }

  function TrimStart(s: string): (r: string)
    ensures |r| <= |s| && r == s[|s| - |r|..]
    ensures r == [] || !IsSpace(r[0])
    ensures forall i :: 0 <= i < |s| - |r| ==> IsSpace(s[i])
  {
    if s == [] || !IsSpace(s[0]) then s else TrimStart(s[1..])
  }

  function TrimEnd(s: string): (r: string)
    ensures |r| <= |s| && r == s[..|r|]
    ensures r == [] || !IsSpace(r[|r| - 1])
    ensures forall i :: |r| <= i < |s| ==> IsSpace(s[i])
  {
    if s == [] || !IsSpace(s[|s| - 1]) then s else TrimEnd(s[..|s| - 1])
  }

  /** `trim()`: the result neither starts nor ends with white space. */
  function Trim(s: string): (r: string)
    ensures |r| <= |s|
    ensures r == [] || (!IsSpace(r[0]) && !IsSpace(r[|r| - 1]))
  {
    TrimEnd(TrimStart(s))
  }

  /** `s.startsWith(p)`. */
  predicate StartsWith(s: string, p: string)
  {
    |p| <= |s| && s[..|p|] == p
  }

  /** `s.endsWith(p)`. */
  predicate EndsWith(s: string, p: string)
  {
    |p| <= |s| && s[|s| - |p|..] == p
  }

  /** `s.includes(t)`: t occurs at some position of s. */
  predicate Contains(s: string, t: string)
    decreases |s|
  {
    StartsWith(s, t) || (s != [] && Contains(s[1..], t))
  }

  /** `s.substring(0, n)`. */
  function Take(s: string, n: nat): (r: string)
    ensures |r| == if |s| < n then |s| else n
    ensures r == s[..|r|]
  {
    if |s| <= n then s else s[..n]
  }

  /** `xs.join(sep)`. */
  function Join(xs: seq<string>, sep: string): string
  {
    if xs == [] then ""
    else if |xs| == 1 then xs[0]
    else xs[0] + sep + Join(xs[1..], sep)
  }

  /** The pieces concatenated, each preceded by `sep`. */
  function Prefixed(xs: seq<string>, sep: string): string
  {
    if xs == [] then "" else sep + xs[0] + Prefixed(xs[1..], sep)
  }

  /** `join` reads as the first piece followed by `sep` and a piece for each later one. */
  lemma {:induction false} JoinIsPrefixed(xs: seq<string>, sep: string)
    requires xs != []
    ensures Join(xs, sep) == xs[0] + Prefixed(xs[1..], sep)
    decreases |xs|
  {
    if |xs| > 1 {
      var tail := xs[1..];
      JoinIsPrefixed(tail, sep);
      calc {
        Join(xs, sep);
        xs[0] + sep + Join(tail, sep);
        xs[0] + sep + (tail[0] + Prefixed(tail[1..], sep));
        xs[0] + (sep + tail[0] + Prefixed(tail[1..], sep));
        xs[0] + Prefixed(tail, sep);
      }
    }
  }

  function DigitChar(d: nat): (c: char)
    requires d < 10
    ensures IsDigit(c)
  {
    ('0' as int + d) as char
  }

  /** Decimal text of a natural number, as `String(n)` prints it. */
  function NatToString(n: nat): (r: string)
    ensures |r| >= 1
    ensures forall i :: 0 <= i < |r| ==> IsDigit(r[i])
    decreases n
  {
    if n < 10 then [DigitChar(n)] else NatToString(n / 10) + [DigitChar(n % 10)]
  }

  /** Decimal text of an integer, as `String(n)` prints it. */
  function IntToString(n: int): (r: string)
    ensures |r| >= 1
    ensures n >= 0 ==> r == NatToString(n)
    ensures n < 0 ==> r == "-" + NatToString(-n)
  {
    if n >= 0 then NatToString(n) else "-" + NatToString(-n)
  }

  /** Value of a digit character in base 10 or 16, if it is one. */
  function DigitValue(c: char, radix: nat): (r: Option<nat>)
    ensures r.Some? ==> r.value < radix
  {
    if IsDigit(c) && (c as int - '0' as int) < radix then Some(c as int - '0' as int)
    else if radix == 16 && 'a' <= c <= 'f' then Some(c as int - 'a' as int + 10)
    else if radix == 16 && 'A' <= c <= 'F' then Some(c as int - 'A' as int + 10)
    else None
  }

  /** The longest prefix of s made of digits of the radix. */
  function DigitPrefix(s: string, radix: nat): (r: string)
    ensures |r| <= |s| && r == s[..|r|]
    ensures forall i :: 0 <= i < |r| ==> DigitValue(r[i], radix).Some?
  {
    if s == [] || DigitValue(s[0], radix).None? then [] else [s[0]] + DigitPrefix(s[1..], radix)
  }

  function DigitsValue(d: string, radix: nat): nat
    requires forall i :: 0 <= i < |d| ==> DigitValue(d[i], radix).Some?
  {
    if d == [] then 0
    else DigitsValue(d[..|d| - 1], radix) * radix + DigitValue(d[|d| - 1], radix).value
  }

  /** `parseInt(s, radix)` for radix 10 or 16, and `parseInt(s)` for radix 0: leading white space
      and one sign are skipped, base 16 (given, or detected when no radix is passed) also skips a
      `0x` prefix, and the longest digit prefix is read. None stands for NaN. */
  function ParseInt(s: string, radix: nat): (r: Option<int>)
    requires radix == 0 || radix == 10 || radix == 16
    ensures TrimStart(s) == "" ==> r == None
    ensures var t := TrimStart(s);
      t != "" && IsDigit(t[0]) && !HasHexPrefix(t) ==> r.Some? && r.value >= 0
  {
    ParseSigned(TrimStart(s), radix)
  }

  function ParseSigned(t: string, radix: nat): Option<int>
    requires radix == 0 || radix == 10 || radix == 16
  {
    if |t| > 0 && t[0] == '-' then
      match ParseUnsigned(t[1..], radix)
      case None => None
      case Some(n) => Some(-n)
    else if |t| > 0 && t[0] == '+' then ParseUnsigned(t[1..], radix)
    else ParseUnsigned(t, radix)
  }

  predicate HasHexPrefix(u: string)
  {
    |u| >= 2 && u[0] == '0' && (u[1] == 'x' || u[1] == 'X')
  }

  function ParseUnsigned(u: string, radix: nat): Option<int>
    requires radix == 0 || radix == 10 || radix == 16
  {
    var base := if radix == 0 then (if HasHexPrefix(u) then 16 else 10) else radix;
    var d := DigitPrefix(if base == 16 && HasHexPrefix(u) then u[2..] else u, base);
    if d == [] then None else Some(DigitsValue(d, base))
  }

  /** Three characters above U+FFFF are three surrogate pairs. */
  lemma CodeUnitsOfThreeAstral(a: char, b: char, c: char)
    requires IsAstral(a) && IsAstral(b) && IsAstral(c)
    ensures CodeUnits([a, b, c]) == [SurrogateHalf, SurrogateHalf, SurrogateHalf, SurrogateHalf, SurrogateHalf, SurrogateHalf]
  {
    var half := [SurrogateHalf, SurrogateHalf];
    assert [c][1..] == [];
    assert CodeUnits([c]) == half + CodeUnits([]);
    assert [b, c][1..] == [c];
    assert CodeUnits([b, c]) == half + CodeUnits([c]);
    assert [a, b, c][1..] == [b, c];
    assert CodeUnits([a, b, c]) == half + CodeUnits([b, c]);
  }

  /** Text that starts with half a surrogate pair has no digits to read: `parseInt` gives NaN. */
  lemma ParseIntOfSurrogate(s: string, radix: nat)
    requires radix == 0 || radix == 10 || radix == 16
    requires |s| > 0 && s[0] == SurrogateHalf
    ensures ParseInt(s, radix) == None
  {
    assert TrimStart(s) == s;
  }

  lemma {:induction false} DigitsOfNatToString(n: nat)
    ensures forall i :: 0 <= i < |NatToString(n)| ==> DigitValue(NatToString(n)[i], 10).Some?
    ensures DigitsValue(NatToString(n), 10) == n
    decreases n
  {
    if n >= 10 {
      DigitsOfNatToString(n / 10);
      var s := NatToString(n);
      assert s[..|s| - 1] == NatToString(n / 10);
    }
  }

  lemma {:induction false} DigitPrefixOfDigits(s: string, radix: nat)
    requires forall i :: 0 <= i < |s| ==> DigitValue(s[i], radix).Some?
    ensures DigitPrefix(s, radix) == s
    decreases |s|
  {
    if s != [] {
      DigitPrefixOfDigits(s[1..], radix);
      assert [s[0]] + s[1..] == s;
    }
  }

  lemma DigitsAreDecimal(d: string)
    requires forall i :: 0 <= i < |d| ==> IsDigit(d[i])
    ensures forall i :: 0 <= i < |d| ==> DigitValue(d[i], 10).Some?
  {
  }

  lemma {:induction false} ParseUnsignedOfDigits(d: string)
    requires d != [] && forall i :: 0 <= i < |d| ==> IsDigit(d[i])
    ensures forall i :: 0 <= i < |d| ==> DigitValue(d[i], 10).Some?
    ensures ParseUnsigned(d, 10) == Some(DigitsValue(d, 10))
  {
    DigitsAreDecimal(d);
    DigitPrefixOfDigits(d, 10);
  }

  /** A non-empty run of decimal digits, with or without a minus sign, parses to its value. */
  lemma {:induction false} ParseIntOfDigits(d: string)
    requires d != [] && forall i :: 0 <= i < |d| ==> IsDigit(d[i])
    ensures forall i :: 0 <= i < |d| ==> DigitValue(d[i], 10).Some?
    ensures ParseInt(d, 10) == Some(DigitsValue(d, 10))
    ensures ParseInt("-" + d, 10) == Some(0 - DigitsValue(d, 10))
  {
    ParseUnsignedOfDigits(d);
    assert !IsSpace(d[0]);
    assert TrimStart(d) == d;
    var s := "-" + d;
    assert !IsSpace(s[0]);
    assert TrimStart(s) == s;
    assert s[1..] == d;
  }

  /** `parseInt(String(n), 10)` gives back n: decimal printing and parsing are inverse. */
  lemma ParseIntOfIntToString(n: int)
    ensures ParseInt(IntToString(n), 10) == Some(n)
  {
    var m: nat := if n >= 0 then n else -n;
    DigitsOfNatToString(m);
    ParseIntOfDigits(NatToString(m));
  }

  lemma ToLowerIdempotent(s: string)
    ensures ToLower(ToLower(s)) == ToLower(s)
  {
  }

  lemma ToUpperIdempotent(s: string)
    ensures ToUpper(ToUpper(s)) == ToUpper(s)
  {
  }
}

=== FILE: theme.dfy ===
/**
 * The page's theme engine: presets, the accent variables, the custom palette
 * variables, clearing them, applying a theme by name, the dark-mode toggle,
 * start-up, and the equipped-theme sync. The style state of the page is the
 * map of CSS custom properties (set on the root and the body together), the
 * local storage map and the dark-mode flag.
 */
module Theme {
  import opened Js
  import opened Text
  import opened ThemeNames
  import opened Palette

  const CreatorSlug := "custom-theme-creator"
  const CreatorName := "Custom Theme Creator"

  /** The CSS custom properties the engine writes. */
  datatype StyleVar =
    | AccentPrimaryVar | AccentSecondaryVar | AccentGradientVar | ShadowVar
    | TextPrimaryVar | TextSecondaryVar | BgSecondaryVar | BorderColorVar | CardBgVar | NavBgVar | BgPrimaryVar

  function VarName(v: StyleVar): string
  {
    match v
    case AccentPrimaryVar => "--accent-primary"
    case AccentSecondaryVar => "--accent-secondary"
    case AccentGradientVar => "--accent-gradient"
    case ShadowVar => "--shadow"
    case TextPrimaryVar => "--text-primary"
    case TextSecondaryVar => "--text-secondary"
    case BgSecondaryVar => "--bg-secondary"
    case BorderColorVar => "--border-color"
    case CardBgVar => "--card-bg"
    case NavBgVar => "--nav-bg"
    case BgPrimaryVar => "--bg-primary"
  }

  /** The local storage entries the engine reads and writes. */
  datatype StoreKey = EquippedThemeKey | CustomPaletteKey | ColorModeKey

  function StoreKeyName(k: StoreKey): string
  {
    match k
    case EquippedThemeKey => "equippedThemeName"
    case CustomPaletteKey => "customThemePalette"
    case ColorModeKey => "theme"
  }

  const AccentVars: set<StyleVar> := {AccentPrimaryVar, AccentSecondaryVar, AccentGradientVar, ShadowVar}
  const SurfaceVars: set<StyleVar> :=
    {TextPrimaryVar, TextSecondaryVar, BgSecondaryVar, BorderColorVar, CardBgVar, NavBgVar, BgPrimaryVar}

  /** Style variables (set on the root and the body together), local storage, and whether the
      body carries `dark-mode`. */
  datatype Page = Page(vars: map<StyleVar, string>, storage: map<StoreKey, string>, dark: bool)

  /** The boolean an apply function returns, with the page it leaves behind. */
  datatype Outcome = Outcome(applied: bool, page: Page)

  datatype Colors = Colors(primary: string, secondary: string)

  /** `THEME_PRESETS[slug]`. */
  function Preset(slug: string): (r: Option<Colors>)
    ensures r.Some? ==> r.value.primary != "" && r.value.secondary != ""
  {
    if slug == "ocean-wave" then Some(Colors("#0EA5E9", "#06B6D4"))
    else if slug == "forest-sanctuary" then Some(Colors("#10B981", "#34D399"))
    else if slug == "sunset-blaze" then Some(Colors("#F59E0B", "#EC4899"))
    else if slug == "neon-nights" then Some(Colors("#8B5CF6", "#EC4899"))
    else if slug == "retro-arcade" then Some(Colors("#EF4444", "#F59E0B"))
    else if slug == "galaxy" then Some(Colors("#6366F1", "#8B5CF6"))
    else None
  }

  /** `after` is `before` with exactly the keys of `changed` (re)written. */
  predicate Writes<K>(before: map<K, string>, after: map<K, string>, changed: set<K>)
  {
    after.Keys == before.Keys + changed
    && forall k :: k in before && k !in changed ==> after[k] == before[k]
  }

  /** The shadow opacity of each mode, as the text it is printed with. */
  function ShadowAlpha(dark: bool): string
  {
    if dark then "0.22" else "0.16"
  }

  function Gradient(a: string, b: string): string
  {
    "linear-gradient(135deg, " + a + " 0%, " + b + " 100%)"
  }

  /** `s.replace('#', '')`: only the first `#` goes. */
  function DropFirstHash(s: string): (r: string)
    ensures '#' !in s ==> r == s
    ensures '#' in s ==> |r| == |s| - 1
    decreases |s|
  {
    if s == [] then []
    else if s[0] == '#' then s[1..]
    else [s[0]] + DropFirstHash(s[1..])
  }

  /** One colour channel: `parseInt(pair, 16)` printed, NaN included. */
  function Channel(pair: string): string
  {
    match ParseInt(pair, 16)
    case None => "NaN"
    case Some(n) => IntToString(n)
  }

  /** The `rgba(red, green, blue, alpha)` text a colour with transparency is written as. */
  function Rgba(red: string, green: string, blue: string, alpha: string): string
  {
    "rgba(" + red + ", " + green + ", " + blue + ", " + alpha + ")"
  }

  /** `hexToRgba(hex, alpha)`: text that is not six UTF-16 code units long after the `#` gets the blue
      fallback; otherwise each pair of code units is read as one channel. */
  function HexToRgba(hex: RawValue, alpha: string): (r: string)
    ensures Utf16Length(DropFirstHash(TextOr(hex))) != 6 ==> r == Rgba("59", "130", "246", alpha)
  {
    var clean := CodeUnits(DropFirstHash(TextOr(hex)));
    if |clean| != 6 then Rgba("59", "130", "246", alpha)
    else Rgba(Channel(clean[0..2]), Channel(clean[2..4]), Channel(clean[4..6]), alpha)
  }

  function HexValue(c: char): nat
    requires IsHexDigit(c)
  {
    DigitValue(c, 16).value
  }

  /** Two hex digits read as one byte. */
  lemma {:induction false} ParseHexPair(x: char, y: char)
    requires IsHexDigit(x) && IsHexDigit(y)
    ensures ParseInt([x, y], 16) == Some(16 * HexValue(x) + HexValue(y))
    ensures 16 * HexValue(x) + HexValue(y) < 256
  {
    var s := [x, y];
    assert !IsSpace(x);
    assert TrimStart(s) == s;
    assert !HasHexPrefix(s);
    assert s[1..] == [y];
    assert DigitPrefix([y], 16) == [y];
    assert DigitPrefix(s, 16) == s;
    assert s[..1] == [x];
    assert DigitsValue([x], 16) == HexValue(x) by {
      assert [x][..0] == [];
    }
  }

  lemma ChannelOfPair(x: char, y: char)
    requires IsHexDigit(x) && IsHexDigit(y)
    ensures Channel([x, y]) == NatToString(ByteOf(x, y))
  {
    ParseHexPair(x, y);
  }

  function ByteOf(x: char, y: char): nat
    requires IsHexDigit(x) && IsHexDigit(y)
  {
    16 * HexValue(x) + HexValue(y)
  }

  /** A hex colour prints as its three byte values: red, green and blue, never NaN. */
  lemma {:induction false} HexToRgbaOfColor(c: string, alpha: string)
    requires IsHexColor(c)
    ensures HexToRgba(Str(c), alpha) ==
      Rgba(NatToString(ByteOf(c[1], c[2])), NatToString(ByteOf(c[3], c[4])), NatToString(ByteOf(c[5], c[6])), alpha)
  {
    var clean := c[1..];
    assert DropFirstHash(TextOr(Str(c))) == clean by {
      assert TextOr(Str(c)) == c;
    }
    assert forall i :: 0 <= i < 6 ==> clean[i] == c[i + 1];
    HexToRgbaOfDigits(Str(c), clean, alpha);
  }

  /** Six code units after the `#` are read in pairs, one channel each. */
  lemma HexToRgbaOfUnits(hex: RawValue, u: string, alpha: string)
    requires CodeUnits(DropFirstHash(TextOr(hex))) == u && |u| == 6
    ensures HexToRgba(hex, alpha) == Rgba(Channel(u[0..2]), Channel(u[2..4]), Channel(u[4..6]), alpha)
  {
  }

  /** A channel made of halves of surrogate pairs is NaN. */
  lemma ChannelOfSurrogates(u: string, i: nat)
    requires i + 2 <= |u| && forall k :: 0 <= k < |u| ==> u[k] == SurrogateHalf
    ensures Channel(u[i..i + 2]) == "NaN"
  {
    ParseIntOfSurrogate(u[i..i + 2], 16);
  }

  /** Six halves of surrogate pairs print as three NaN channels. */
  lemma RgbaOfSurrogates(u: string, alpha: string)
    requires |u| == 6 && forall k :: 0 <= k < |u| ==> u[k] == SurrogateHalf
    ensures Rgba(Channel(u[0..2]), Channel(u[2..4]), Channel(u[4..6]), alpha) == Rgba("NaN", "NaN", "NaN", alpha)
  {
    ChannelOfSurrogates(u, 0);
    ChannelOfSurrogates(u, 2);
    ChannelOfSurrogates(u, 4);
  }

  /** Six code units that are all halves of surrogate pairs pass the length test, and every channel is NaN. */
  lemma SurrogatesAreNaN(hex: RawValue, u: string, alpha: string)
    requires CodeUnits(DropFirstHash(TextOr(hex))) == u && |u| == 6
    requires forall i :: 0 <= i < |u| ==> u[i] == SurrogateHalf
    ensures HexToRgba(hex, alpha) == Rgba("NaN", "NaN", "NaN", alpha)
  {
    HexToRgbaOfUnits(hex, u, alpha);
    RgbaOfSurrogates(u, alpha);
  }

  /** Three characters above U+FFFF are six UTF-16 code units, so they pass the length test, and
      each channel, the two halves of a surrogate pair, is NaN. */
  lemma AstralColourIsNaN(a: char, b: char, c: char, alpha: string)
    requires IsAstral(a) && IsAstral(b) && IsAstral(c)
    ensures HexToRgba(Str(['#', a, b, c]), alpha) == Rgba("NaN", "NaN", "NaN", alpha)
  {
    var text: string := ['#', a, b, c];
    assert TextOr(Str(text)) == text;
    assert DropFirstHash(text) == [a, b, c];
    CodeUnitsOfThreeAstral(a, b, c);
    SurrogatesAreNaN(Str(text), CodeUnits([a, b, c]), alpha);
  }

  /** `#😀😀😀`, as one instance. */
  lemma SmileyColourIsNaN(alpha: string)
    ensures HexToRgba(Str("#\U{1F600}\U{1F600}\U{1F600}"), alpha) == Rgba("NaN", "NaN", "NaN", alpha)
  {
    var s := '\U{1F600}';
    assert "#\U{1F600}\U{1F600}\U{1F600}" == ['#', s, s, s];
    AstralColourIsNaN(s, s, s, alpha);
  }

  lemma HexToRgbaOfDigits(hex: RawValue, clean: string, alpha: string)
    requires DropFirstHash(TextOr(hex)) == clean
    requires |clean| == 6 && forall i :: 0 <= i < 6 ==> IsHexDigit(clean[i])
    ensures HexToRgba(hex, alpha) ==
      Rgba(NatToString(ByteOf(clean[0], clean[1])), NatToString(ByteOf(clean[2], clean[3])), NatToString(ByteOf(clean[4], clean[5])), alpha)
  {
    assert CodeUnits(clean) == clean by {
      assert forall i :: 0 <= i < |clean| ==> !IsAstral(clean[i]);
    }
    assert clean[0..2] == [clean[0], clean[1]];
    assert clean[2..4] == [clean[2], clean[3]];
    assert clean[4..6] == [clean[4], clean[5]];
    ChannelOfPair(clean[0], clean[1]);
    ChannelOfPair(clean[2], clean[3]);
    ChannelOfPair(clean[4], clean[5]);
  }

  /** The value each accent variable gets from a primary/secondary pair. */
  function AccentValue(v: StyleVar, a: string, b: string, shadow: string): string
  {
    match v
    case AccentPrimaryVar => a
    case AccentSecondaryVar => b
    case AccentGradientVar => Gradient(a, b)
    case ShadowVar => shadow
    case _ => ""
  }

  /** The value each variable gets from one mode of a custom palette. */
  function CustomVarValue(v: StyleVar, a: Slots, shadow: string): string
  {
    match v
    case AccentPrimaryVar => a.accentPrimary
    case AccentSecondaryVar => a.accentSecondary
    case AccentGradientVar => Gradient(a.accentPrimary, a.accentSecondary)
    case ShadowVar => shadow
    case TextPrimaryVar => a.textPrimary
    case TextSecondaryVar => a.textSecondary
    case BgSecondaryVar => a.bgSecondary
    case BorderColorVar => a.borderColor
    case CardBgVar => a.cardBg
    case NavBgVar => a.navBg
    case BgPrimaryVar => Gradient(a.bgPrimaryStart, a.bgPrimaryEnd)
  }

  /** The four `setThemeVariable` calls of `applyThemeColors`. */
  function WriteAccents(before: map<StyleVar, string>, a: string, b: string, shadow: string): (after: map<StyleVar, string>)
    ensures Writes(before, after, AccentVars)
    ensures after[AccentPrimaryVar] == a && after[AccentSecondaryVar] == b
    ensures after[AccentGradientVar] == Gradient(a, b) && after[ShadowVar] == shadow
  {
    map v | v in before.Keys + AccentVars :: if v in AccentVars then AccentValue(v, a, b, shadow) else before[v]
  }

  /** The eleven `setThemeVariable` calls of `applyCustomThemePalette`. */
  function WritePalette(before: map<StyleVar, string>, a: Slots, shadow: string): (after: map<StyleVar, string>)
    ensures Writes(before, after, AccentVars + SurfaceVars)
    ensures after[AccentPrimaryVar] == a.accentPrimary && after[AccentSecondaryVar] == a.accentSecondary
    ensures after[AccentGradientVar] == Gradient(a.accentPrimary, a.accentSecondary) && after[ShadowVar] == shadow
    ensures after[TextPrimaryVar] == a.textPrimary && after[TextSecondaryVar] == a.textSecondary
    ensures after[BgSecondaryVar] == a.bgSecondary && after[BorderColorVar] == a.borderColor
    ensures after[CardBgVar] == a.cardBg && after[NavBgVar] == a.navBg
    ensures after[BgPrimaryVar] == Gradient(a.bgPrimaryStart, a.bgPrimaryEnd)
  {
    map v | v in before.Keys + AccentVars + SurfaceVars ::
      if v in AccentVars + SurfaceVars then CustomVarValue(v, a, shadow) else before[v]
  }

  /** `applyThemeColors(primary, secondary, themeName, persist)`. */
  function ApplyThemeColors(p: Page, primary: RawValue, secondary: RawValue, name: RawValue, persist: bool): (r: Outcome)
    ensures r.applied <==> Truthy(primary) && Truthy(secondary)
    ensures !r.applied ==> r.page == p
    ensures r.page.dark == p.dark
    ensures r.applied ==> Writes(p.vars, r.page.vars, AccentVars)
    ensures r.applied ==>
      r.page.vars[AccentPrimaryVar] == JsString(primary)
      && r.page.vars[AccentSecondaryVar] == JsString(secondary)
      && r.page.vars[AccentGradientVar] == Gradient(JsString(primary), JsString(secondary))
      && r.page.vars[ShadowVar] == HexToRgba(primary, ShadowAlpha(p.dark))
    ensures r.applied && persist && Truthy(name) ==> r.page.storage == p.storage[EquippedThemeKey := JsString(name)]
    ensures !(persist && Truthy(name)) ==> r.page.storage == p.storage
  {
    if !Truthy(primary) || !Truthy(secondary) then Outcome(false, p)
    else
      var a := JsString(primary);
      var b := JsString(secondary);
      var vars := WriteAccents(p.vars, a, b, HexToRgba(primary, ShadowAlpha(p.dark)));
      var storage := if persist && Truthy(name) then p.storage[EquippedThemeKey := JsString(name)] else p.storage;
      Outcome(true, Page(vars, storage, p.dark))
  }

  function ModeOf(p: Page): Mode
  {
    if p.dark then Dark else Light
  }

  /** `applyCustomThemePalette(palette, persist)`: the normalised palette's slots for the current mode
      become the eleven variables. */
  function ApplyCustomPalette(p: Page, palette: RawValue, persist: bool): (r: Outcome)
    ensures r.applied <==> Truthy(palette) && IsObjectLike(palette)
    ensures !r.applied ==> r.page == p
    ensures r.page.dark == p.dark
    ensures r.applied ==> Writes(p.vars, r.page.vars, AccentVars + SurfaceVars)
    ensures r.applied ==>
      var a := Normalize(palette, KeepCase).For(ModeOf(p));
      r.page.vars[AccentPrimaryVar] == a.accentPrimary && r.page.vars[AccentSecondaryVar] == a.accentSecondary
      && r.page.vars[TextPrimaryVar] == a.textPrimary && r.page.vars[TextSecondaryVar] == a.textSecondary
      && r.page.vars[BgSecondaryVar] == a.bgSecondary && r.page.vars[BorderColorVar] == a.borderColor
      && r.page.vars[CardBgVar] == a.cardBg && r.page.vars[NavBgVar] == a.navBg
      && r.page.vars[BgPrimaryVar] == Gradient(a.bgPrimaryStart, a.bgPrimaryEnd)
      && r.page.vars[AccentGradientVar] == Gradient(a.accentPrimary, a.accentSecondary)
    ensures r.applied ==>
      r.page.vars[ShadowVar] == HexToRgba(Str(Normalize(palette, KeepCase).For(ModeOf(p)).accentPrimary), ShadowAlpha(p.dark))
    ensures r.applied && persist ==>
      r.page.storage == p.storage[CustomPaletteKey := PaletteJson(Normalize(palette, KeepCase))][EquippedThemeKey := CreatorName]
    ensures !persist ==> r.page.storage == p.storage
  {
    if !Truthy(palette) || !IsObjectLike(palette) then Outcome(false, p)
    else
      var n := Normalize(palette, KeepCase);
      var a := n.For(ModeOf(p));
      var vars := WritePalette(p.vars, a, HexToRgba(Str(a.accentPrimary), ShadowAlpha(p.dark)));
      var storage := if persist then p.storage[CustomPaletteKey := PaletteJson(n)][EquippedThemeKey := CreatorName] else p.storage;
      Outcome(true, Page(vars, storage, p.dark))
  }

  /** `clearCustomThemePalette()`: all eleven variables and the stored palette go. */
  function ClearCustomPalette(p: Page): (r: Page)
    ensures r.vars.Keys == p.vars.Keys - (AccentVars + SurfaceVars)
    ensures forall k :: k in r.vars ==> r.vars[k] == p.vars[k]
    ensures r.storage.Keys == p.storage.Keys - {CustomPaletteKey}
    ensures forall k :: k in r.storage ==> r.storage[k] == p.storage[k]
    ensures r.dark == p.dark
  {
    Page(p.vars - (AccentVars + SurfaceVars), p.storage - {CustomPaletteKey}, p.dark)
  }

  /** `clearThemeColors()`: only the four accent variables go. */
  function ClearThemeColors(p: Page): (r: Page)
    ensures r.vars.Keys == p.vars.Keys - AccentVars
    ensures forall k :: k in r.vars ==> r.vars[k] == p.vars[k]
    ensures r.storage == p.storage && r.dark == p.dark
  {
    Page(p.vars - AccentVars, p.storage, p.dark)
  }

  /** `getStoredCustomThemePalette()`: the stored text, parsed and normalised, if it is an object;
      a missing or empty entry, a syntax error and a parsed non-object all give nothing. */
  function StoredPalette(storage: map<StoreKey, string>, parse: JsonParse): (r: Option<Palette>)
    ensures (CustomPaletteKey !in storage || storage[CustomPaletteKey] == "") ==> r == None
    ensures r.Some? <==>
      CustomPaletteKey in storage && storage[CustomPaletteKey] != "" && parse(storage[CustomPaletteKey]).Parsed?
      && Truthy(parse(storage[CustomPaletteKey]).value) && IsObjectLike(parse(storage[CustomPaletteKey]).value)
    ensures r.Some? ==> r.value == Normalize(parse(storage[CustomPaletteKey]).value, KeepCase)
    ensures r.Some? ==> IsComplete(r.value, KeepCase)
  {
    if CustomPaletteKey !in storage || storage[CustomPaletteKey] == "" then None
    else match parse(storage[CustomPaletteKey])
      case SyntaxError => None
      case Parsed(v) => if !Truthy(v) || !IsObjectLike(v) then None else Some(Normalize(v, KeepCase))
  }

  /** `applyNamedTheme(themeName, persist)`. */
  function ApplyNamedTheme(p: Page, name: RawValue, persist: bool, parse: JsonParse): (r: Outcome)
    ensures !r.applied ==> r.page == p
    ensures r.page.dark == p.dark
    ensures !persist ==> r.page.storage == p.storage
  {
    ApplyBySlug(p, Slug(name), name, persist, parse)
  }

  /** The body of `applyNamedTheme` once the name is slugged: the creator slug applies the stored palette,
      a preset slug its colours under the name as given, and anything else nothing. */
  function ApplyBySlug(p: Page, slug: string, name: RawValue, persist: bool, parse: JsonParse): (r: Outcome)
    ensures !r.applied ==> r.page == p
    ensures r.page.dark == p.dark
    ensures !persist ==> r.page.storage == p.storage
    ensures slug == CreatorSlug ==> (r.applied <==> StoredPalette(p.storage, parse).Some?)
    ensures slug != CreatorSlug ==> (r.applied <==> Preset(slug).Some?)
  {
    if slug == CreatorSlug then
      match StoredPalette(p.storage, parse)
      case None => Outcome(false, p)
      case Some(pal) => ApplyCustomPalette(p, PaletteValue(pal), persist)
    else
      match Preset(slug)
      case None => Outcome(false, p)
      case Some(c) => ApplyThemeColors(p, Str(c.primary), Str(c.secondary), name, persist)
  }

  /** The creator name applies exactly when a palette is stored; any other name exactly when its
      slug is a preset. */
  lemma NamedThemeApplies(p: Page, name: RawValue, persist: bool, parse: JsonParse)
    ensures Slug(name) == CreatorSlug ==> (ApplyNamedTheme(p, name, persist, parse).applied <==> StoredPalette(p.storage, parse).Some?)
    ensures Slug(name) != CreatorSlug ==> (ApplyNamedTheme(p, name, persist, parse).applied <==> Preset(Slug(name)).Some?)
  {
    var slug := Slug(name);
    assert ApplyNamedTheme(p, name, persist, parse) == ApplyBySlug(p, slug, name, persist, parse);
  }

  lemma NamedPreset(p: Page, name: RawValue, persist: bool, parse: JsonParse, c: Colors)
    requires Slug(name) != CreatorSlug && Preset(Slug(name)) == Some(c)
    ensures ApplyNamedTheme(p, name, persist, parse) == ApplyThemeColors(p, Str(c.primary), Str(c.secondary), name, persist)
  {
  }

  lemma NamedCreator(p: Page, name: RawValue, persist: bool, parse: JsonParse, pal: Palette)
    requires Slug(name) == CreatorSlug && StoredPalette(p.storage, parse) == Some(pal)
    ensures ApplyNamedTheme(p, name, persist, parse) == ApplyCustomPalette(p, PaletteValue(pal), persist)
  {
  }

  /** A name that is neither a preset nor the creator changes neither variables nor storage. */
  lemma UnknownNameChangesNothing(p: Page, name: RawValue, persist: bool, parse: JsonParse)
    requires Slug(name) != CreatorSlug && Preset(Slug(name)).None?
    ensures ApplyNamedTheme(p, name, persist, parse) == Outcome(false, p)
  {
  }

  /** A preset sets the four accent variables to its colours and persists the name as given,
      not its slug; every other variable keeps its value. */
  lemma {:induction false} PresetByName(p: Page, name: RawValue, c: Colors, parse: JsonParse)
    requires Slug(name) != CreatorSlug && Preset(Slug(name)) == Some(c)
    ensures var r := ApplyNamedTheme(p, name, true, parse);
      r.applied && Writes(p.vars, r.page.vars, AccentVars)
      && r.page.vars[AccentPrimaryVar] == c.primary && r.page.vars[AccentSecondaryVar] == c.secondary
      && (Truthy(name) ==> r.page.storage == p.storage[EquippedThemeKey := JsString(name)])
  {
    NamedPreset(p, name, true, parse, c);
    PresetColorsApplied(p, c, name);
  }

  lemma PresetColorsApplied(p: Page, c: Colors, name: RawValue)
    requires c.primary != "" && c.secondary != ""
    ensures var r := ApplyThemeColors(p, Str(c.primary), Str(c.secondary), name, true);
      r.applied && Writes(p.vars, r.page.vars, AccentVars)
      && r.page.vars[AccentPrimaryVar] == c.primary && r.page.vars[AccentSecondaryVar] == c.secondary
      && (Truthy(name) ==> r.page.storage == p.storage[EquippedThemeKey := JsString(name)])
  {
  }

  /** Applying a preset after a custom palette leaves the custom text and surface variables in place. */
  lemma {:induction false} PresetKeepsSurfaceVars(p: Page, name: RawValue, persist: bool, parse: JsonParse)
    requires Slug(name) != CreatorSlug
    ensures var r := ApplyNamedTheme(p, name, persist, parse);
      forall k :: k in SurfaceVars && k in p.vars ==> k in r.page.vars && r.page.vars[k] == p.vars[k]
  {
    match Preset(Slug(name))
    case None =>
    case Some(c) =>
      NamedPreset(p, name, persist, parse, c);
      AccentsKeepSurface(p, Str(c.primary), Str(c.secondary), name, persist);
  }

  lemma AccentsKeepSurface(p: Page, primary: RawValue, secondary: RawValue, name: RawValue, persist: bool)
    ensures var r := ApplyThemeColors(p, primary, secondary, name, persist);
      forall k :: k in SurfaceVars && k in p.vars ==> k in r.page.vars && r.page.vars[k] == p.vars[k]
  {
    var r := ApplyThemeColors(p, primary, secondary, name, persist);
    SurfaceNotAccent();
    if r.applied {
      assert Writes(p.vars, r.page.vars, AccentVars);
    }
  }

  lemma SurfaceNotAccent()
    ensures SurfaceVars !! AccentVars
  {
  }

  /** Clearing the accent colours undoes a preset on a page that had none. */
  lemma {:induction false} ClearUndoesThemeColors(p: Page, primary: RawValue, secondary: RawValue, name: RawValue)
    requires p.vars.Keys !! AccentVars
    ensures ClearThemeColors(ApplyThemeColors(p, primary, secondary, name, false).page) == p
  {
    var q := ApplyThemeColors(p, primary, secondary, name, false).page;
    var c := ClearThemeColors(q);
    assert c.vars.Keys == p.vars.Keys;
    assert c.vars == p.vars;
  }

  /** Clearing the custom palette undoes it on a page that had none of its variables. */
  lemma {:induction false} ClearUndoesCustomPalette(p: Page, palette: RawValue)
    requires p.vars.Keys !! (AccentVars + SurfaceVars)
    ensures ClearCustomPalette(ApplyCustomPalette(p, palette, false).page).vars == p.vars
  {
    var q := ApplyCustomPalette(p, palette, false).page;
    var c := ClearCustomPalette(q);
    assert c.vars.Keys == p.vars.Keys;
  }

  /** What `applyCustomThemePalette(palette, true)` stores is read back as the same palette. */
  lemma {:induction false} StoredPaletteRoundTrip(p: Page, palette: RawValue, parse: JsonParse)
    requires ParsesPalettes(parse)
    requires Truthy(palette) && IsObjectLike(palette)
    ensures StoredPalette(ApplyCustomPalette(p, palette, true).page.storage, parse) == Some(Normalize(palette, KeepCase))
  {
    var n := Normalize(palette, KeepCase);
    var s := ApplyCustomPalette(p, palette, true).page.storage;
    PersistedPaletteText(p, palette);
    StoredPaletteOf(s, n, parse);
  }

  lemma PersistedPaletteText(p: Page, palette: RawValue)
    requires Truthy(palette) && IsObjectLike(palette)
    ensures var s := ApplyCustomPalette(p, palette, true).page.storage;
      Holds(s, CustomPaletteKey, PaletteJson(Normalize(palette, KeepCase)))
  {
    var s := ApplyCustomPalette(p, palette, true).page.storage;
    assert s == p.storage[CustomPaletteKey := PaletteJson(Normalize(palette, KeepCase))][EquippedThemeKey := CreatorName];
  }

  /** Storage holding a complete palette's text reads back as that palette. */
  lemma StoredPaletteOf(storage: map<StoreKey, string>, n: Palette, parse: JsonParse)
    requires ParsesPalettes(parse) && IsComplete(n, KeepCase)
    requires CustomPaletteKey in storage && storage[CustomPaletteKey] == PaletteJson(n)
    ensures StoredPalette(storage, parse) == Some(n)
  {
    assert PaletteJson(n)[0] == '{';
    assert parse(PaletteJson(n)) == Parsed(PaletteValue(n));
    NormalizeComplete(n, KeepCase);
  }

  /** The map has the key, with that value. */
  predicate Holds<K>(m: map<K, string>, k: K, v: string)
  {
    k in m && m[k] == v
  }

  /** The theme toggle: flip dark mode, store it, and re-apply the equipped theme without persisting. */
  function Toggle(p: Page, parse: JsonParse): (r: Page)
    ensures r.dark == !p.dark
    ensures ColorModeKey in r.storage && r.storage[ColorModeKey] == (if r.dark then "dark" else "light")
    ensures (EquippedThemeKey !in p.storage || p.storage[EquippedThemeKey] == "") ==> r.vars == p.vars
  {
    var q := Flipped(p);
    if EquippedThemeKey in q.storage && q.storage[EquippedThemeKey] != "" then
      ApplyNamedTheme(q, Str(q.storage[EquippedThemeKey]), false, parse).page
    else q
  }

  /** The page with its mode flipped and the new mode stored. */
  function Flipped(p: Page): (q: Page)
    ensures q.vars == p.vars && q.dark == !p.dark
    ensures Holds(q.storage, ColorModeKey, if q.dark then "dark" else "light")
    ensures forall k :: k != ColorModeKey ==> (k in q.storage <==> k in p.storage)
    ensures forall k :: k != ColorModeKey && k in p.storage ==> q.storage[k] == p.storage[k]
  {
    Page(p.vars, p.storage[ColorModeKey := if !p.dark then "dark" else "light"], !p.dark)
  }

  /** Toggling twice restores the mode; with the creator equipped, the variables follow the palette of
      the mode the toggle switched to. */
  lemma {:induction false} ToggleFollowsMode(p: Page, parse: JsonParse)
    requires EquippedThemeKey in p.storage && p.storage[EquippedThemeKey] != ""
    requires Slug(Str(p.storage[EquippedThemeKey])) == CreatorSlug
    requires StoredPalette(p.storage, parse).Some?
    ensures var r := Toggle(p, parse);
      var pal := StoredPalette(p.storage, parse).value;
      && Holds(r.vars, TextPrimaryVar, pal.For(if r.dark then Dark else Light).textPrimary)
      && Holds(r.vars, AccentPrimaryVar, pal.For(if r.dark then Dark else Light).accentPrimary)
      && Holds(r.storage, EquippedThemeKey, p.storage[EquippedThemeKey])
  {
    var q := Flipped(p);
    var name := p.storage[EquippedThemeKey];
    var pal := StoredPalette(p.storage, parse).value;
    assert Holds(q.storage, EquippedThemeKey, name);
    assert StoredPalette(q.storage, parse) == Some(pal) by {
      StoredPaletteIgnoresMode(p.storage, q.storage, parse);
    }
    assert Toggle(p, parse) == ApplyNamedTheme(q, Str(name), false, parse).page;
    NamedCreator(q, Str(name), false, parse, pal);
    CustomPaletteVars(q, pal);
  }

  /** The stored palette depends on the palette entry alone. */
  lemma StoredPaletteIgnoresMode(a: map<StoreKey, string>, b: map<StoreKey, string>, parse: JsonParse)
    requires CustomPaletteKey in a <==> CustomPaletteKey in b
    requires CustomPaletteKey in a ==> a[CustomPaletteKey] == b[CustomPaletteKey]
    ensures StoredPalette(a, parse) == StoredPalette(b, parse)
  {
  }

  /** A complete palette applied as is puts its own slots for the page's mode into the variables. */
  lemma {:induction false} CustomPaletteVars(q: Page, pal: Palette)
    requires IsComplete(pal, KeepCase)
    ensures var r := ApplyCustomPalette(q, PaletteValue(pal), false).page;
      && Holds(r.vars, TextPrimaryVar, pal.For(ModeOf(q)).textPrimary)
      && Holds(r.vars, AccentPrimaryVar, pal.For(ModeOf(q)).accentPrimary)
      && r.storage == q.storage && r.dark == q.dark
  {
    NormalizeComplete(pal, KeepCase);
  }

  /** The eleven theme variables show the slots `a`, with the shadow at the alpha of the given mode. */
  predicate ShowsSlots(vars: map<StyleVar, string>, a: Slots, dark: bool)
  {
    && Holds(vars, AccentPrimaryVar, a.accentPrimary) && Holds(vars, AccentSecondaryVar, a.accentSecondary)
    && Holds(vars, AccentGradientVar, Gradient(a.accentPrimary, a.accentSecondary))
    && Holds(vars, ShadowVar, HexToRgba(Str(a.accentPrimary), ShadowAlpha(dark)))
    && Holds(vars, TextPrimaryVar, a.textPrimary) && Holds(vars, TextSecondaryVar, a.textSecondary)
    && Holds(vars, BgSecondaryVar, a.bgSecondary) && Holds(vars, BorderColorVar, a.borderColor)
    && Holds(vars, CardBgVar, a.cardBg) && Holds(vars, NavBgVar, a.navBg)
    && Holds(vars, BgPrimaryVar, Gradient(a.bgPrimaryStart, a.bgPrimaryEnd))
  }

  /** Applying a complete palette as is shows its slots for the page's mode, writes no other variable,
      and when persisting stores that palette's own text under the creator's name. */
  lemma {:induction false} AppliedCompletePalette(p: Page, n: Palette, persist: bool)
    requires IsComplete(n, KeepCase)
    ensures var r := ApplyCustomPalette(p, PaletteValue(n), persist);
      && r.applied && r.page.dark == p.dark
      && Writes(p.vars, r.page.vars, AccentVars + SurfaceVars)
      && ShowsSlots(r.page.vars, n.For(ModeOf(p)), p.dark)
      && r.page.storage == (if persist then p.storage[CustomPaletteKey := PaletteJson(n)][EquippedThemeKey := CreatorName] else p.storage)
  {
    NormalizeComplete(n, KeepCase);
  }

  /** Page start-up: dark mode when storage says so, then the equipped theme, not persisted. */
  function Load(storage: map<StoreKey, string>, parse: JsonParse): (r: Page)
    ensures r.dark <==> (ColorModeKey in storage && storage[ColorModeKey] == "dark")
    ensures r.storage == storage
    ensures (EquippedThemeKey !in storage || storage[EquippedThemeKey] == "") ==> r.vars == map[]
  {
    var p := Page(map[], storage, ColorModeKey in storage && storage[ColorModeKey] == "dark");
    if EquippedThemeKey in storage && storage[EquippedThemeKey] != "" then ApplyNamedTheme(p, Str(storage[EquippedThemeKey]), false, parse).page
    else p
  }

  /** What the inventory query gave back: an error (or no signed-in user), or the returned data. */
  datatype Response = Failed | Data(value: RawValue)

  datatype Found = Throws | NotFound | Found(item: RawValue)

  /** `data.find(row => row.shop_items && row.shop_items.category === 'theme')`; a null or undefined
      row makes the callback throw. */
  function FindThemeRow(rows: seq<RawValue>): (r: Found)
    ensures r.Found? ==> Truthy(r.item) && Get(r.item, "category") == Str("theme")
    decreases |rows|
  {
    if rows == [] then NotFound
    else if rows[0].Absent? || rows[0].Null? then Throws
    else
      var item := Get(rows[0], "shop_items");
      if Truthy(item) && Get(item, "category") == Str("theme") then Found(item)
      else FindThemeRow(rows[1..])
  }

  /** `syncEquippedThemeFromDb()`: the equipped theme row by name, else by its colours, else (for the
      creator) the stored palette. */
  function Sync(p: Page, response: Response, parse: JsonParse): (r: Page)
    ensures response.Failed? || !response.value.Arr? ==> r == p
    ensures r.dark == p.dark
  {
    if response.Failed? || !response.value.Arr? then p
    else match FindThemeRow(response.value.items)
      case Throws => p
      case NotFound => p
      case Found(item) =>
        var name := Get(item, "name");
        var byName := ApplyNamedTheme(p, name, true, parse);
        var colors := Get(Get(item, "properties"), "colors");
        if byName.applied then byName.page
        else if Truthy(colors) then
          ApplyThemeColors(byName.page, Get(colors, "primary"), Get(colors, "secondary"), name, true).page
        else if Slug(name) == CreatorSlug then
          match StoredPalette(byName.page.storage, parse)
          case None => byName.page
          case Some(pal) => ApplyCustomPalette(byName.page, PaletteValue(pal), true).page
        else byName.page
  }

  /** The last branch of the sync never changes anything: a creator name fails by name only when no
      palette is stored, and then the fallback finds none either. */
  lemma {:induction false} SyncFallbackInert(p: Page, rows: seq<RawValue>, parse: JsonParse)
    requires FindThemeRow(rows).Found?
    requires var item := FindThemeRow(rows).item;
      !ApplyNamedTheme(p, Get(item, "name"), true, parse).applied && !Truthy(Get(Get(item, "properties"), "colors"))
    ensures Sync(p, Data(Arr(rows)), parse) == p
  {
    var item := FindThemeRow(rows).item;
    var name := Get(item, "name");
    assert ApplyNamedTheme(p, name, true, parse).page == p;
    if Slug(name) == CreatorSlug {
      assert StoredPalette(p.storage, parse).None?;
    }
  }
}
